=== FILE: README.md ===
# terminal_utils core, in Dafny

A model of the layout, styling, wrapping and line-editing core of `terminal_utils`, a small Python
toolkit for drawing text user interfaces in a terminal. The model covers the following pieces.

- **Grid** (`array2d.dfy`): `Array2D` is a mutable grid of optional cells. It has strict
  get/set, bulk row and column writes with length checks, transpose, fill, subset and a
  clipping composite.
- **Style** (`style.dfy`): colours, cell properties and styled cells, and their serialisation
  to ANSI SGR escapes. The codes are those of ECMA-48 section 8.3.117. The `38;2;r;g;b` and
  `48;2;r;g;b` direct-colour forms are those of ITU-T T.416.
- **CellFields** (`cellfield.dfy`): `CellField` is a fixed-size canvas of styled cells. It has
  permissive get/set, a border painter, and a flattening into one string of lines. Its contents
  are stated as a pure `Canvas` value.
- **TextWrapping** (`textwrapping.dfy`): the five line-splitting policies (word, hard,
  hyphenate, truncate, truncate with ellipsis) and the dispatcher. Each policy is a loop, proved
  against a pure specification function.
- **Views** (`views.dfy`): the view tree.
  - Each node kind renders into a freshly allocated `CellField`, proved against a pure
    `RenderSpec` picture.
  - The layout arithmetic of the base container is stated as separate functions: natural sizes,
    justification, alignment, advance.
- **KeyEscape** (`keyescape.dfy`): the decoder that turns an escaped input string into a tagged
  key press. It also covers the xterm modifier parameter and the friendly key names.
- **Commands** (`commands.dfy`): the command registry. Commands are kept by name in insertion
  order, with a first-match prefix lookup, the `help` listing and the built-in command index.
- **Shell** (`termlink.dfy`): the line editor.
  - Key presses are queued until they form a complete key. They then edit the input line, walk
    the history, or submit the line to the registry.
  - Each handler of the `Termlink` class is proved against a step function on an `Editor` value.
    Every key press of at least one character keeps the cursor within the line and the selection
    within the history (`Shell.KeyPressConsistent`).

`wrappers.dfy` holds `Option`/`Result`. `strings.dfy` holds the Python string built-ins the core
relies on: `str.split()`, `str.split(sep)`, `str.join`, clamped slices and `str(int)`.

### Behaviour of the code worth knowing

- **Container layout.** The comment at View2D.py:66-73 says each child is rendered and then
  placed. The code computes the natural sizes over the list of rendered children before any
  child is rendered (View2D.py:75-78). So `max()` of an empty sequence raises for every child
  list, even an empty one. `Views.ContainerFails` states this, and `Views.TextViewFails` states
  that every text view fails through it.
- **Fill sizing.** The parent callbacks return dicts (View2D.py:104-108, 208-212), but their
  callers read them by attribute (View2D.py:90, 98, 261). A Fill-sized text view therefore
  always fails.
- **Word wrapping.** The comment at TextWrapping.py:38 says a word starts a new line when adding
  it would exceed the width. The fit test at TextWrapping.py:53 leaves out the joining space. So
  "Hello World" is packed onto a line of width 10, and a packed line can be one longer than the
  width (`TextWrapping.WordWrapOverflows`).
- **Hyphenation.** The comment at TextWrapping.py:100 and the test at TextWrapping.py:117 both
  use "width - 1", and a hyphen is added even to an empty first line
  (`TextWrapping.HyphenateSpec`).
- **Ellipsis below width 3.** `line[:self.width - 3]` (TextWrapping.py:170) is a slice with a
  negative bound when the width is below 3. The line returned is then longer than the width
  (`TextWrapping.EllipsisOverflows`).
- **Unpadded border.** The content is composited at offset `padding` over the border ring
  (View2D.py:327). With padding 0 it covers the whole ring (`Views.BorderedUnpadded`).
- **Subset shape.** `subset(x, y, w, h)` allocates a grid of `w` rows and `h` columns, then
  fills it as `h` rows of `w` columns (Array2D.py:175).
- **Composite bounds.** `composite` checks only the upper bounds (Array2D.py:168). The model
  takes non-negative offsets.
- **A bare `help`.** A non-built-in lookup needs a space after the name, so typing `help` alone
  runs the unrecognized-command handler (`Shell.BareHelpUnrecognized`).
- **Two escapes in a row.** Keys arrive one character at a time. Once the queue starts with the
  escape token twice, `parse_keycode` reads it as a lone escape (IOEscape.py:274-276), which
  counts as possibly incomplete, so `handle_key_press` returns before flushing
  (Termlink.py:69-71). Every later key, Ctrl+C included, only joins the queue
  (`Shell.KeyPressAfterDoubleEscape`).

## Model

| member | source | states |
|---|---|---|
| Grid.Transposed | Array2D.py:198-201 | the transposed grid has the swapped dimensions and holds `a[r][c]` at `[c][r]` |
| Grid.TransposedTwice | Array2D.py:198-201 | transposing twice gives back the original grid |
| Grid.Composited | Array2D.py:165-172 | every entry of the overlay whose destination is inside the grid is copied there; every cell no overlay entry lands on is unchanged; the shape is kept |
| Grid.Array2D.constructor | Array2D.py:132-133 | a new grid has the requested dimensions and every cell empty |
| Grid.Array2D.Get | Array2D.py:135-137 | the entry at `(row, col)` is the entry at `(col, row)` of the transposed grid |
| Grid.Array2D.At | Array2D.py:143-144 | `at(x, y)` reads the entry `get((y, x))` reads: `x` is the column and `y` the row |
| Grid.Array2D.Set | Array2D.py:135-141 | the addressed cell reads back the value; every other cell and the dimensions are unchanged |
| Grid.Array2D.SetAt | Array2D.py:143-147 | the same as `Set` with `(x, y)` read as column and row |
| Grid.Array2D.PutAtRow | Array2D.py:154-157 | ValueError when the data runs past the last column, else IndexError when the row is past the last row, changing nothing either way; otherwise writes exactly the columns `index..index+len-1` of that row |
| Grid.Array2D.PutAtCol | Array2D.py:160-163 | ValueError when the data runs past the last row, else IndexError when the column is past the last column; on either error the grid is left transposed; on success exactly the rows `index..index+len-1` of that column are written with the shape kept |
| Grid.Array2D.Composite | Array2D.py:165-172 | the new contents are the clipped overlay `Composited` of the old contents, with the shape kept |
| Grid.Array2D.Subset | Array2D.py:174-179 | succeeds exactly when the transposed-shape copy stays in range; the result is a fresh grid of `width` rows and `height` columns holding `cells[r + y][c + x]`; otherwise an index error |
| Grid.Array2D.GetRow | Array2D.py:181-182 | one entry per column, entry `c` being `Get(row, c)` |
| Grid.Array2D.GetCol | Array2D.py:184-185 | the column read top to bottom, one entry per row; `[]` for any column of a grid with no rows |
| Grid.Array2D.SetRow | Array2D.py:187-190 | fails, changing nothing, unless the length is the column count; otherwise that row reads back the values and the other rows are unchanged |
| Grid.Array2D.SetCol | Array2D.py:192-196 | fails, changing nothing, unless the length is the row count; otherwise that column reads back the values and the other columns are unchanged |
| Grid.Array2D.Transpose | Array2D.py:198-201 | swaps the dimensions and the contents become `Transposed` of the old ones |
| Grid.Array2D.Fill | Array2D.py:203-206 | every cell holds the value and the shape is kept |
| Style.AnsiValue | CellField.py:36-46 | the basic colours take the values 0-7 and only `default` takes 9 |
| Style.AnsiColorFromStr | CellField.py:47-67 | succeeds exactly for the nine colour names, with a colour of that name; any other string is an error |
| Style.AnsiColorFromStrOfName | CellField.py:47-67 | every colour is found again from its own name |
| Style.MakeColor | CellField.py:13-25 | only an argument that is no colour, no RGB triple and no integer is refused; RGB arguments give a direct colour and the others a basic one |
| Style.AnsiFg | CellField.py:26-29 | the foreground escape starts `ESC[3` and ends with the colour value and `m`, 4 characters longer than the value for an ANSI colour and 6 otherwise |
| Style.AnsiBg | CellField.py:31-35 | the background escape starts `ESC[4` and ends with the colour value and `m`, 4 characters longer than the value for an ANSI colour and 6 otherwise |
| Style.FgBgDistinct | CellField.py:26-35 | no foreground escape equals any background escape |
| Style.ColorEscapes | CellField.py:13-35 | integer and named colours give `ESC[3vm`/`ESC[4vm`, and RGB triples give `ESC[38;2;r;g;bm`/`ESC[48;2;r;g;bm` |
| Style.EffectCodesFrom | CellField.py:92-116 | the effect codes emitted from a position in the fixed order are exactly the set flags from there on, in that order |
| Style.CellProperties.Copy | CellField.py:118-129 | field by field, a passed argument replaces the field and an absent one keeps the original value, for any mix of arguments |
| Style.CopyExtremes | CellField.py:118-129 | with no argument passed the copy equals the original; with every argument passed it is built from the arguments alone |
| Style.EffectCodes | CellField.py:92-116 | exactly the set flags are emitted, in the order underline 4, bold 1, italic 3, strikethrough 9, inverse 7, invisible 8, blink 5 |
| Style.RenderProperties | CellField.py:92-116 | the SGR escapes of exactly the set attributes (`EffectCodes`, in their fixed order), then the foreground, then the background escape |
| Style.RenderCell | CellField.py:141-144 | a cell's text is its property prefix, then its character, then the reset escape, with nothing else between them |
| Style.RenderCellLineFree | CellField.py:141-144 | a rendered cell never holds a line break when its character is not one |
| Style.Bold | CellField.py:146-147 | same character, bold set, every other property unchanged |
| Style.Italic | CellField.py:149-150 | same character, italic set, every other property unchanged |
| Style.Underline | CellField.py:152-153 | same character, underlined set, every other property unchanged |
| Style.Strikethrough | CellField.py:155-156 | same character, strikethrough set, every other property unchanged |
| Style.Inverse | CellField.py:158-159 | same character, inverse set, every other property unchanged |
| Style.Invisible | CellField.py:161-162 | same character, invisible set, every other property unchanged |
| Style.Blink | CellField.py:164-165 | same character, blink set, every other property unchanged |
| Style.FgColor | CellField.py:167-168 | same character, the new foreground, every other property unchanged |
| Style.BgColor | CellField.py:170-171 | same character, the new background, every other property unchanged |
| CellFields.Blank | CellField.py:179-181 | a canvas of the given size whose every cell is a plain space |
| CellFields.CellAt | CellField.py:206-214 | the stored cell inside the field, and a plain space at any coordinate outside it, negative ones included |
| CellFields.WithCell | CellField.py:195-205 | inside the canvas the addressed cell reads back the new cell and no other changes; outside, the canvas is unchanged |
| CellFields.WithBorder | CellField.py:217-224 | exactly the cells on the outer ring take the border function's cell; the interior is unchanged |
| CellFields.Overlay | Array2D.py:165-172 | the top canvas is copied in where it lands inside; every cell it does not cover is unchanged; the size is kept |
| CellFields.OverlayOnBlank | View2D.py:219-229 | a canvas overlaid `p` in on a blank canvas `2p` larger appears shifted by `p`, with spaces all around |
| CellFields.OverlayWhole | View2D.py:315-330 | overlaying a canvas of the same size at the origin gives that canvas |
| CellFields.TextLines | CellField.py:183-193 | the flattened text, split on line breaks, is the rendered rows, one per row, then an empty tail |
| CellFields.CellField.Model | CellField.py:174-181 | the canvas a field holds has the field's width and height |
| CellFields.CellField.constructor | CellField.py:179-181 | a new field is the blank canvas of its size |
| CellFields.CellField.Get | CellField.py:206-216 | the cell at the coordinates, or a plain space outside the field |
| CellFields.CellField.Set | CellField.py:195-205 | the new canvas is `WithCell` of the old one, so writes outside the field change nothing |
| CellFields.CellField.ApplyBorder | CellField.py:217-224 | the new canvas is `WithBorder` of the old one |
| CellFields.CellField.Render | CellField.py:183-193 | the text is every rendered cell row by row, with a line break after each row |
| CellFields.CellField.RenderRow | CellField.py:186-192 | one row's text is the concatenation of its rendered cells |
| TextWrapping.WordWrapSpec | TextWrapping.py:32-63 | never empty; text without words gives one empty line; a first word longer than the width gives an empty first line |
| TextWrapping.WordWrapKeepsWords | TextWrapping.py:48-61 | the words of the lines, in order, are exactly the words of the text, and each line is its words joined by single spaces |
| TextWrapping.WordWrapBound | TextWrapping.py:52-59 | each line either fits in the width plus one or is a single word |
| TextWrapping.WordWrapOverflows | TextWrapping.py:53 | "abc de" at width 5 stays one line of 6 characters, since the fit test leaves out the joining space |
| TextWrapping.WordWrap | TextWrapping.py:32-63 | the loop's lines are `WordWrapSpec` of the text |
| TextWrapping.HardWrapSpec | TextWrapping.py:65-92 | never empty |
| TextWrapping.HardWrapConcat | TextWrapping.py:80-92 | the lines concatenated give back the text, line breaks included |
| TextWrapping.HardWrapLengths | TextWrapping.py:80-92 | for a positive width every line but the last has exactly the width; empty text gives one empty line, and otherwise the last line has 1 to `width` characters |
| TextWrapping.HardWrap | TextWrapping.py:65-92 | the loop's lines are `HardWrapSpec` of the text |
| TextWrapping.HyphenateSpec | TextWrapping.py:94-128 | never empty; text without words gives one empty line; a first word that does not fit with its space gives a first line of just "-" |
| TextWrapping.HyphenateShape | TextWrapping.py:112-128 | the words of the lines, hyphens taken off, are the words of the text in order, and every line but the last ends with "-" |
| TextWrapping.HyphenateLastLine | TextWrapping.py:126-128 | the last line holds no hyphen when the words hold none |
| TextWrapping.HyphenateWrap | TextWrapping.py:94-128 | the loop's lines are `HyphenateSpec` of the text |
| TextWrapping.TruncateLine | TextWrapping.py:142-150 | a prefix of the line, the line itself when it fits, and exactly the width long otherwise |
| TextWrapping.TruncateSpec | TextWrapping.py:130-150 | one line per line-break-separated segment, each the truncated segment |
| TextWrapping.TruncateKeepsFittingText | TextWrapping.py:142-150 | text whose every segment fits is given back unchanged once the lines are rejoined |
| TextWrapping.TruncateWrap | TextWrapping.py:130-150 | the loop's lines are `TruncateSpec` of the text |
| TextWrapping.EllipsisLine | TextWrapping.py:165-173 | a fitting line is unchanged; from width 3 an over-long line becomes its first `width-3` characters and "...", exactly the width long |
| TextWrapping.EllipsisSpec | TextWrapping.py:152-173 | one line per segment, each `EllipsisLine` of the segment |
| TextWrapping.EllipsisBound | TextWrapping.py:165-173 | from width 3 no line exceeds the width |
| TextWrapping.EllipsisOverflows | TextWrapping.py:170 | below width 3 the negative slice keeps characters: "abcd" at width 2 becomes "abc..." |
| TextWrapping.TruncateWithEllipsisWrap | TextWrapping.py:152-173 | the loop's lines are `EllipsisSpec` of the text |
| TextWrapping.WrapSpec | TextWrapping.py:18-30 | every policy gives at least one line |
| TextWrapping.Wrap | TextWrapping.py:18-30 | the dispatcher gives the chosen policy's lines, never none |
| Views.MaxOf | View2D.py:76-78 | the largest element, or an error exactly for an empty sequence |
| Views.NaturalSizes | View2D.py:75-78 | fails with the `max()` error exactly for no rendered children; otherwise the sums of widths and of heights, each plus the spacing between children, and a maximum height and width that bound every child and are each attained by some child |
| Views.JustifyOffset | View2D.py:116-122 | the first child is never offset, whatever the justification |
| Views.AlignOffset | View2D.py:134-143 | left alignment gives 0, right alignment puts the child flush with the far edge, and centre splits the slack with the far side at most one larger |
| Views.Positions | View2D.py:144-175 | one position per child |
| Views.PositionsDisjoint | View2D.py:144-175 | each child starts exactly its predecessor's size plus the spacing after it, so children never overlap |
| Views.Debug | View2D.py:180-191 | size and characters are kept, and with `debug_bg` every background becomes ANSI red while the other properties stay |
| Views.BoxGlyph | View2D.py:292-307 | a glyph exactly on the outer ring of the field, always one of the six box-drawing characters |
| Views.BoxGlyphRing | View2D.py:292-307 | on a field at least 2 by 2: the four corners, `│` down the sides, `─` along the top and bottom, nothing inside |
| Views.BorderCell | View2D.py:292-313 | a ring cell is its glyph in the border colour with otherwise default properties; any other cell is `Cell(" ")` |
| Views.BorderFunction | View2D.py:292-315 | the function handed to `apply_border` is total and gives `BorderCell` for every size and position |
| Views.TextRow | View2D.py:235-245 | a canvas one row high and as wide as the text, cell `i` the plain character `text[i]` |
| Views.RenderSpec | View2D.py:57-340 | every picture a node renders is a well-formed canvas |
| Views.ContainerRender | View2D.py:57-78 | no child list gives a 0 by 0 field; any child list fails with the `max()` error |
| Views.TextViewSpec | View2D.py:252-275 | always fails: Fill sizing on the callback, any other sizing with the `max()` error of the stack |
| Views.Framed | View2D.py:287-330 | the framed picture is `2 * padding` wider and taller than the content |
| Views.FramedPlacesContent | View2D.py:287-330 | the content is found whole `padding` cells in from the frame's top-left corner |
| Views.PaddedSpec | View2D.py:197-229 | a padded node's picture is well formed |
| Views.BorderedSpec | View2D.py:283-330 | a bordered node's picture is well formed |
| Views.ContainerFails | View2D.py:57-78 | a container without a child list is 0 by 0; with any child list, even an empty one, rendering fails with the `max()` error |
| Views.TextViewFails | View2D.py:252-275 | a text view never renders: Fill fails on the callback, anything else fails in its stack |
| Views.PrimitiveTextShape | View2D.py:235-245 | a primitive text renders as one row of its characters in default style |
| Views.PaddedShape | View2D.py:197-229 | with one rendered child the canvas is the child's size plus twice the padding, the child shifted by the padding, and spaces elsewhere |
| Views.PaddedChildCount | View2D.py:197-203 | a child list of any other length than one is refused |
| Views.BorderedShape | View2D.py:283-330 | with padding at least 1 the canvas is the content's size plus twice the padding, the ring holds the border function's cells, and the content sits `padding` in |
| Views.BorderedUnpadded | View2D.py:283-330 | with padding 0 the content covers the whole field, ring included |
| Views.SpacerShape | View2D.py:334-340 | a spacer is `width.value` by `height.value` spaces, and Auto and Fill widths give 0 |
| Views.DebugField | View2D.py:180-191 | the field's new canvas is `Debug` of the old one |
| Views.CompositeField | Array2D.py:165-172 | the field's new canvas is the other field overlaid at the offset |
| Views.RenderPrimitiveText | View2D.py:235-245 | a fresh field holding `TextRow` of the text |
| Views.RenderContainer | View2D.py:57-178 | fails exactly when the container picture fails, with its error; otherwise a fresh field holding that picture |
| Views.Render | View2D.py:57-340 | fails exactly when `RenderSpec` fails, with the same error; otherwise a fresh field holding that picture |
| Views.RenderTextView | View2D.py:252-275 | fails exactly when the text view picture fails, with its error; otherwise a fresh field holding it |
| Views.RenderPadded | View2D.py:197-229 | fails exactly when `PaddedSpec` fails, with its error; otherwise a fresh field holding it |
| Views.FrameField | View2D.py:288-330 | a fresh field holding the border ring, debug colouring and the content composited `padding` in |
| Views.PadField | View2D.py:217-229 | a fresh field `2 * padding` wider and taller than the child, blank but for the child composited `padding` in |
| Views.RingField | View2D.py:287-324 | a fresh field `2 * padding` wider and taller than the content, holding the border ring in the border colour with the debug colouring |
| Views.RenderBordered | View2D.py:283-330 | fails exactly when `BorderedSpec` fails, with its error; otherwise a fresh field holding it |
| KeyEscape.Keycode.ResolveFriendlyName | IOEscape.py:192-215 | without modifiers, or when they are not asked for, the bare table name; when asked for, the modifier prefixes then the name; an empty name only for an empty character; unknown keys end in their character |
| KeyEscape.KeyClasses | IOEscape.py:174-190 | a key is a character exactly when its type is CHAR, special exactly when an escape or incomplete, possibly-incomplete keys are special, and characters are none of the others |
| KeyEscape.CalculateModifier | IOEscape.py:320-327 | parameter 1 gives no modifiers and 0 gives all four |
| KeyEscape.ModifierParam | IOEscape.py:320-327 | the parameter that encodes a modifier set lies in 1..16 |
| KeyEscape.CalculateModifierOfParam | IOEscape.py:320-327 | decoding the parameter of any modifier set gives that set back |
| KeyEscape.ParamOfCalculateModifier | IOEscape.py:320-327 | every parameter in 1..16 is the encoding of its decoded modifiers |
| KeyEscape.CalculateModifierPeriodic | IOEscape.py:320-327 | only the low four bits of `m-1` matter: adding 16 decodes the same |
| KeyEscape.DigitRun | IOEscape.py:286 | the length of the leading run of ASCII digits |
| KeyEscape.MatchVt | IOEscape.py:286-292 | a match is a well-formed `digits(;digits)~` form that starts the text |
| KeyEscape.MatchVtOfBody | IOEscape.py:286-292 | the scanner finds any well-formed VT form again at the head of a text |
| KeyEscape.MatchXterm | IOEscape.py:295-303 | a match is a well-formed `(digits)letter` form that starts the text |
| KeyEscape.MatchXtermOfBody | IOEscape.py:295-303 | the scanner finds any well-formed xterm form again at the head of a text |
| KeyEscape.MatchXtermNeedsLetter | IOEscape.py:295-308 | text holding no ASCII letter never matches the xterm form |
| KeyEscape.VtKey | IOEscape.py:286-292 | a VT key's code is the decimal value of its first number, spelled by its character |
| KeyEscape.ParseBracket | IOEscape.py:283-312 | after the token and "[", a key is VT exactly when the text ends in "~" and matches, xterm when a letter form matches, a character `input[0]` when "~" does not match, and otherwise incomplete and unterminated |
| KeyEscape.ParseKeycode | IOEscape.py:265-315 | empty input is the NONE key; input not led by the token is a character carrying `input[0]`; every special key is led by the token; only NONE and INCOMPLETE are unterminated; VT keys end in "~" with their number as code; xterm keys carry one letter and code -1 |
| KeyEscape.ParseOfBracket | IOEscape.py:274-283 | input of the token and "[" is decided by what follows the bracket alone |
| KeyEscape.ParseEscape | IOEscape.py:274-277 | the token alone, or the token followed by another token, is ESC |
| KeyEscape.ParseAlt | IOEscape.py:278-312 | the token and "[" is ALT_BRACKET, and the token and one other character is ALT_KEYPRESS with that character |
| KeyEscape.ParseVtSequence | IOEscape.py:283-292 | every VT sequence decodes to its code, its modifier parameter (1 when absent) and the extra-modifier flag |
| KeyEscape.ParseXtermSequence | IOEscape.py:294-303 | every xterm sequence decodes to its letter, its modifier parameter (1 when absent) and the extra-modifier flag |
| KeyEscape.ParseUnmatchedTilde | IOEscape.py:283-315 | text ending in "~" that is no VT form falls through to a character carrying `input[0]` |
| KeyEscape.ParseWithoutFinal | IOEscape.py:294-308 | text without a letter that does not end in "~" is INCOMPLETE and unterminated |
| KeyEscape.VtPrefixWaits | IOEscape.py:283-308 | every proper prefix of a VT sequence from the token on is possibly incomplete, so it waits for more |
| KeyEscape.XtermPrefixWaits | IOEscape.py:294-308 | every proper prefix of an xterm sequence from the token on is possibly incomplete |
| KeyEscape.NameOfVtSequence | IOEscape.py:106-215 | a decoded VT key is named by its number's table entry, when that entry is not empty |
| KeyEscape.NameOfXtermSequence | IOEscape.py:106-215 | a decoded xterm key is named by its letter's table entry, when that entry is not empty |
| KeyEscape.CtrlDeleteExample | IOEscape.py:106-215 | `token[3;5~` is named "Ctrl+Delete" |
| KeyEscape.ShiftUpExample | IOEscape.py:106-215 | `token[2A` is named "Shift+Up" |
| Commands.FirstMatch | TermlinkCommand.py:15-19 | the first key in insertion order that the input starts with, followed by a space unless built in; none exactly when no key matches |
| Commands.Resolve | TermlinkCommand.py:15-21 | a found command is one stored under a matching name; nothing is found exactly when no stored name matches |
| Commands.ResolveNeedsSpace | TermlinkCommand.py:17-21 | input without a space is never found by a non-built-in lookup, a bare command name included |
| Commands.HelpNamesExact | TermlinkCommand.py:40-44 | the listed names are exactly the registered names not starting with "_" |
| Commands.HelpNamesAppend | TermlinkCommand.py:12-44 | a newly registered name is listed last, unless it is hidden |
| Commands.HelpLinesStep | TermlinkCommand.py:40-44 | one more registered name adds its own line at the end of the listing, unless it starts with "_" |
| Commands.CommandRegistry.constructor | TermlinkCommand.py:9-10 | a new registry holds no commands |
| Commands.CommandRegistry.Register | TermlinkCommand.py:12-13 | the command is stored under its name, replacing an earlier one, and a new name is added at the end of the order |
| Commands.CommandRegistry.GetCommandForShellInput | TermlinkCommand.py:15-21 | the loop returns `Resolve` of the registry and the input |
| Commands.IndexRegistry | TermlinkCommand.py:55-58 | registering the index gives the keys "help" then "_unrecognized_command", each under its own command |
| Commands.IndexLookups | TermlinkCommand.py:15-58 | against the index, a built-in lookup of "_unrecognized_command" finds its handler, "help " finds help, a bare "help" finds nothing, and help lists only "help" |
| Shell.NormalKey | Termlink.py:108-113 | the key's text is inserted at the cursor and the cursor moves one on; the history is untouched and a one-character key keeps the cursor in bounds |
| Shell.Backspace | Termlink.py:124-132 | the character before the cursor is removed and the cursor moves back one; at the start only the bell rings |
| Shell.Delete | Termlink.py:169-176 | the character under the cursor is removed and the cursor stays; at the end only the bell rings |
| Shell.Left | Termlink.py:134-138 | the buffer is kept and the cursor moves back one when it can; at the start of the line only the bell rings; the cursor stays in bounds |
| Shell.Right | Termlink.py:140-144 | the buffer is kept and the cursor moves on one when it can; at the end of the line only the bell rings; the cursor stays in bounds |
| Shell.Home | Termlink.py:163-164 | the cursor is at the start of the line |
| Shell.End | Termlink.py:166-167 | the cursor is at the end of the line |
| Shell.Up | Termlink.py:146-153 | below the newest entry, the next entry is loaded with the cursor at its end; otherwise only the bell rings; the selection stays within the history |
| Shell.Down | Termlink.py:155-161 | above the oldest entry, the previous entry is loaded with the cursor at its end; otherwise only the bell rings; the selection stays within the history |
| Shell.Enter | Termlink.py:115-119 | the line is appended to the history and cleared with the cursor at 0, the selection is not reset, and the terminal output only grows |
| Shell.CommandOutput | Termlink.py:205-223 | the output of a command matching the line; when none matches, of a built-in match for the unrecognized handler; when neither exists, the FATAL message |
| Shell.SpecialKey | Termlink.py:91-106 | history, queue and running flag are kept; a name outside the seven handled ones changes nothing; the cursor moves keep the line and selection |
| Shell.ExtraKey | Termlink.py:80-89 | the queue and selection are kept; only Ctrl+C stops the shell; only enter adds to the history, clearing the line; other keys than enter, backspace and Ctrl+C change nothing |
| Shell.KeyPress | Termlink.py:61-78 | a press whose queue parses to a special key that may still grow only adds the key to the queue; any other press empties the queue |
| Shell.BackspaceUndoesInsert | Termlink.py:108-132 | typing a character and then backspace gives back the editor |
| Shell.DeleteUndoesInsert | Termlink.py:108-176 | typing a character, moving left and deleting gives back the editor |
| Shell.RightUndoesLeft | Termlink.py:134-144 | moving left then right inside the line gives back the editor |
| Shell.HistoryWalk | Termlink.py:146-161 | the first Up loads the oldest entry, Down undoes Up, and the selection never goes back to -1 once an entry is selected |
| Shell.EnterKeepsSelection | Termlink.py:115-119 | Enter keeps the selected position, which stays within the longer history, and the history's new last entry is the line |
| Shell.SpecialKeyConsistent | Termlink.py:91-106 | every special key keeps the cursor in the line and the selection in the history |
| Shell.ExtraKeyConsistent | Termlink.py:80-89 | every extra key keeps the cursor in the line and the selection in the history |
| Shell.KeyPressConsistent | Termlink.py:61-78 | every key press of at least one character keeps the cursor in the line and the selection in the history |
| Shell.KeyPressWaitsForVt | Termlink.py:61-70 | while the queue holds a proper prefix of a VT sequence, a key press only queues |
| Shell.KeyPressXterm | Termlink.py:61-106 | a whole xterm sequence acts as the special key its letter names and empties the queue |
| Shell.KeyPressAfterDoubleEscape | Termlink.py:61-71 | once the queue starts with the escape token twice, every later key only joins the queue and the queue never empties |
| Shell.KeyPressNormal | Termlink.py:61-78 | queued text that does not start with the escape token and is not an extra key inserts its first character at the cursor and empties the queue |
| Shell.KeyPressEnter | Termlink.py:61-78 | queued text that does not start with the escape token and reads as the enter extra key runs the line as Enter does and empties the queue |
| Shell.BareHelpUnrecognized | Termlink.py:205-223 | against the index, a bare "help" runs the unrecognized handler, which writes "Unrecognized command: help" |
| Shell.HelpListsIndex | Termlink.py:205-223 | against the index, "help " followed by any text writes the listing "Available commands:\nhelp\n" |
| Shell.IndexHelpText | TermlinkCommand.py:37-58 | the help text for the index lists only "help": the unrecognized handler's name is hidden |
| Shell.EnterRunsCommand | Termlink.py:205-223 | when the line resolves to a command, enter writes that command's output for the line between line breaks |
| Shell.EnterFallsBack | Termlink.py:205-223 | when nothing matches but the fallback resolves, enter writes "Unrecognized command: " and the line between line breaks |
| Shell.Termlink.constructor | Termlink.py:35-53 | a new shell has an empty line, queue and history, selection -1, is running, and holds the index registry |
| Shell.Termlink.BellRing | Termlink.py:55-56 | the bell is written and nothing else changes |
| Shell.Termlink.HandleNormalKey | Termlink.py:108-113 | the new state is `NormalKey` of the old one with the key's character |
| Shell.Termlink.HandleBackspace | Termlink.py:124-132 | the new state is `Backspace` of the old one |
| Shell.Termlink.HandleLeftArrow | Termlink.py:134-138 | the new state is `Left` of the old one |
| Shell.Termlink.HandleRightArrow | Termlink.py:140-144 | the new state is `Right` of the old one |
| Shell.Termlink.HandleUpArrow | Termlink.py:146-153 | the new state is `Up` of the old one |
| Shell.Termlink.HandleDownArrow | Termlink.py:155-161 | the new state is `Down` of the old one |
| Shell.Termlink.HandleHomeKey | Termlink.py:163-164 | the new state is `Home` of the old one |
| Shell.Termlink.HandleEndKey | Termlink.py:166-167 | the new state is `End` of the old one |
| Shell.Termlink.HandleDeleteKey | Termlink.py:169-176 | the new state is `Delete` of the old one |
| Shell.Termlink.HandleHelp | TermlinkCommand.py:37-44 | the help listing of the registry is written and nothing else changes |
| Shell.Termlink.Command | Termlink.py:205-223 | the line joins the history and the matched command's output, or the fallback's, is written between line breaks |
| Shell.Termlink.RunCommand | TermlinkCommand.py:23-51 | the command's output for the typed text is written and nothing else changes |
| Shell.Termlink.HandleEnterPress | Termlink.py:115-119 | the new state is `Enter` of the old one |
| Shell.Termlink.HandleSpecialKey | Termlink.py:91-106 | the new state is the special-key step for the key's unmodified name |
| Shell.Termlink.HandleExtraKey | Termlink.py:80-89 | the new state is the extra-key step: enter, tab, backspace, or Ctrl+C clearing the running flag |
| Shell.Termlink.HandleKeyPress | Termlink.py:61-78 | the new state is `KeyPress` of the old one, and a key of at least one character keeps the cursor and selection in range |
| Shell.Termlink.DispatchKey | Termlink.py:69-76 | a complete key goes to the special-key handler by its name, else to the extra-key handler when one is parsed, else it is typed as text |
| Shell.HelpListing | TermlinkCommand.py:40-44 | the loop writes one line per registered name not starting with "_", in registration order |

## Left out

- Terminal I/O (E330.py): raw mode, the reader thread, stop events and `exit()`. This is I/O and concurrency. What the handlers write is kept as a string transcript in the editor state instead.
- `print_prompt` (Termlink.py:182-203), the module-level script and its busy loop (Termlink.py:226-241), and `input_queue_flush` as a separate call. These are escape drawing and process control. The global `RUNNING` flag is a field of the editor, cleared by Ctrl+C.
- `escape_escape` and `parse_extra_key` (IOEscape.py:317-370). They depend on Python's `unicode_escape` codec. Key presses arrive already escaped, and `parse_extra_key` is a function parameter of the key-press step.
- The "Special key not handled" message and the other `print` calls. They only write to standard output.
- KeyEscape.MatchVt and KeyEscape.MatchXterm: `\d` is restricted to ASCII digits, whereas Python's `\d` (IOEscape.py:286 and IOEscape.py:295) also accepts other Unicode digits, which `int()` then reads. For example, Python parses token + "[٣A" as an xterm key with Alt, while the model parses it as incomplete.
- KeyEscape.Keycode.ResolveFriendlyName: the name tables are keyed by the text after the "[" rather than by the full escaped sequence. Nothing is lost: the code builds both the looked-up key and every table key from the same escape token and "[", so the two lookups agree for every token.
- Command behaviours: a command's `handle` is one of three behaviours (nothing, help, unrecognized), since these are all the repository defines. Commands defined elsewhere run code that is not part of this model.
- The `execution_state` and `active` fields of `Termlink` (Termlink.py:39-40). No code reads or changes them.
- Shell.Up and Shell.Down require the selection to lie within the history (from -1 to one less than its length). Outside that range Python would read an entry by negative index, ring the bell, or raise `IndexError`, and none of that is modelled. Such states never arise: the selection starts at -1, and the handlers only move it within the history, which the `Termlink` class invariant records.
- Python negative indexing on `Array2D` (the model indexes strictly with naturals), and aliasing: `get_row` returning the live list, shared default `Color` objects. Rows and colours are values.
- Grid.Array2D.Get, Grid.Array2D.At, Grid.Array2D.Set, Grid.Array2D.SetAt, Grid.Array2D.GetRow and Grid.Array2D.SetRow require in-range indices (`SetRow` only when the length matches). The `IndexError` Python raises for an index past the grid is not modelled.
- Grid.Array2D.GetCol and Grid.Array2D.SetCol require an in-range column only on a grid with at least one row (`SetCol` only when the length matches); the `IndexError` Python raises there is not modelled. On a grid with no rows, Python reads and writes no entry, so any column is accepted without error, and the model does the same: `GetCol` gives `[]` and `SetCol` with `[]` changes nothing.
- View sizes, spacing and padding are natural numbers. Python accepts any integer there, and a negative padding composites the child at negative offsets; that case is not modelled.
- Grid.Array2D.Composite requires non-negative offsets and a different grid. Negative offsets index from the end in Python, and self-compositing aliases.
- Fill resolution through `parent_callback`. The callbacks return dicts that are read by attribute, so no Fill protocol works. Fill sizing is modelled as the error it raises, and the `self.width` rewrite behind the container crash is unreachable.
- Views.AlignOffset, Views.JustifyOffset and Views.Positions: the container's placement arithmetic (View2D.py:113-175) is unreachable behind the natural-size crash. It is stated on its own and not composed into `RenderSpec`.
- The stray `print(children)` (View2D.py:269), the commented-out wrapping views (View2D.py:342-463) and the `test_view2d` demo (View2D.py:467-543).
- `Array2D.display` (Array2D.py:208-210) and `CellField.apply_effect` (CellField.py:225-228). The first only prints, and the second calls arbitrary caller code.
- CtrlCodes.py and TextUtils.py: constant escape strings and a frame printer, with no behaviour to verify.
- CellFields.CellField.ApplyBorder: the border callback receives the field's width and height instead of the field object.

=== FILE: array2d.dfy ===
/**
 * The mutable 2D buffer `Array2D` (Array2D.py): a list of `rows` rows, each of `cols` entries,
 * updated in place. Entries are `Option<T>` because a fresh grid holds Python's `None`.
 */
module Grid {
  import opened Wrappers

  /** `a` has exactly `rows` rows of `cols` entries each. */
  predicate Rectangular<T>(a: seq<seq<T>>, rows: nat, cols: nat) {
    |a| == rows && forall r :: 0 <= r < rows ==> |a[r]| == cols
  }

  /** The grid read column-major: entry `(c, r)` of the result is entry `(r, c)` of `a`. */
  function Transposed<T>(a: seq<seq<T>>, rows: nat, cols: nat): (t: seq<seq<T>>)
    requires Rectangular(a, rows, cols)
    ensures Rectangular(t, cols, rows)
    ensures forall c, r :: 0 <= c < cols && 0 <= r < rows ==> t[c][r] == a[r][c]
  {
    seq(cols, c requires 0 <= c < cols => seq(rows, r requires 0 <= r < rows => a[r][c]))
  }

  /** Transposing twice gives back the original grid, in both dimensions and contents. */
  lemma TransposedTwice<T>(a: seq<seq<T>>, rows: nat, cols: nat)
    requires Rectangular(a, rows, cols)
    ensures Transposed(Transposed(a, rows, cols), cols, rows) == a
  {
    var t := Transposed(Transposed(a, rows, cols), cols, rows);
    forall r | 0 <= r < rows ensures t[r] == a[r] {
      assert |t[r]| == |a[r]|;
    }
  }

  /**
   * `b` (of `brows` rows and `bcols` columns) laid over `a` with its top-left entry at column `x`,
   * row `y`; entries of `b` that would land past the last row or column of `a` are dropped.
   */
  function Composited<T>(a: seq<seq<T>>, rows: nat, cols: nat,
                         b: seq<seq<T>>, brows: nat, bcols: nat, x: nat, y: nat): (m: seq<seq<T>>)
    requires Rectangular(a, rows, cols) && Rectangular(b, brows, bcols)
    ensures Rectangular(m, rows, cols)
    // every entry of `b` whose destination is inside `a` is copied there
    ensures forall i, j :: 0 <= i < brows && 0 <= j < bcols && i + y < rows && j + x < cols ==>
              m[i + y][j + x] == b[i][j]
    // every entry of `a` that no entry of `b` lands on is unchanged
    ensures forall r, c :: 0 <= r < rows && 0 <= c < cols && !(y <= r < y + brows && x <= c < x + bcols) ==>
              m[r][c] == a[r][c]
  {
    seq(rows, r requires 0 <= r < rows =>
      seq(cols, c requires 0 <= c < cols =>
        if y <= r < y + brows && x <= c < x + bcols then b[r - y][c - x] else a[r][c]))
  }

  /** Whether every read and write of `subset(x, y, width, height)` stays in range. */
  predicate SubsetInRange(rows: nat, cols: nat, x: nat, y: nat, width: nat, height: nat) {
    width == 0 || height == 0 || (width == height && y + height <= rows && x + width <= cols)
  }

  datatype GridError = IndexError | ValueError

  class Array2D<T> {
    var rows: nat
    var cols: nat
    var cells: seq<seq<Option<T>>>

    ghost predicate Valid()
      reads this
    {
      Rectangular(cells, rows, cols)
    }

    /** `Array2D(rows, cols)`: `rows` rows of `cols` entries, all `None`. */
    constructor (rows: nat, cols: nat)
      ensures Valid() && this.rows == rows && this.cols == cols
      ensures forall r, c :: 0 <= r < rows && 0 <= c < cols ==> cells[r][c] == None
    {
      this.rows := rows;
      this.cols := cols;
      cells := seq(rows, _ => seq(cols, _ => None));
    }

    /** `get((row, col))`: strict indexing. */
    function Get(row: nat, col: nat): (v: Option<T>)
      reads this
      requires Valid() && row < rows && col < cols
      ensures v == Transposed(cells, rows, cols)[col][row]
    {
      cells[row][col]
    }

    /** `at(x, y)`: `x` is the column and `y` the row. */
    function At(x: nat, y: nat): (v: Option<T>)
      reads this
      requires Valid() && y < rows && x < cols
      ensures v == Get(y, x)
    {
      cells[y][x]
    }

    /** `set((row, col), value)`: that entry becomes `value`, every other entry keeps its value. */
    method Set(row: nat, col: nat, value: Option<T>)
      requires Valid() && row < rows && col < cols
      modifies this
      ensures Valid() && rows == old(rows) && cols == old(cols)
      ensures Get(row, col) == value
      ensures forall r, c :: 0 <= r < rows && 0 <= c < cols && (r, c) != (row, col) ==>
                cells[r][c] == old(cells)[r][c]
    {
      cells := cells[row := cells[row][col := value]];
    }

    /** `set_at(x, y, value)`: the same as `set((y, x), value)`. */
    method SetAt(x: nat, y: nat, value: Option<T>)
      requires Valid() && y < rows && x < cols
      modifies this
      ensures Valid() && rows == old(rows) && cols == old(cols)
      ensures At(x, y) == value
      ensures forall r, c :: 0 <= r < rows && 0 <= c < cols && (r, c) != (y, x) ==>
                cells[r][c] == old(cells)[r][c]
    {
      Set(y, x, value);
    }

    /**
     * `put_at_row(row, index, data)`: fails with ValueError when `index + len(data) > cols`, then
     * with IndexError when `row` is past the last row; otherwise overwrites columns
     * `index .. index + len(data) - 1` of `row` and nothing else. A failure changes nothing.
     */
    method PutAtRow(row: nat, index: nat, data: seq<Option<T>>) returns (err: Option<GridError>)
      requires Valid()
      modifies this
      ensures Valid() && rows == old(rows) && cols == old(cols)
      ensures index + |data| > cols ==> err == Some(ValueError)
      ensures index + |data| <= cols && row >= rows ==> err == Some(IndexError)
      ensures err.None? <==> index + |data| <= cols && row < rows
      ensures err.Some? ==> cells == old(cells)
      ensures err.None? ==> forall r, c :: 0 <= r < rows && 0 <= c < cols ==>
                cells[r][c] == if r == row && index <= c < index + |data| then data[c - index] else old(cells)[r][c]
    {
      if |data| + index > cols {
        return Some(ValueError);
      }
      if row >= rows {
        return Some(IndexError);
      }
      cells := cells[row := cells[row][..index] + data + cells[row][index + |data|..]];
      err := None;
    }

    /**
     * `put_at_col(col, index, data)`: transpose, `put_at_row`, transpose back. On either error
     * (data past the last row, or `col` past the last column) the error escapes between the two
     * transposes, so the grid is left transposed.
     */
    method PutAtCol(col: nat, index: nat, data: seq<Option<T>>) returns (err: Option<GridError>)
      requires Valid()
      modifies this
      ensures Valid()
      ensures index + |data| > old(rows) ==> err == Some(ValueError)
      ensures index + |data| <= old(rows) && col >= old(cols) ==> err == Some(IndexError)
      ensures err.None? <==> index + |data| <= old(rows) && col < old(cols)
      ensures err.None? ==> rows == old(rows) && cols == old(cols)
      ensures err.None? ==> forall r, c :: 0 <= r < rows && 0 <= c < cols ==>
                cells[r][c] == if c == col && index <= r < index + |data| then data[r - index] else old(cells)[r][c]
      ensures err.Some? ==> rows == old(cols) && cols == old(rows) && cells == Transposed(old(cells), old(rows), old(cols))
    {
      Transpose();
      err := PutAtRow(col, index, data);
      if err.None? {
        Transpose();
      }
    }

    /**
     * `composite(other, x, y)`: copies `other[r][c]` to `self[r + y][c + x]` exactly when that
     * destination is inside the grid, and skips the rest.
     */
    method Composite(other: Array2D<T>, x: nat, y: nat)
      requires Valid() && other.Valid() && other != this
      modifies this
      ensures Valid() && rows == old(rows) && cols == old(cols)
      ensures cells == Composited(old(cells), rows, cols, other.cells, other.rows, other.cols, x, y)
    {
      var row := 0;
      while row < other.rows
        invariant 0 <= row <= other.rows
        invariant Valid() && rows == old(rows) && cols == old(cols)
        invariant forall r, c :: 0 <= r < rows && 0 <= c < cols ==>
                    cells[r][c] == if y <= r < y + row && x <= c < x + other.cols then other.cells[r - y][c - x]
                                   else old(cells)[r][c]
      {
        var col := 0;
        while col < other.cols
          invariant 0 <= col <= other.cols
          invariant Valid() && rows == old(rows) && cols == old(cols)
          invariant forall r, c :: 0 <= r < rows && 0 <= c < cols ==>
                      cells[r][c] == if (y <= r < y + row && x <= c < x + other.cols) || (r == y + row && x <= c < x + col)
                                     then other.cells[r - y][c - x] else old(cells)[r][c]
        {
          if row + y < rows && col + x < cols {
            cells := cells[row + y := cells[row + y][col + x := other.cells[row][col]]];
          }
          col := col + 1;
        }
        row := row + 1;
      }
      ghost var m := Composited(old(cells), rows, cols, other.cells, other.rows, other.cols, x, y);
      forall r | 0 <= r < rows ensures cells[r] == m[r] {
        assert |cells[r]| == |m[r]|;
      }
    }

    /**
     * `subset(x, y, width, height)`: allocates `Array2D(width, height)`, i.e. `width` rows of
     * `height` columns, then fills `[row][col]` for `row < height`, `col < width` from
     * `self[row + y][col + x]`. Any out-of-range index raises IndexError.
     */
    method Subset(x: nat, y: nat, width: nat, height: nat) returns (res: Result<Array2D<T>, GridError>)
      requires Valid()
      ensures res.Ok? <==> SubsetInRange(rows, cols, x, y, width, height)
      ensures res.Err? ==> res.error == IndexError
      ensures res.Ok? ==> fresh(res.value) && res.value.Valid()
      ensures res.Ok? ==> res.value.rows == width && res.value.cols == height
      ensures res.Ok? ==> forall r, c :: 0 <= r < height && 0 <= c < width ==>
                res.value.cells[r][c] == cells[r + y][c + x]
    {
      var sub := new Array2D<T>(width, height);
      var row := 0;
      while row < height
        invariant 0 <= row <= height
        invariant fresh(sub) && sub.Valid() && sub.rows == width && sub.cols == height
        invariant row == 0 || width == 0 || (row <= width && width <= height && row + y <= rows && width + x <= cols)
        invariant forall r, c :: 0 <= r < row && 0 <= c < width ==> sub.cells[r][c] == cells[r + y][c + x]
      {
        var col := 0;
        while col < width
          invariant 0 <= col <= width
          invariant fresh(sub) && sub.Valid() && sub.rows == width && sub.cols == height
          invariant col == 0 || (row < width && col <= height && row + y < rows && col + x <= cols)
          invariant forall r, c :: 0 <= r < row && 0 <= c < width ==> sub.cells[r][c] == cells[r + y][c + x]
          invariant forall c :: 0 <= c < col ==> sub.cells[row][c] == cells[row + y][c + x]
        {
          if row + y >= rows || col + x >= cols || row >= sub.rows || col >= sub.cols {
            return Err(IndexError);
          }
          sub.Set(row, col, cells[row + y][col + x]);
          col := col + 1;
        }
        row := row + 1;
      }
      return Ok(sub);
    }

    /** `get_row(row)`, as a value. */
    function GetRow(row: nat): (values: seq<Option<T>>)
      reads this
      requires Valid() && row < rows
      ensures |values| == cols
      ensures forall c :: 0 <= c < cols ==> values[c] == Get(row, c)
    {
      cells[row]
    }

    /** `get_col(col)`: column `col`, top to bottom; a grid with no rows gives `[]` for any column. */
    function GetCol(col: nat): (values: seq<Option<T>>)
      reads this
      requires Valid() && (rows == 0 || col < cols)
      ensures |values| == rows
      ensures forall r :: 0 <= r < rows ==> values[r] == Get(r, col)
    {
      var a := cells;
      seq(rows, r requires 0 <= r < |a| => a[r][col])
    }

    /** `set_row(row, values)`: fails (ValueError) unless `len(values) == cols`; otherwise replaces that row. */
    method SetRow(row: nat, values: seq<Option<T>>) returns (ok: bool)
      requires Valid()
      requires |values| == cols ==> row < rows
      modifies this
      ensures Valid() && rows == old(rows) && cols == old(cols)
      ensures ok <==> |values| == cols
      ensures !ok ==> cells == old(cells)
      ensures ok ==> GetRow(row) == values
      ensures ok ==> forall r :: 0 <= r < rows && r != row ==> cells[r] == old(cells)[r]
    {
      if |values| != cols {
        return false;
      }
      cells := cells[row := values];
      ok := true;
    }

    /**
     * `set_col(col, values)`: fails (ValueError) unless `len(values) == rows`; otherwise replaces
     * that column. A grid with no rows accepts `[]` for any column and stays as it is.
     */
    method SetCol(col: nat, values: seq<Option<T>>) returns (ok: bool)
      requires Valid()
      requires |values| == rows && rows > 0 ==> col < cols
      modifies this
      ensures Valid() && rows == old(rows) && cols == old(cols)
      ensures ok <==> |values| == rows
      ensures !ok ==> cells == old(cells)
      ensures ok ==> GetCol(col) == values
      ensures ok ==> forall r, c :: 0 <= r < rows && 0 <= c < cols && c != col ==> cells[r][c] == old(cells)[r][c]
    {
      if |values| != rows {
        return false;
      }
      var row := 0;
      while row < rows
        invariant 0 <= row <= rows
        invariant Valid() && rows == old(rows) && cols == old(cols)
        invariant forall r, c :: 0 <= r < rows && 0 <= c < cols ==>
                    cells[r][c] == if c == col && r < row then values[r] else old(cells)[r][c]
      {
        cells := cells[row := cells[row][col := values[row]]];
        row := row + 1;
      }
      ok := true;
    }

    /** `transpose()`: swaps `rows` and `cols` and moves entry `(r, c)` to `(c, r)`. */
    method Transpose()
      requires Valid()
      modifies this
      ensures Valid() && rows == old(cols) && cols == old(rows)
      ensures cells == Transposed(old(cells), old(rows), old(cols))
    {
      cells := Transposed(cells, rows, cols);
      rows, cols := cols, rows;
    }

    /** `fill(value)`: every entry becomes `value`. */
    method Fill(value: Option<T>)
      requires Valid()
      modifies this
      ensures Valid() && rows == old(rows) && cols == old(cols)
      ensures forall r, c :: 0 <= r < rows && 0 <= c < cols ==> cells[r][c] == value
    {
      var row := 0;
      while row < rows
        invariant 0 <= row <= rows
        invariant Valid() && rows == old(rows) && cols == old(cols)
        invariant forall r, c :: 0 <= r < rows && 0 <= c < cols ==>
                    cells[r][c] == if r < row then value else old(cells)[r][c]
      {
        var col := 0;
        while col < cols
          invariant 0 <= col <= cols
          invariant Valid() && rows == old(rows) && cols == old(cols)
          invariant forall r, c :: 0 <= r < rows && 0 <= c < cols ==>
                      cells[r][c] == if r < row || (r == row && c < col) then value else old(cells)[r][c]
        {
          cells := cells[row := cells[row][col := value]];
          col := col + 1;
        }
        row := row + 1;
      }
    }
  }
}

=== FILE: cellfield.dfy ===
/**
 * The `CellField` of CellField.py: a fixed-size grid of styled cells backed by an `Array2D`.
 * `Canvas` is the picture a field holds, as a value; the class is proved against it.
 */
module CellFields {
  import opened Wrappers
  import opened Strings
  import opened Style
  import opened Grid

  /** `height` rows of `width` cells; the cell at column `x` of row `y` is `cells[y][x]`. */
  datatype Canvas = Canvas(width: nat, height: nat, cells: seq<seq<Cell>>)

  predicate WellFormed(c: Canvas) {
    Rectangular(c.cells, c.height, c.width)
  }

  predicate InBounds(c: Canvas, x: int, y: int) {
    0 <= x < c.width && 0 <= y < c.height
  }

  /** A fresh `CellField(width, height)`: every cell is `Cell(" ")`. */
  function Blank(width: nat, height: nat): (c: Canvas)
    ensures WellFormed(c) && c.width == width && c.height == height
    ensures forall y, x :: 0 <= y < height && 0 <= x < width ==> c.cells[y][x] == Space
  {
    Canvas(width, height, seq(height, _ => seq(width, _ => Space)))
  }

  /** `CellField.get`: the cell at `(x, y)`, and `Cell(" ")` outside the field. */
  function CellAt(c: Canvas, x: int, y: int): (cell: Cell)
    requires WellFormed(c)
    ensures InBounds(c, x, y) ==> cell == c.cells[y][x]
    ensures !InBounds(c, x, y) ==> cell == Space
  {
    if InBounds(c, x, y) then c.cells[y][x] else Space
  }

  /** `CellField.set`: replaces the cell at `(x, y)`; a coordinate outside the field changes nothing. */
  function WithCell(c: Canvas, x: int, y: int, cell: Cell): (r: Canvas)
    requires WellFormed(c)
    ensures WellFormed(r) && r.width == c.width && r.height == c.height
    ensures InBounds(c, x, y) ==> CellAt(r, x, y) == cell
    ensures forall i, j :: (i, j) != (x, y) ==> CellAt(r, i, j) == CellAt(c, i, j)
    ensures !InBounds(c, x, y) ==> r == c
  {
    if InBounds(c, x, y) then Canvas(c.width, c.height, c.cells[y := c.cells[y][x := cell]]) else c
  }

  /** The cells `apply_border` visits: first or last column, first or last row. */
  predicate OnRing(width: nat, height: nat, x: int, y: int) {
    x == 0 || x == width - 1 || y == 0 || y == height - 1
  }

  /**
   * `CellField.apply_border(border)`: every ring cell becomes `border(width, height, x, y)`,
   * every interior cell is kept.
   */
  function WithBorder(c: Canvas, border: (nat, nat, nat, nat) -> Cell): (r: Canvas)
    requires WellFormed(c)
    ensures WellFormed(r) && r.width == c.width && r.height == c.height
    ensures forall y, x :: 0 <= y < c.height && 0 <= x < c.width && OnRing(c.width, c.height, x, y) ==>
      r.cells[y][x] == border(c.width, c.height, x, y)
    ensures forall y, x :: 0 <= y < c.height && 0 <= x < c.width && !OnRing(c.width, c.height, x, y) ==>
      r.cells[y][x] == c.cells[y][x]
  {
    var a := c.cells;
    Canvas(c.width, c.height,
      seq(c.height, y requires 0 <= y < c.height =>
        seq(c.width, x requires 0 <= x < c.width =>
          if OnRing(c.width, c.height, x, y) then border(c.width, c.height, x, y) else a[y][x])))
  }

  /**
   * `field.field.composite(top.field, x, y)` on the cells of two fields: the part of `top` that
   * falls inside `c` replaces what was there, the rest of `c` is kept.
   */
  function Overlay(c: Canvas, top: Canvas, x: nat, y: nat): (r: Canvas)
    requires WellFormed(c) && WellFormed(top)
    ensures WellFormed(r) && r.width == c.width && r.height == c.height
    ensures forall i, j :: 0 <= i < top.width && 0 <= j < top.height && InBounds(c, i + x, j + y) ==>
      CellAt(r, i + x, j + y) == CellAt(top, i, j)
    ensures forall i, j :: !(x <= i < x + top.width && y <= j < y + top.height) ==> CellAt(r, i, j) == CellAt(c, i, j)
  {
    Canvas(c.width, c.height, Composited(c.cells, c.height, c.width, top.cells, top.height, top.width, x, y))
  }

  /** A picture placed `p` cells in from the edges of a blank field `2p` larger is framed by spaces. */
  lemma OverlayOnBlank(top: Canvas, p: nat)
    requires WellFormed(top)
    ensures var c := Overlay(Blank(top.width + p * 2, top.height + p * 2), top, p, p);
      (forall x, y :: CellAt(c, x + p, y + p) == CellAt(top, x, y)) &&
      (forall x, y :: !(p <= x < p + top.width && p <= y < p + top.height) ==> CellAt(c, x, y) == Space)
  {
    var c := Overlay(Blank(top.width + p * 2, top.height + p * 2), top, p, p);
    forall x, y ensures CellAt(c, x + p, y + p) == CellAt(top, x, y) {
      if !(0 <= x < top.width && 0 <= y < top.height) {
        assert CellAt(c, x + p, y + p) == CellAt(Blank(top.width + p * 2, top.height + p * 2), x + p, y + p);
      }
    }
  }

  /** A picture placed `p` cells in from the edges of a field `2p` larger is found there whole. */
  lemma OverlayPlaced(base: Canvas, top: Canvas, p: nat)
    requires WellFormed(base) && WellFormed(top)
    requires base.width == top.width + 2 * p && base.height == top.height + 2 * p
    ensures forall x, y :: 0 <= x < top.width && 0 <= y < top.height ==>
      CellAt(Overlay(base, top, p, p), x + p, y + p) == CellAt(top, x, y)
  {
  }

  /** A picture placed at the origin of a field of its own size replaces it entirely. */
  lemma OverlayWhole(base: Canvas, top: Canvas)
    requires WellFormed(base) && WellFormed(top) && base.width == top.width && base.height == top.height
    ensures Overlay(base, top, 0, 0) == top
  {
    var c := Overlay(base, top, 0, 0);
    forall y | 0 <= y < c.height ensures c.cells[y] == top.cells[y] {
      assert |c.cells[y]| == |top.cells[y]|;
      forall x | 0 <= x < c.width ensures c.cells[y][x] == top.cells[y][x] {
        assert CellAt(c, x + 0, y + 0) == CellAt(top, x, y);
      }
    }
  }

  /** Every cell of `c` can be rendered without a line break. */
  predicate LineFreeCanvas(c: Canvas)
    requires WellFormed(c)
  {
    forall y, x :: 0 <= y < c.height && 0 <= x < c.width ==> LineFree(c.cells[y][x])
  }

  /** The renderings of the cells of row `y`, left to right. */
  function RenderedRow(c: Canvas, y: nat): (parts: seq<string>)
    requires WellFormed(c) && y < c.height
    ensures |parts| == c.width
  {
    var row := c.cells[y];
    seq(c.width, x requires 0 <= x < c.width => RenderCell(row[x]))
  }

  /** One rendered row, without its line break. */
  function RowText(c: Canvas, y: nat): string
    requires WellFormed(c) && y < c.height
  {
    Concat(RenderedRow(c, y))
  }

  /** The rendering of rows `y` onwards, each followed by `"\n"`. */
  function TextFrom(c: Canvas, y: nat): string
    requires WellFormed(c) && y <= c.height
    decreases c.height - y
  {
    if y == c.height then "" else RowText(c, y) + "\n" + TextFrom(c, y + 1)
  }

  /** `CellField.render()`: the rendered rows, top to bottom, each followed by `"\n"`. */
  function ToText(c: Canvas): string
    requires WellFormed(c)
  {
    TextFrom(c, 0)
  }

  /** Rendering row `y` moves it from the rows still to render onto the text so far. */
  lemma TextFromStep(c: Canvas, y: nat, s: string)
    requires WellFormed(c) && y < c.height
    ensures s + TextFrom(c, y) == (s + RowText(c, y) + "\n") + TextFrom(c, y + 1)
  {
  }

  lemma RowTextLineFree(c: Canvas, y: nat)
    requires WellFormed(c) && y < c.height && LineFreeCanvas(c)
    ensures '\n' !in RowText(c, y)
  {
    var parts := RenderedRow(c, y);
    forall x | 0 <= x < |parts| ensures '\n' !in parts[x] {
      RenderCellLineFree(c.cells[y][x]);
    }
    ConcatLineFree(parts);
  }

  /** The rendered rows from `y` down, top to bottom. */
  function Rows(c: Canvas, y: nat): (rows: seq<string>)
    requires WellFormed(c) && y <= c.height
    ensures |rows| == c.height - y
    decreases c.height - y
  {
    if y == c.height then [] else [RowText(c, y)] + Rows(c, y + 1)
  }

  lemma {:induction false} RowsAt(c: Canvas, y: nat, i: nat)
    requires WellFormed(c) && y + i < c.height
    ensures Rows(c, y)[i] == RowText(c, y + i)
    decreases i
  {
    if i > 0 {
      RowsAt(c, y + 1, i - 1);
    }
  }

  lemma {:induction false} LinesFrom(c: Canvas, y: nat)
    requires WellFormed(c) && y <= c.height && LineFreeCanvas(c)
    ensures SplitOn(TextFrom(c, y), '\n') == Rows(c, y) + [""]
    decreases c.height - y
  {
    if y < c.height {
      RowTextLineFree(c, y);
      LinesFrom(c, y + 1);
      SplitOnLine(RowText(c, y), '\n', TextFrom(c, y + 1));
      assert Rows(c, y) + [""] == [RowText(c, y)] + (Rows(c, y + 1) + [""]);
    }
  }

  /**
   * The rendered text of a field whose cells hold no line break splits on `"\n"` into exactly its
   * `height` rendered rows, followed by the empty piece after the final line break.
   */
  lemma TextLines(c: Canvas)
    requires WellFormed(c) && LineFreeCanvas(c)
    ensures SplitOn(ToText(c), '\n') == seq(c.height, y requires 0 <= y < c.height => RowText(c, y)) + [""]
  {
    LinesFrom(c, 0);
    forall y | 0 <= y < c.height
      ensures Rows(c, 0)[y] == RowText(c, y)
    {
      RowsAt(c, 0, y);
    }
    assert Rows(c, 0) == seq(c.height, y requires 0 <= y < c.height => RowText(c, y));
  }

  /** Every entry of a grid that a `CellField` owns is set. */
  predicate AllSome<T>(a: seq<seq<Option<T>>>, rows: nat, cols: nat)
    requires Rectangular(a, rows, cols)
  {
    forall r, c :: 0 <= r < rows && 0 <= c < cols ==> a[r][c].Some?
  }

  /** The cells of a grid with every entry set. */
  function Unwrapped<T>(a: seq<seq<Option<T>>>, rows: nat, cols: nat): (u: seq<seq<T>>)
    requires Rectangular(a, rows, cols) && AllSome(a, rows, cols)
    ensures Rectangular(u, rows, cols)
    ensures forall r, c :: 0 <= r < rows && 0 <= c < cols ==> a[r][c] == Some(u[r][c])
  {
    seq(rows, r requires 0 <= r < rows => seq(cols, c requires 0 <= c < cols => a[r][c].value))
  }

  /** Compositing one set grid onto another keeps it set, and composites the unwrapped cells. */
  lemma UnwrappedComposited<T>(a: seq<seq<Option<T>>>, rows: nat, cols: nat,
                               b: seq<seq<Option<T>>>, brows: nat, bcols: nat, x: nat, y: nat)
    requires Rectangular(a, rows, cols) && AllSome(a, rows, cols)
    requires Rectangular(b, brows, bcols) && AllSome(b, brows, bcols)
    ensures AllSome(Composited(a, rows, cols, b, brows, bcols, x, y), rows, cols)
    ensures Unwrapped(Composited(a, rows, cols, b, brows, bcols, x, y), rows, cols) ==
            Composited(Unwrapped(a, rows, cols), rows, cols, Unwrapped(b, brows, bcols), brows, bcols, x, y)
  {
    var m := Composited(a, rows, cols, b, brows, bcols, x, y);
    var u := Unwrapped(m, rows, cols);
    var v := Composited(Unwrapped(a, rows, cols), rows, cols, Unwrapped(b, brows, bcols), brows, bcols, x, y);
    forall r | 0 <= r < rows ensures u[r] == v[r] {
      assert |u[r]| == |v[r]|;
    }
  }

  lemma TakeOneMore<T>(s: seq<T>, i: nat)
    requires i < |s|
    ensures s[..i + 1] == s[..i] + [s[i]]
  {
  }

  /** A `CellField`: its `Array2D` has `height` rows of `width` entries, all set. */
  class CellField {
    const width: nat
    const height: nat
    const field: Array2D<Cell>

    ghost predicate Valid()
      reads this, field
    {
      field.Valid() && field.rows == height && field.cols == width && AllSome(field.cells, height, width)
    }

    /** The picture the field holds. */
    function Model(): (c: Canvas)
      reads this, field
      requires Valid()
      ensures WellFormed(c) && c.width == width && c.height == height
    {
      Canvas(width, height, Unwrapped(field.cells, height, width))
    }

    /** `CellField(width, height)`: an `Array2D(height, width)` filled with `Cell(" ")`. */
    constructor (width: nat, height: nat)
      ensures Valid() && fresh(field)
      ensures this.width == width && this.height == height
      ensures Model() == Blank(width, height)
    {
      this.width := width;
      this.height := height;
      var f := new Array2D<Cell>(height, width);
      field := f;
      new;
      f.Fill(Some(Space));
      var m := Model();
      var b := Blank(width, height);
      forall y | 0 <= y < height ensures m.cells[y] == b.cells[y] {
        assert |m.cells[y]| == |b.cells[y]|;
      }
    }

    /** `CellField.get`. */
    function Get(x: int, y: int): (cell: Cell)
      reads this, field
      requires Valid()
      ensures cell == CellAt(Model(), x, y)
    {
      if 0 <= x < width && 0 <= y < height then field.At(x, y).value else Space
    }

    /** `CellField.set`: writes one cell, ignoring coordinates outside the field. */
    method Set(x: int, y: int, cell: Cell)
      requires Valid()
      modifies field
      ensures Valid() && Model() == WithCell(old(Model()), x, y, cell)
    {
      ghost var before := Model();
      if 0 <= x < width && 0 <= y < height {
        field.SetAt(x, y, Some(cell));
        var m := Model();
        var w := WithCell(before, x, y, cell);
        forall j | 0 <= j < height ensures m.cells[j] == w.cells[j] {
          assert |m.cells[j]| == |w.cells[j]|;
          forall i | 0 <= i < width ensures m.cells[j][i] == w.cells[j][i] {
            assert CellAt(m, i, j) == CellAt(w, i, j);
          }
        }
      }
    }

    /** `CellField.apply_border`: the ring cells take the callback's cell, the interior is kept. */
    method ApplyBorder(border: (nat, nat, nat, nat) -> Cell)
      requires Valid()
      modifies field
      ensures Valid() && Model() == WithBorder(old(Model()), border)
    {
      ghost var c0 := Model();
      ghost var goal := WithBorder(c0, border);
      var y := 0;
      while y < height
        invariant y <= height && Valid()
        invariant forall j, i :: 0 <= j < height && 0 <= i < width ==>
          Model().cells[j][i] == (if j < y then goal.cells[j][i] else c0.cells[j][i])
      {
        var x := 0;
        while x < width
          invariant x <= width && Valid()
          invariant forall j, i :: 0 <= j < height && 0 <= i < width ==>
            Model().cells[j][i] == (if j < y || (j == y && i < x) then goal.cells[j][i] else c0.cells[j][i])
        {
          if x == 0 || x == width - 1 || y == 0 || y == height - 1 {
            Set(x, y, border(width, height, x, y));
          }
          x := x + 1;
        }
        y := y + 1;
      }
      var m := Model();
      forall j | 0 <= j < height ensures m.cells[j] == goal.cells[j] {
        assert |m.cells[j]| == |goal.cells[j]|;
      }
    }

    /** `CellField.render`: every cell's rendering, row by row, with `"\n"` after each row. */
    method Render() returns (s: string)
      requires Valid()
      ensures s == ToText(Model())
    {
      ghost var c := Model();
      s := "";
      var y := 0;
      while y < height
        invariant y <= height
        invariant s + TextFrom(c, y) == ToText(c)
      {
        var line := RenderRow(y);
        TextFromStep(c, y, s);
        s := s + line + "\n";
        y := y + 1;
      }
    }

    /** The inner loop of `CellField.render`: the renderings of the cells of row `y`, left to right. */
    method RenderRow(y: nat) returns (line: string)
      requires Valid() && y < height
      ensures line == RowText(Model(), y)
    {
      ghost var c := Model();
      ghost var row := RenderedRow(c, y);
      line := "";
      var x := 0;
      while x < width
        invariant x <= width
        invariant line == Concat(row[..x])
      {
        var cell := field.At(x, y).value;
        assert cell == c.cells[y][x];
        var r := RenderCell(cell);
        assert r == row[x];
        ConcatAppend(row[..x], r);
        TakeOneMore(row, x);
        line := line + r;
        x := x + 1;
      }
      assert row[..x] == row;
    }
  }
}

=== FILE: commands.dfy ===
/**
 * The shell's command registry (TermlinkCommand.py): commands stored by name in insertion order, a
 * first-match prefix lookup, the `help` listing and the built-in command index.
 */
module Commands {
  import opened Wrappers
  import opened Strings

  /** What a command's `handle` does: the base class does nothing. */
  datatype Behaviour = NoOp | Help | UnrecognizedCommand

  datatype Command = Command(commandName: string, behaviour: Behaviour)

  const HelpCommand := Command("help", Help)

  const UnrecognizedCommandName := "_unrecognized_command"

  const UnrecognizedHandler := Command(UnrecognizedCommandName, UnrecognizedCommand)

  /** `COMMAND_INDEX`, in the order of its entries. */
  const CommandIndex: seq<Command> := [HelpCommand, UnrecognizedHandler]

  /** A key matches shell input when the input starts with it, followed by a space unless the lookup is built-in. */
  predicate Matches(key: string, input: string, builtin: bool) {
    StartsWith(input, if builtin then key else key + " ")
  }

  /** The position of the first key, in insertion order, that matches the input. */
  function FirstMatch(keys: seq<string>, input: string, builtin: bool): (i: Option<nat>)
    ensures i.Some? ==> i.value < |keys| && Matches(keys[i.value], input, builtin)
    ensures i.Some? ==> forall j :: 0 <= j < i.value ==> !Matches(keys[j], input, builtin)
    ensures i.None? <==> forall j :: 0 <= j < |keys| ==> !Matches(keys[j], input, builtin)
  {
    if keys == [] then None
    else if Matches(keys[0], input, builtin) then Some(0)
    else
      var rest := FirstMatch(keys[1..], input, builtin);
      if rest.Some? then
        assert forall j :: 1 <= j < 1 + rest.value ==> keys[j] == keys[1..][j - 1];
        Some(1 + rest.value)
      else
        assert forall j :: 1 <= j < |keys| ==> keys[j] == keys[1..][j - 1];
        None
  }

  /** A matching key with no match before it is the first match. */
  lemma FirstMatchIs(keys: seq<string>, input: string, builtin: bool, i: nat)
    requires i < |keys| && Matches(keys[i], input, builtin)
    requires forall j :: 0 <= j < i ==> !Matches(keys[j], input, builtin)
    ensures FirstMatch(keys, input, builtin) == Some(i)
  {
  }

  /** Keys listed without repetition and exactly the keys of the map, each command under its own name. */
  ghost predicate WellKeyed(keys: seq<string>, commands: map<string, Command>) {
    (forall i, j :: 0 <= i < j < |keys| ==> keys[i] != keys[j]) &&
    (forall k :: k in commands <==> k in keys) &&
    (forall k :: k in commands ==> commands[k].commandName == k)
  }

  /** `get_command_for_shell_input` as a value: the command under the first matching key. */
  function Resolve(keys: seq<string>, commands: map<string, Command>, input: string, builtin: bool): (r: Option<Command>)
    requires WellKeyed(keys, commands)
    ensures r.Some? ==> r.value in commands.Values && Matches(r.value.commandName, input, builtin)
    ensures r.None? <==> forall k :: k in commands ==> !Matches(k, input, builtin)
  {
    var i := FirstMatch(keys, input, builtin);
    if i.Some? then Some(commands[keys[i.value]]) else None
  }

  /** Input without a space is never found by a non-built-in lookup: every key needs a space after it. */
  lemma ResolveNeedsSpace(keys: seq<string>, commands: map<string, Command>, input: string)
    requires WellKeyed(keys, commands) && ' ' !in input
    ensures Resolve(keys, commands, input, false).None?
  {
    forall k | k in commands
      ensures !Matches(k, input, false)
    {
      if |k| < |input| {
        assert input[|k|] != ' ';
      }
    }
  }

  /** The names `help` lists, in registration order. */
  function HelpNames(keys: seq<string>): seq<string> {
    if keys == [] then []
    else (if StartsWith(keys[0], "_") then [] else [keys[0]]) + HelpNames(keys[1..])
  }

  /** `help` lists exactly the registered names that do not start with "_". */
  lemma {:induction false} HelpNamesExact(keys: seq<string>)
    ensures forall n :: n in HelpNames(keys) <==> n in keys && !StartsWith(n, "_")
  {
    if keys != [] {
      HelpNamesExact(keys[1..]);
      assert keys == [keys[0]] + keys[1..];
    }
  }

  /** Registering one more name adds it at the end of the listing, unless it is hidden. */
  lemma {:induction false} HelpNamesAppend(keys: seq<string>, k: string)
    ensures HelpNames(keys + [k]) == HelpNames(keys) + (if StartsWith(k, "_") then [] else [k])
  {
    if keys != [] {
      assert (keys + [k])[1..] == keys[1..] + [k];
      HelpNamesAppend(keys[1..], k);
    }
  }

  /** The lines `help` writes for the listed names. */
  function HelpLines(names: seq<string>): string {
    Concat(seq(|names|, i requires 0 <= i < |names| => names[i] + "\n"))
  }

  lemma HelpLinesAppend(names: seq<string>, name: string)
    ensures HelpLines(names + [name]) == HelpLines(names) + (name + "\n")
  {
    var lines := seq(|names|, i requires 0 <= i < |names| => names[i] + "\n");
    assert seq(|names + [name]|, i requires 0 <= i < |names + [name]| => (names + [name])[i] + "\n") == lines + [name + "\n"];
    ConcatAppend(lines, name + "\n");
  }

  /** Registering one more name adds its line at the end of the listing, unless it is hidden. */
  lemma HelpLinesStep(keys: seq<string>, k: string)
    ensures HelpLines(HelpNames(keys + [k])) == HelpLines(HelpNames(keys)) + (if StartsWith(k, "_") then "" else k + "\n")
  {
    HelpNamesAppend(keys, k);
    if StartsWith(k, "_") {
      assert HelpNames(keys) + [] == HelpNames(keys);
      assert HelpLines(HelpNames(keys)) + "" == HelpLines(HelpNames(keys));
    } else {
      HelpLinesAppend(HelpNames(keys), k);
    }
  }

  /** What `TermlinkCommandHelp.handle` writes: a heading, then one line per listed name. */
  function HelpText(keys: seq<string>): string {
    "Available commands:\n" + HelpLines(HelpNames(keys))
  }

  /** What a command's `handle` writes to the terminal, given the registered keys and the text typed. */
  function HandleOutput(c: Command, keys: seq<string>, passedText: string): string {
    match c.behaviour
    case NoOp => ""
    case Help => HelpText(keys)
    case UnrecognizedCommand => "Unrecognized command: " + passedText
  }

  /** `TermlinkCommandRegistry`: the `commands` dict, with its insertion order kept in `keys`. */
  class CommandRegistry {
    var keys: seq<string>
    var commands: map<string, Command>

    ghost predicate Valid()
      reads this
    {
      WellKeyed(keys, commands)
    }

    constructor()
      ensures Valid() && keys == [] && commands == map[]
    {
      keys := [];
      commands := map[];
    }

    /** `register`: stores the command under its name; a name seen before keeps its place. */
    method Register(command: Command)
      requires Valid()
      modifies this
      ensures Valid()
      ensures commands == old(commands)[command.commandName := command]
      ensures keys == if command.commandName in old(keys) then old(keys) else old(keys) + [command.commandName]
    {
      if command.commandName !in keys {
        keys := keys + [command.commandName];
      }
      commands := commands[command.commandName := command];
    }

    /** `get_command_for_shell_input`: the command under the first key, in insertion order, that matches. */
    method GetCommandForShellInput(shellInput: string, builtin: bool) returns (r: Option<Command>)
      requires Valid()
      ensures r == Resolve(keys, commands, shellInput, builtin)
    {
      var i := 0;
      while i < |keys|
        invariant 0 <= i <= |keys|
        invariant forall j :: 0 <= j < i ==> !Matches(keys[j], shellInput, builtin)
      {
        var key := keys[i];
        if StartsWith(shellInput, if builtin then key else key + " ") {
          FirstMatchIs(keys, shellInput, builtin, i);
          return Some(commands[key]);
        }
        i := i + 1;
      }
      return None;
    }
  }

  /** The registry the shell starts with: `COMMAND_INDEX` registered into an empty registry. */
  method IndexRegistry() returns (r: CommandRegistry)
    ensures fresh(r) && r.Valid()
    ensures r.keys == ["help", UnrecognizedCommandName]
    ensures r.commands == map["help" := HelpCommand, UnrecognizedCommandName := UnrecognizedHandler]
  {
    r := new CommandRegistry();
    var i := 0;
    while i < |CommandIndex|
      invariant 0 <= i <= |CommandIndex|
      invariant r.Valid()
      invariant i == 0 ==> r.keys == [] && r.commands == map[]
      invariant i == 1 ==> r.keys == ["help"] && r.commands == map["help" := HelpCommand]
      invariant i == 2 ==> r.keys == ["help", UnrecognizedCommandName]
      invariant i == 2 ==> r.commands == map["help" := HelpCommand, UnrecognizedCommandName := UnrecognizedHandler]
    {
      r.Register(CommandIndex[i]);
      i := i + 1;
    }
  }

  /**
   * Against the index: a built-in lookup of "_unrecognized_command" finds its handler, "help"
   * followed by a space finds help, and "help" alone finds nothing; help lists only "help".
   */
  lemma IndexLookups(rest: string)
    ensures var keys := ["help", UnrecognizedCommandName];
      var commands := map["help" := HelpCommand, UnrecognizedCommandName := UnrecognizedHandler];
      WellKeyed(keys, commands) &&
      Resolve(keys, commands, UnrecognizedCommandName, true) == Some(UnrecognizedHandler) &&
      Resolve(keys, commands, "help " + rest, false) == Some(HelpCommand) &&
      Resolve(keys, commands, "help", false).None? &&
      HelpNames(keys) == ["help"]
  {
    var keys := ["help", UnrecognizedCommandName];
    var commands := map["help" := HelpCommand, UnrecognizedCommandName := UnrecognizedHandler];
    assert UnrecognizedCommandName[0] == '_' && !Matches("help", UnrecognizedCommandName, true);
    assert Matches(UnrecognizedCommandName, UnrecognizedCommandName, true);
    assert Matches("help", "help " + rest, false) by {
      assert ("help " + rest)[..5] == "help ";
    }
    ResolveNeedsSpace(keys, commands, "help");
    assert StartsWith(UnrecognizedCommandName, "_");
    assert HelpNames(keys[1..]) == [];
  }
}

=== FILE: keyescape.dfy ===
/**
 * The key-sequence decoder of the terminal input layer (IOEscape.py). `parse_keycode` classifies
 * the text typed so far, in which the raw escape character is already spelled as an escape token
 * such as "<esc>"; `calculate_modifier` decodes xterm's "1 + bitmask" modifier parameter; and
 * `resolve_friendly_name` names a key through the VT and xterm tables.
 */
module KeyEscape {
  import opened Wrappers
  import opened Strings

  /** The escape token the shell substitutes for the raw escape character. */
  const DefaultEscapeSequence: string := "<esc>"

  datatype EscapeType = NoneKey | Char | Esc | AltKeypress | AltBracket | KeycodeSequence | Incomplete

  datatype TerminalStandard = Xterm | Vt | Unknown

  datatype Modifiers = Modifiers(shift: bool, alt: bool, ctrl: bool, meta: bool)

  const NoModifiers := Modifiers(false, false, false, false)

  /** VT names, keyed by the number between "<esc>[" and "~". */
  const VtNames: map<string, string> := map[
    "1" := "Home", "2" := "Insert", "3" := "Delete", "4" := "End", "5" := "PgUp", "6" := "PgDn",
    "7" := "Home", "8" := "End", "9" := "", "10" := "F0", "11" := "F1", "12" := "F2", "13" := "F3",
    "14" := "F4", "15" := "F5", "16" := "", "17" := "F6", "18" := "F7", "19" := "F8", "20" := "F9",
    "21" := "F10", "22" := "", "23" := "F11", "24" := "F12", "25" := "F13", "26" := "F14", "27" := "",
    "28" := "F15", "29" := "F16", "30" := "", "31" := "F17", "32" := "F18", "33" := "F19",
    "34" := "F20", "35" := ""]

  /** xterm names, keyed by what follows "<esc>[". */
  const XtermNames: map<string, string> := map[
    "A" := "Up", "B" := "Down", "C" := "Right", "D" := "Left", "E" := "", "F" := "End",
    "G" := "Keypad 5", "H" := "Home", "I" := "", "J" := "", "K" := "", "L" := "", "M" := "",
    "N" := "", "O" := "", "1P" := "F1", "1Q" := "F2", "1R" := "F3", "1S" := "F4", "T" := "",
    "U" := "", "V" := "", "W" := "", "X" := "", "Y" := "", "Z" := ""]

  /** Python's `d.get(key, "")`. */
  function Lookup(table: map<string, string>, key: string): string {
    if key in table then table[key] else ""
  }

  function ModifierPrefix(m: Modifiers): string {
    (if m.shift then "Shift+" else "") + (if m.alt then "Alt+" else "") +
    (if m.ctrl then "Ctrl+" else "") + (if m.meta then "Meta+" else "")
  }

  /** One decoded keypress (`IOKeycode`). */
  datatype Keycode = Keycode(
    keycode: int,
    keycodeChar: string,
    modifier: Modifiers,
    terminal: TerminalStandard,
    escapeType: EscapeType,
    hasModifierExtra: bool,
    escapeSequence: string,
    terminated: bool)
  {
    predicate IsSpecial() {
      escapeType != Char && escapeType != NoneKey
    }

    predicate IsChar() {
      escapeType == Char
    }

    predicate IsEscape() {
      escapeType in {Esc, AltKeypress, AltBracket, KeycodeSequence}
    }

    predicate IsPossiblyIncomplete() {
      escapeType in {AltBracket, Incomplete, Esc}
    }

    /** The table entry for this key's terminal standard, "" when missing. */
    function TableName(): string {
      match terminal
      case Vt => Lookup(VtNames, keycodeChar)
      case Xterm => Lookup(XtermNames, keycodeChar)
      case Unknown => ""
    }

    /** The key's name without modifiers: the table entry, or the key's own text when that is empty. */
    function KeyName(): string {
      if TableName() == "" then keycodeChar else TableName()
    }

    /** `resolve_friendly_name`: "Shift+", "Alt+", "Ctrl+", "Meta+" in that order when asked for, then the key name. */
    function ResolveFriendlyName(includeModifiers: bool): (name: string)
      ensures !includeModifiers || modifier == NoModifiers ==> name == KeyName()
      ensures includeModifiers ==> name == ModifierPrefix(modifier) + KeyName()
      ensures name == "" ==> keycodeChar == ""
      ensures terminal == Unknown ==> EndsWith(name, keycodeChar)
    {
      var keyName := if TableName() == "" then keycodeChar else TableName();
      if includeModifiers then ModifierPrefix(modifier) + keyName else keyName
    }
  }

  /** The classification predicates split the escape types as the source's sets do. */
  lemma KeyClasses(k: Keycode)
    ensures k.IsChar() <==> k.escapeType == Char
    ensures k.IsSpecial() <==> k.IsEscape() || k.escapeType == Incomplete
    ensures k.IsPossiblyIncomplete() ==> k.IsSpecial()
    ensures k.IsChar() ==> !k.IsSpecial() && !k.IsEscape() && !k.IsPossiblyIncomplete()
  {
  }

  // ---------------------------------------------------------------------------------------------
  // Modifiers

  /** Python's `(x & mask) != 0` for a power-of-two mask, on unbounded two's complement integers. */
  predicate Bit(x: int, mask: nat)
    requires mask > 0
  {
    (x / mask) % 2 == 1
  }

  /** `calculate_modifier`: SHIFT, ALT, CTRL and META are bits 0 to 3 of `modifier - 1`. */
  function CalculateModifier(modifier: int): (m: Modifiers)
    ensures modifier == 1 ==> m == NoModifiers
    ensures modifier == 0 ==> m == Modifiers(true, true, true, true)
  {
    var bits := modifier - 1;
    Modifiers(Bit(bits, 1), Bit(bits, 2), Bit(bits, 4), Bit(bits, 8))
  }

  /** The xterm parameter a terminal sends for a set of modifiers: 1 plus their bit mask. */
  function ModifierParam(m: Modifiers): (p: nat)
    ensures 1 <= p <= 16
  {
    1 + (if m.shift then 1 else 0) + (if m.alt then 2 else 0) + (if m.ctrl then 4 else 0) + (if m.meta then 8 else 0)
  }

  /** Decoding the parameter of a set of modifiers gives that set back. */
  lemma CalculateModifierOfParam(m: Modifiers)
    ensures CalculateModifier(ModifierParam(m)) == m
  {
    var x := ModifierParam(m) - 1;
    var s := if m.shift then 1 else 0;
    var a := if m.alt then 1 else 0;
    var c := if m.ctrl then 1 else 0;
    var t := if m.meta then 1 else 0;
    assert x == s + 2 * a + 4 * c + 8 * t;
    assert x / 2 == a + 2 * c + 4 * t;
    assert x / 4 == c + 2 * t;
    assert x / 8 == t;
  }

  /** Every parameter from 1 to 16 is the parameter of the set it decodes to. */
  lemma ParamOfCalculateModifier(p: int)
    requires 1 <= p <= 16
    ensures ModifierParam(CalculateModifier(p)) == p
  {
    var x := p - 1;
    assert x == x % 2 + 2 * ((x / 2) % 2) + 4 * ((x / 4) % 2) + 8 * (x / 8);
  }

  /** Only the low four bits of `modifier - 1` are read. */
  lemma CalculateModifierPeriodic(p: int)
    ensures CalculateModifier(p + 16) == CalculateModifier(p)
  {
    var x := p - 1;
    BitPeriodic(x, 1);
    BitPeriodic(x, 2);
    BitPeriodic(x, 4);
    BitPeriodic(x, 8);
    assert p + 16 - 1 == x + 16;
  }

  /** Adding 16 leaves each of the four low bits as it was. */
  lemma BitPeriodic(x: int, mask: nat)
    requires mask == 1 || mask == 2 || mask == 4 || mask == 8
    ensures Bit(x + 16, mask) == Bit(x, mask)
  {
    if mask == 1 {
      assert (x + 16) / 1 == x / 1 + 16;
    } else if mask == 2 {
      assert (x + 16) / 2 == x / 2 + 8;
    } else if mask == 4 {
      assert (x + 16) / 4 == x / 4 + 4;
    } else {
      assert (x + 16) / 8 == x / 8 + 2;
    }
  }

  // ---------------------------------------------------------------------------------------------
  // The two patterns, scanned by hand over ASCII digits and letters

  predicate IsAsciiLetter(c: char) {
    'a' <= c <= 'z' || 'A' <= c <= 'Z'
  }

  /** Length of the run of digits that starts `s` (the greedy `\d+`). */
  function DigitRun(s: string): (n: nat)
    ensures n <= |s|
    ensures forall i :: 0 <= i < n ==> IsDigit(s[i])
    ensures n < |s| ==> !IsDigit(s[n])
  {
    if s != [] && IsDigit(s[0]) then 1 + DigitRun(s[1..]) else 0
  }

  lemma {:induction false} DigitRunOf(d: string, rest: string)
    requires AllDigits(d)
    requires rest == [] || !IsDigit(rest[0])
    ensures DigitRun(d + rest) == |d|
  {
    if d != [] {
      assert (d + rest)[1..] == d[1..] + rest;
      DigitRunOf(d[1..], rest);
    }
  }

  /** The groups of `\[(\d+)(?:;(\d+))?~`: the key number and the optional modifier parameter. */
  datatype VtMatch = VtMatch(code: string, param: Option<string>)

  predicate ValidVtMatch(m: VtMatch) {
    m.code != [] && AllDigits(m.code) && (m.param.Some? ==> m.param.value != [] && AllDigits(m.param.value))
  }

  /** The text a VT match covers after the escape token and "[". */
  function VtBody(m: VtMatch): string {
    m.code + (if m.param.Some? then ";" + m.param.value else "") + "~"
  }

  /** `\[(\d+)(?:;(\d+))?~` matched at the start of `s`, the text after the escape token and "[". */
  function MatchVt(s: string): (m: Option<VtMatch>)
    ensures m.Some? ==> ValidVtMatch(m.value) && StartsWith(s, VtBody(m.value))
  {
    var n := DigitRun(s);
    if n == 0 then None
    else
      var rest := s[n..];
      if rest != [] && rest[0] == ';' then
        var k := DigitRun(rest[1..]);
        if k > 0 && 1 + k < |rest| && rest[1 + k] == '~' then
          assert s[..n + 1 + k + 1] == s[..n] + ";" + rest[1..1 + k] + "~";
          Some(VtMatch(s[..n], Some(rest[1..1 + k])))
        else None
      else if rest != [] && rest[0] == '~' then
        assert s[..n + 1] == s[..n] + "~";
        Some(VtMatch(s[..n], None))
      else None
  }

  /** A VT body followed by anything matches, with exactly its own groups. */
  lemma MatchVtOfBody(m: VtMatch, rest: string)
    requires ValidVtMatch(m)
    ensures MatchVt(VtBody(m) + rest) == Some(m)
  {
    var s := VtBody(m) + rest;
    var tail := (if m.param.Some? then ";" + m.param.value else "") + "~" + rest;
    assert s == m.code + tail;
    DigitRunOf(m.code, tail);
    assert s[..|m.code|] == m.code && s[|m.code|..] == tail;
    if m.param.Some? {
      var p := m.param.value;
      assert tail[1..] == p + ("~" + rest);
      DigitRunOf(p, "~" + rest);
      assert tail[1..1 + |p|] == p && tail[1 + |p|] == '~';
    } else {
      assert tail[0] == '~';
    }
  }

  /** The groups of `\[(\d+)?([a-zA-Z])`: the optional parameter and the final letter. */
  datatype XtermMatch = XtermMatch(param: Option<string>, letter: char)

  predicate ValidXtermMatch(m: XtermMatch) {
    IsAsciiLetter(m.letter) && (m.param.Some? ==> m.param.value != [] && AllDigits(m.param.value))
  }

  function XtermBody(m: XtermMatch): string {
    (if m.param.Some? then m.param.value else "") + [m.letter]
  }

  /** `\[(\d+)?([a-zA-Z])` matched at the start of `s`, the text after the escape token and "[". */
  function MatchXterm(s: string): (m: Option<XtermMatch>)
    ensures m.Some? ==> ValidXtermMatch(m.value) && StartsWith(s, XtermBody(m.value))
  {
    var n := DigitRun(s);
    if n < |s| && IsAsciiLetter(s[n]) then
      assert s[..n + 1] == s[..n] + [s[n]];
      Some(XtermMatch(if n == 0 then None else Some(s[..n]), s[n]))
    else None
  }

  lemma MatchXtermOfBody(m: XtermMatch, rest: string)
    requires ValidXtermMatch(m)
    ensures MatchXterm(XtermBody(m) + rest) == Some(m)
  {
    var d := if m.param.Some? then m.param.value else "";
    assert XtermBody(m) + rest == d + ([m.letter] + rest);
    DigitRunOf(d, [m.letter] + rest);
  }

  /** A text without letters is never matched by the xterm pattern: it waits for its final letter. */
  lemma MatchXtermNeedsLetter(s: string)
    requires forall i :: 0 <= i < |s| ==> !IsAsciiLetter(s[i])
    ensures MatchXterm(s).None?
  {
  }

  // ---------------------------------------------------------------------------------------------
  // parse_keycode

  /** A keypress outside both standards: no modifiers, key number -1. */
  function UnknownKey(esc: string, t: EscapeType, c: string, terminated: bool): Keycode {
    Keycode(-1, c, NoModifiers, Unknown, t, false, esc, terminated)
  }

  /** `int(group) if group else 1`. */
  function ParamValue(p: Option<string>): nat
    requires p.Some? ==> AllDigits(p.value)
  {
    if p.Some? && p.value != [] then DigitsValue(p.value) else 1
  }

  /** A decoded VT sequence: key number, its decimal text and the modifier parameter. */
  function VtKey(m: VtMatch, esc: string): (k: Keycode)
    requires ValidVtMatch(m)
    ensures k.keycode >= 0 && k.keycodeChar == NatToString(k.keycode)
  {
    var code := DigitsValue(m.code);
    Keycode(code, NatToString(code), CalculateModifier(ParamValue(m.param)), Vt, KeycodeSequence, m.param.Some?, esc, true)
  }

  /**
   * The branch of `parse_keycode` for input that starts with the token and "[" and goes on with `t`;
   * `first` is the input's first character, the fallback when a "~" sequence does not match.
   */
  function ParseBracket(t: string, esc: string, first: string): (k: Keycode)
    ensures k.escapeSequence == esc && k.escapeType != NoneKey
    ensures k.terminated <==> k.escapeType != Incomplete
    ensures k.escapeType == Char ==> k.keycodeChar == first
    ensures k.escapeType == KeycodeSequence <==> k.terminal != Unknown
    ensures k.terminal == Vt <==> k.escapeType == KeycodeSequence && t != [] && t[|t| - 1] == '~'
    ensures k.terminal == Vt ==> k.keycode >= 0 && k.keycodeChar == NatToString(k.keycode)
    ensures k.terminal == Xterm ==> k.keycode == -1 && |k.keycodeChar| == 1 && IsAsciiLetter(k.keycodeChar[0])
    ensures k.terminal == Unknown ==> k.keycode == -1 && k.modifier == NoModifiers && !k.hasModifierExtra
  {
    if t == [] then UnknownKey(esc, AltBracket, "", true)
    else if t[|t| - 1] == '~' then
      match MatchVt(t)
      case Some(m) => VtKey(m, esc)
      case None => UnknownKey(esc, Char, first, true)
    else
      match MatchXterm(t)
      case Some(m) =>
        Keycode(-1, [m.letter], CalculateModifier(ParamValue(m.param)), Xterm, KeycodeSequence, m.param.Some?, esc, true)
      case None => UnknownKey(esc, Incomplete, "", false)
  }

  /** `parse_keycode(input, esc)`. */
  function ParseKeycode(input: string, esc: string): (k: Keycode)
    ensures k.escapeSequence == esc
    ensures k.escapeType == NoneKey <==> input == []
    ensures k.terminated <==> k.escapeType != NoneKey && k.escapeType != Incomplete
    ensures k.escapeType == Char ==> input != [] && k.keycodeChar == input[..1]
    ensures input != [] && !StartsWith(input, esc) ==> k.escapeType == Char
    ensures k.IsSpecial() ==> StartsWith(input, esc)
    ensures k.escapeType == KeycodeSequence <==> k.terminal != Unknown
    ensures k.terminal == Vt <==> k.escapeType == KeycodeSequence && EndsWith(input, "~")
    ensures k.terminal == Vt ==> k.keycode >= 0 && k.keycodeChar == NatToString(k.keycode)
    ensures k.terminal == Xterm ==> k.keycode == -1 && |k.keycodeChar| == 1 && IsAsciiLetter(k.keycodeChar[0])
    ensures k.terminal == Unknown ==> k.keycode == -1 && k.modifier == NoModifiers && !k.hasModifierExtra
  {
    var e := |esc|;
    if input == [] then UnknownKey(esc, NoneKey, "", false)
    else if !StartsWith(input, esc) then UnknownKey(esc, Char, input[..1], true)
    else if |input| == e || input[e..if e + e <= |input| then e + e else |input|] == esc then
      UnknownKey(esc, Esc, "", true)
    else if input[e] == '[' then
      assert EndsWith(input, "~") <==> input[e + 1..] != [] && input[e + 1..][|input[e + 1..]| - 1] == '~';
      ParseBracket(input[e + 1..], esc, input[..1])
    else if |input| == e + 1 then UnknownKey(esc, AltKeypress, [input[e]], true)
    else UnknownKey(esc, Char, input[..1], true)
  }

  /** Input that starts with a well-chosen token and "[" is decided by the bracket branch alone. */
  lemma ParseOfBracket(esc: string, t: string)
    requires WellChosen(esc)
    ensures ParseKeycode(esc + "[" + t, esc) == ParseBracket(t, esc, esc[..1])
  {
    var s := esc + "[" + t;
    assert s[..|esc|] == esc;
    assert s[|esc|..][0] == '[';
    assert s[|esc| + 1..] == t;
    assert s[..1] == esc[..1];
  }

  /**
   * An escape token that cannot be confused with the text after it: at least two characters long,
   * not starting with "[". The default "<esc>" is one.
   */
  predicate WellChosen(esc: string) {
    |esc| >= 2 && esc[0] != '['
  }

  /** The text a VT terminal sends for key number `code` with an optional modifier parameter. */
  function VtSequence(esc: string, code: nat, param: Option<nat>): string {
    esc + "[" + VtBody(VtMatch(NatToString(code), if param.Some? then Some(NatToString(param.value)) else None))
  }

  /** The text an xterm terminal sends for a final letter with an optional modifier parameter. */
  function XtermSequence(esc: string, param: Option<nat>, letter: char): string {
    esc + "[" + XtermBody(XtermMatch(if param.Some? then Some(NatToString(param.value)) else None, letter))
  }

  /** The escape token alone, or twice in a row, is a lone escape. */
  lemma ParseEscape(esc: string, rest: string)
    requires esc != []
    ensures ParseKeycode(esc, esc) == UnknownKey(esc, Esc, "", true)
    ensures ParseKeycode(esc + esc + rest, esc) == UnknownKey(esc, Esc, "", true)
  {
    var s := esc + esc + rest;
    assert s[..|esc|] == esc;
    assert s[|esc|..|esc| + |esc|] == esc;
  }

  /** The token and "[" is an Alt+[ that may still grow; the token and another character is Alt+that character. */
  lemma ParseAlt(esc: string, c: char)
    requires WellChosen(esc)
    ensures ParseKeycode(esc + "[", esc) == UnknownKey(esc, AltBracket, "", true)
    ensures c != '[' ==> ParseKeycode(esc + [c], esc) == UnknownKey(esc, AltKeypress, [c], true)
  {
    var s := esc + [c];
    assert s[..|esc|] == esc;
    assert s[|esc|..|s|] == [c];
    assert (esc + "[")[..|esc|] == esc;
    assert (esc + "[")[|esc|..|esc| + 1] == "[";
  }

  /**
   * The VT form, followed by nothing or by more text ending in "~" (the pattern is only anchored at
   * the start), is decoded to its key number and modifier parameter.
   */
  lemma ParseVtSequence(esc: string, code: nat, param: Option<nat>, rest: string)
    requires WellChosen(esc)
    requires rest == [] || rest[|rest| - 1] == '~'
    ensures ParseKeycode(VtSequence(esc, code, param) + rest, esc) ==
      Keycode(code, NatToString(code), CalculateModifier(if param.Some? then param.value else 1), Vt,
        KeycodeSequence, param.Some?, esc, true)
  {
    var m := VtMatch(NatToString(code), if param.Some? then Some(NatToString(param.value)) else None);
    var t := VtBody(m) + rest;
    assert VtSequence(esc, code, param) + rest == esc + "[" + t;
    ParseOfBracket(esc, t);
    MatchVtOfBody(m, rest);
    assert t[|t| - 1] == '~';
    DigitsValueOfNatToString(code);
    if param.Some? {
      DigitsValueOfNatToString(param.value);
    }
  }

  /** The xterm form, followed by text that does not end in "~", is decoded to its letter and parameter. */
  lemma ParseXtermSequence(esc: string, param: Option<nat>, letter: char, rest: string)
    requires WellChosen(esc) && IsAsciiLetter(letter)
    requires rest == [] || rest[|rest| - 1] != '~'
    ensures ParseKeycode(XtermSequence(esc, param, letter) + rest, esc) ==
      Keycode(-1, [letter], CalculateModifier(if param.Some? then param.value else 1), Xterm,
        KeycodeSequence, param.Some?, esc, true)
  {
    var m := XtermMatch(if param.Some? then Some(NatToString(param.value)) else None, letter);
    var t := XtermBody(m) + rest;
    assert XtermSequence(esc, param, letter) + rest == esc + "[" + t;
    ParseOfBracket(esc, t);
    MatchXtermOfBody(m, rest);
    assert t[|t| - 1] == if rest == [] then letter else rest[|rest| - 1];
    if param.Some? {
      DigitsValueOfNatToString(param.value);
    }
  }

  /** Text after the token and "[" that ends in "~" but is not a VT form falls back to a plain character. */
  lemma ParseUnmatchedTilde(esc: string, t: string)
    requires WellChosen(esc) && t != [] && t[|t| - 1] == '~' && MatchVt(t).None?
    ensures ParseKeycode(esc + "[" + t, esc) == UnknownKey(esc, Char, esc[..1], true)
  {
    ParseOfBracket(esc, t);
  }

  /** Text after the token and "[" without a letter and not ending in "~" is an incomplete sequence. */
  lemma ParseWithoutFinal(esc: string, t: string)
    requires WellChosen(esc) && t != [] && t[|t| - 1] != '~'
    requires forall i :: 0 <= i < |t| ==> !IsAsciiLetter(t[i])
    ensures ParseKeycode(esc + "[" + t, esc) == UnknownKey(esc, Incomplete, "", false)
  {
    ParseOfBracket(esc, t);
    MatchXtermNeedsLetter(t);
  }

  /**
   * Every prefix of a VT form at least as long as the token is possibly incomplete, so a shell that
   * keeps its queue on such keys waits for the whole sequence.
   */
  lemma VtPrefixWaits(esc: string, code: nat, param: Option<nat>, n: nat)
    requires WellChosen(esc)
    requires |esc| <= n < |VtSequence(esc, code, param)|
    ensures ParseKeycode(VtSequence(esc, code, param)[..n], esc).IsPossiblyIncomplete()
  {
    var s := VtSequence(esc, code, param);
    var m := VtMatch(NatToString(code), if param.Some? then Some(NatToString(param.value)) else None);
    assert s == esc + "[" + VtBody(m);
    if n == |esc| {
      assert s[..n] == esc;
      ParseEscape(esc, "");
    } else if n == |esc| + 1 {
      assert s[..n] == esc + "[";
      ParseAlt(esc, '[');
    } else {
      var t := s[|esc| + 1..n];
      assert s[..n] == esc + "[" + t;
      var body := VtBody(m);
      assert t == body[..n - |esc| - 1];
      forall i | 0 <= i < |t|
        ensures t[i] != '~' && !IsAsciiLetter(t[i])
      {
        assert t[i] == body[i];
        assert i < |body| - 1;
        if i < |m.code| {
          assert body[i] == m.code[i];
        } else {
          assert m.param.Some?;
          assert body[i] == (";" + m.param.value)[i - |m.code|];
        }
      }
      ParseWithoutFinal(esc, t);
    }
  }

  /** Every prefix of an xterm form at least as long as the token is possibly incomplete as well. */
  lemma XtermPrefixWaits(esc: string, param: Option<nat>, letter: char, n: nat)
    requires WellChosen(esc) && IsAsciiLetter(letter)
    requires |esc| <= n < |XtermSequence(esc, param, letter)|
    ensures ParseKeycode(XtermSequence(esc, param, letter)[..n], esc).IsPossiblyIncomplete()
  {
    var s := XtermSequence(esc, param, letter);
    var m := XtermMatch(if param.Some? then Some(NatToString(param.value)) else None, letter);
    assert s == esc + "[" + XtermBody(m);
    if n == |esc| {
      assert s[..n] == esc;
      ParseEscape(esc, "");
    } else if n == |esc| + 1 {
      assert s[..n] == esc + "[";
      ParseAlt(esc, '[');
    } else {
      var t := s[|esc| + 1..n];
      assert s[..n] == esc + "[" + t;
      var body := XtermBody(m);
      assert t == body[..n - |esc| - 1];
      forall i | 0 <= i < |t|
        ensures t[i] != '~' && !IsAsciiLetter(t[i])
      {
        assert t[i] == body[i];
        assert m.param.Some? && body[i] == m.param.value[i];
      }
      ParseWithoutFinal(esc, t);
    }
  }

  /** A decoded VT key is named by its number's table entry, when it has one. */
  lemma NameOfVtSequence(esc: string, code: nat, param: Option<nat>)
    requires WellChosen(esc)
    ensures Lookup(VtNames, NatToString(code)) != "" ==>
      ParseKeycode(VtSequence(esc, code, param), esc).ResolveFriendlyName(false) == VtNames[NatToString(code)]
  {
    ParseVtSequence(esc, code, param, "");
    assert VtSequence(esc, code, param) + "" == VtSequence(esc, code, param);
  }

  /** A decoded xterm key is named by its table entry, when it has one. */
  lemma NameOfXtermSequence(esc: string, param: Option<nat>, letter: char)
    requires WellChosen(esc) && IsAsciiLetter(letter)
    ensures Lookup(XtermNames, [letter]) != "" ==>
      ParseKeycode(XtermSequence(esc, param, letter), esc).ResolveFriendlyName(false) == XtermNames[[letter]]
  {
    ParseXtermSequence(esc, param, letter, "");
    assert XtermSequence(esc, param, letter) + "" == XtermSequence(esc, param, letter);
  }

  /** The name of a VT key 3 (Delete) with the CTRL modifier. */
  lemma NameOfCtrlDelete(k: Keycode)
    requires k.terminal == Vt && k.keycodeChar == "3" && k.modifier == CalculateModifier(5)
    ensures k.ResolveFriendlyName(true) == "Ctrl+Delete"
  {
    assert k.modifier == Modifiers(false, false, true, false);
    assert VtNames["3"] == "Delete";
  }

  /** The name of an xterm key "A" (Up) with the SHIFT modifier. */
  lemma NameOfShiftUp(k: Keycode)
    requires k.terminal == Xterm && k.keycodeChar == "A" && k.modifier == CalculateModifier(2)
    ensures k.ResolveFriendlyName(true) == "Shift+Up"
  {
    assert k.modifier == Modifiers(true, false, false, false);
    assert XtermNames["A"] == "Up";
  }

  /** A worked name: the VT sequence for key 3 with parameter 5 ("<esc>[3;5~") is Ctrl+Delete. */
  lemma CtrlDeleteExample(esc: string)
    requires WellChosen(esc)
    ensures ParseKeycode(VtSequence(esc, 3, Some(5)), esc).ResolveFriendlyName(true) == "Ctrl+Delete"
  {
    ParseVtSequence(esc, 3, Some(5), "");
    assert VtSequence(esc, 3, Some(5)) + "" == VtSequence(esc, 3, Some(5));
    assert NatToString(3) == "3";
    NameOfCtrlDelete(ParseKeycode(VtSequence(esc, 3, Some(5)), esc));
  }

  /** A worked name: the xterm sequence for "A" with parameter 2 ("<esc>[2A") is Shift+Up. */
  lemma ShiftUpExample(esc: string)
    requires WellChosen(esc)
    ensures ParseKeycode(XtermSequence(esc, Some(2), 'A'), esc).ResolveFriendlyName(true) == "Shift+Up"
  {
    ParseXtermSequence(esc, Some(2), 'A', "");
    assert XtermSequence(esc, Some(2), 'A') + "" == XtermSequence(esc, Some(2), 'A');
    NameOfShiftUp(ParseKeycode(XtermSequence(esc, Some(2), 'A'), esc));
  }
}

=== FILE: strings.dfy ===
/**
 * Text helpers with Python's meaning: `str.split()`, `str.split(sep)`, `sep.join(...)`,
 * slicing with clamped and negative bounds, `str(int)` and `int(digits)`.
 */
module Strings {

  /** The characters for which Python's `str.isspace()` holds: the separators of `str.split()`. */
  predicate IsSpace(c: char) {
    ('\t' <= c <= '\r') || ('\U{1C}' <= c <= ' ') || c == '\U{85}' || c == '\U{A0}' ||
    c == '\U{1680}' || ('\U{2000}' <= c <= '\U{200A}') || c == '\U{2028}' || c == '\U{2029}' ||
    c == '\U{202F}' || c == '\U{205F}' || c == '\U{3000}'
  }

  /** A token of `str.split()`: non-empty and free of whitespace. */
  predicate IsWord(w: string) {
    w != [] && forall i :: 0 <= i < |w| ==> !IsSpace(w[i])
  }

  predicate StartsWith(s: string, prefix: string) {
    |prefix| <= |s| && s[..|prefix|] == prefix
  }

  predicate EndsWith(s: string, suffix: string) {
    |suffix| <= |s| && s[|s| - |suffix|..] == suffix
  }

  /** Length of the run of non-whitespace characters that starts `s`. */
  function WordLength(s: string): (n: nat)
    ensures n <= |s|
    ensures forall i :: 0 <= i < n ==> !IsSpace(s[i])
    ensures n < |s| ==> IsSpace(s[n])
  {
    if s == [] || IsSpace(s[0]) then 0 else 1 + WordLength(s[1..])
  }

  /** Python's `s.split()`: the maximal whitespace-free runs of `s`, in order. */
  function Words(s: string): (ws: seq<string>)
    ensures forall i :: 0 <= i < |ws| ==> IsWord(ws[i])
    decreases |s|
  {
    if s == [] then []
    else if IsSpace(s[0]) then Words(s[1..])
    else
      var n := WordLength(s);
      [s[..n]] + Words(s[n..])
  }

  /** Python's `sep.join(parts)`. */
  function JoinWith(parts: seq<string>, sep: string): string {
    if |parts| == 0 then ""
    else if |parts| == 1 then parts[0]
    else parts[0] + sep + JoinWith(parts[1..], sep)
  }

  /** Python's `"".join(parts)`. */
  function Concat(parts: seq<string>): string {
    if parts == [] then "" else parts[0] + Concat(parts[1..])
  }

  /** Python's `s.split(sep)` for a one-character separator: never empty, `"".split(sep) == [""]`. */
  function SplitOn(s: string, sep: char): (parts: seq<string>)
    ensures |parts| >= 1
    ensures forall i :: 0 <= i < |parts| ==> sep !in parts[i]
  {
    if s == [] then [""]
    else
      var rest := SplitOn(s[1..], sep);
      if s[0] == sep then [""] + rest else [[s[0]] + rest[0]] + rest[1..]
  }

  /** Python's `s[:k]` for any integer `k`: a negative bound counts from the end, both clamp. */
  function PyPrefix(s: string, k: int): string {
    if k >= 0 then (if k <= |s| then s[..k] else s)
    else if |s| + k >= 0 then s[..|s| + k] else ""
  }

  /** Python's `s[k:]` for any integer `k`: a negative bound counts from the end, both clamp. */
  function PySuffix(s: string, k: int): string {
    if k >= 0 then (if k <= |s| then s[k..] else "")
    else if |s| + k >= 0 then s[|s| + k..] else s
  }

  predicate IsDigit(c: char) {
    '0' <= c <= '9'
  }

  predicate AllDigits(s: string) {
    forall i :: 0 <= i < |s| ==> IsDigit(s[i])
  }

  function DigitChar(d: nat): char
    requires d < 10
  {
    "0123456789"[d]
  }

  /** Python's `int(s)` on a string of ASCII digits. */
  function DigitsValue(s: string): nat
    requires AllDigits(s)
  {
    if s == [] then 0 else 10 * DigitsValue(s[..|s| - 1]) + (s[|s| - 1] as int - '0' as int)
  }

  /** Python's `str(n)` for a natural number: decimal digits, most significant first. */
  function NatToString(n: nat): (s: string)
    ensures s != [] && AllDigits(s)
  {
    if n < 10 then [DigitChar(n)] else NatToString(n / 10) + [DigitChar(n % 10)]
  }

  /** Python's `str(i)` / f"{i}" for any integer. */
  function IntToString(i: int): string {
    if i < 0 then "-" + NatToString(-i) else NatToString(i)
  }

  /** `int(str(n)) == n`: decimal rendering is decoded back exactly. */
  lemma {:induction false} DigitsValueOfNatToString(n: nat)
    ensures DigitsValue(NatToString(n)) == n
  {
    if n >= 10 {
      var s := NatToString(n);
      assert s[..|s| - 1] == NatToString(n / 10);
      DigitsValueOfNatToString(n / 10);
    }
  }

  lemma {:induction false} ConcatAppend(parts: seq<string>, last: string)
    ensures Concat(parts + [last]) == Concat(parts) + last
  {
    if parts != [] {
      assert (parts + [last])[1..] == parts[1..] + [last];
      ConcatAppend(parts[1..], last);
    }
  }

  lemma {:induction false} ConcatAppendAll(a: seq<string>, b: seq<string>)
    ensures Concat(a + b) == Concat(a) + Concat(b)
  {
    if a == [] {
      assert a + b == b;
    } else {
      assert (a + b)[1..] == a[1..] + b;
      ConcatAppendAll(a[1..], b);
    }
  }

  /** `sep.join(s.split(sep)) == s`: splitting on a character loses nothing. */
  lemma {:induction false} JoinSplitOn(s: string, sep: char)
    ensures JoinWith(SplitOn(s, sep), [sep]) == s
  {
    if s != [] {
      var rest := SplitOn(s[1..], sep);
      JoinSplitOn(s[1..], sep);
      if s[0] == sep {
        assert SplitOn(s, sep) == [""] + rest;
        assert ([""] + rest)[1..] == rest;
      } else {
        var parts := [[s[0]] + rest[0]] + rest[1..];
        assert SplitOn(s, sep) == parts;
        if |rest| > 1 {
          assert parts[1..] == rest[1..];
          assert JoinWith(rest, [sep]) == rest[0] + [sep] + JoinWith(rest[1..], [sep]);
        }
      }
    }
  }

  /** A string that starts with a separator-free line and a separator splits into that line and the split of the rest. */
  lemma {:induction false} SplitOnLine(line: string, sep: char, rest: string)
    requires sep !in line
    ensures SplitOn(line + [sep] + rest, sep) == [line] + SplitOn(rest, sep)
  {
    if line == [] {
      assert line + [sep] + rest == [sep] + rest;
      assert ([sep] + rest)[1..] == rest;
    } else {
      assert (line + [sep] + rest)[1..] == line[1..] + [sep] + rest;
      SplitOnLine(line[1..], sep, rest);
      assert [line[0]] + line[1..] == line;
    }
  }

  /** Joining one more part appends the separator and that part. */
  lemma {:induction false} JoinWithSnoc(parts: seq<string>, last: string, sep: string)
    requires parts != []
    ensures JoinWith(parts + [last], sep) == JoinWith(parts, sep) + sep + last
  {
    if |parts| == 1 {
      assert (parts + [last])[1..] == [last];
    } else {
      assert (parts + [last])[1..] == parts[1..] + [last];
      JoinWithSnoc(parts[1..], last, sep);
    }
  }

  lemma {:induction false} WordLengthOfWord(w: string, rest: string)
    requires IsWord(w)
    requires rest == [] || IsSpace(rest[0])
    ensures WordLength(w + rest) == |w|
  {
    if |w| > 1 {
      assert (w + rest)[1..] == w[1..] + rest;
      WordLengthOfWord(w[1..], rest);
    } else {
      assert (w + rest)[1..] == rest;
    }
  }

  /** Splitting a word followed by whitespace (or nothing) yields that word first. */
  lemma WordsOfWordThen(w: string, rest: string)
    requires IsWord(w)
    requires rest == [] || IsSpace(rest[0])
    ensures Words(w + rest) == [w] + Words(rest)
  {
    WordLengthOfWord(w, rest);
    assert (w + rest)[..|w|] == w;
    assert (w + rest)[|w|..] == rest;
  }

  /** `" ".join(ws).split() == ws` for a list of whitespace-free, non-empty words. */
  lemma {:induction false} WordsOfJoinSpace(ws: seq<string>)
    requires forall i :: 0 <= i < |ws| ==> IsWord(ws[i])
    ensures Words(JoinWith(ws, " ")) == ws
  {
    if |ws| == 1 {
      WordsOfWordThen(ws[0], "");
      assert ws[0] + "" == ws[0];
    } else if |ws| > 1 {
      var tail := JoinWith(ws[1..], " ");
      WordsOfJoinSpace(ws[1..]);
      assert JoinWith(ws, " ") == ws[0] + (" " + tail);
      WordsOfWordThen(ws[0], " " + tail);
      assert (" " + tail)[1..] == tail;
    }
  }
}

=== FILE: style.dfy ===
/**
 * Colours, cell properties and cells of CellField.py, as values. Everything here renders to
 * ANSI Select Graphic Rendition escapes (section 8.3.117 of ECMA-48); the `38;2;r;g;b` and
 * `48;2;r;g;b` direct-colour forms are those of ITU-T T.416.
 */
module Style {
  import opened Wrappers
  import opened Strings

  /** The ESC control character, `"\033"`. */
  const Esc: string := "\U{1B}"

  /** The universal reset `"\033[0m"` that closes every rendered cell. */
  const Reset: string := Esc + "[0m"

  /** `ANSIColor`: the eight basic colours and the terminal default. */
  datatype AnsiColor = Black | Red | Green | Yellow | Blue | Magenta | Cyan | White | Default

  /** The enum value of an `ANSIColor` member: 0 to 7, and 9 for `default`. */
  function AnsiValue(c: AnsiColor): (v: nat)
    ensures v <= 9 && v != 8
    ensures v == 9 <==> c == Default
  {
    match c
    case Black => 0
    case Red => 1
    case Green => 2
    case Yellow => 3
    case Blue => 4
    case Magenta => 5
    case Cyan => 6
    case White => 7
    case Default => 9
  }

  datatype StyleError = InvalidColor

  /** `ANSIColor.from_str`: exactly the nine member names are accepted. */
  function AnsiColorFromStr(name: string): (r: Result<AnsiColor, StyleError>)
    ensures r.Ok? <==> name in {"black", "red", "green", "yellow", "blue", "magenta", "cyan", "white", "default"}
    ensures r.Ok? ==> AnsiColorName(r.value) == name
  {
    if name == "black" then Ok(Black)
    else if name == "red" then Ok(Red)
    else if name == "green" then Ok(Green)
    else if name == "yellow" then Ok(Yellow)
    else if name == "blue" then Ok(Blue)
    else if name == "magenta" then Ok(Magenta)
    else if name == "cyan" then Ok(Cyan)
    else if name == "white" then Ok(White)
    else if name == "default" then Ok(Default)
    else Err(InvalidColor)
  }

  /** The Python member name of an `ANSIColor`. */
  function AnsiColorName(c: AnsiColor): string {
    match c
    case Black => "black"
    case Red => "red"
    case Green => "green"
    case Yellow => "yellow"
    case Blue => "blue"
    case Magenta => "magenta"
    case Cyan => "cyan"
    case White => "white"
    case Default => "default"
  }

  /** `from_str` inverts the member names: every colour is found under its own name. */
  lemma AnsiColorFromStrOfName(c: AnsiColor)
    ensures AnsiColorFromStr(AnsiColorName(c)) == Ok(c)
  {
    match c
    case Black =>
    case Red =>
    case Green =>
    case Yellow =>
    case Blue =>
    case Magenta =>
    case Cyan =>
    case White =>
    case Default =>
  }

  /** What `Color(...)` may be given; `OtherArg` is any value of another Python type. */
  datatype ColorArg = IntArg(n: int) | AnsiArg(color: AnsiColor) | RgbArg(red: int, green: int, blue: int) | OtherArg

  /** A `Color`: either a basic colour number or a `2;r;g;b` direct-colour tail. */
  datatype Color = Color(isAnsiColor: bool, ansiValue: string)

  /** `Color(arg)`: ints and `ANSIColor`s give basic colours, `RGBColor` a direct colour, anything else ValueError. */
  function MakeColor(arg: ColorArg): (r: Result<Color, StyleError>)
    ensures r.Err? <==> arg.OtherArg?
    ensures r.Ok? ==> (r.value.isAnsiColor <==> !arg.RgbArg?)
  {
    match arg
    case IntArg(n) => Ok(Color(true, IntToString(n)))
    case AnsiArg(c) => Ok(Color(true, NatToString(AnsiValue(c))))
    case RgbArg(red, green, blue) =>
      Ok(Color(false, "2;" + RgbFields(red, green, blue)))
    case OtherArg => Err(InvalidColor)
  }

  /** The `r;g;b` part of a direct colour. */
  function RgbFields(red: int, green: int, blue: int): string {
    IntToString(red) + ";" + IntToString(green) + ";" + IntToString(blue)
  }

  /** `Color(ANSIColor.x)` for a basic colour. */
  function Ansi(c: AnsiColor): Color {
    Color(true, NatToString(AnsiValue(c)))
  }

  /** `Color.ansi_fg()`. */
  function AnsiFg(c: Color): (s: string)
    ensures StartsWith(s, Esc + "[3") && EndsWith(s, c.ansiValue + "m")
    ensures |s| == |c.ansiValue| + (if c.isAnsiColor then 4 else 6)
  {
    var s := if c.isAnsiColor then Esc + "[3" + c.ansiValue + "m" else Esc + "[38;" + c.ansiValue + "m";
    assert s[..3] == Esc + "[3";
    assert s[|s| - |c.ansiValue + "m"|..] == c.ansiValue + "m";
    s
  }

  /** `Color.ansi_bg()`. */
  function AnsiBg(c: Color): (s: string)
    ensures StartsWith(s, Esc + "[4") && EndsWith(s, c.ansiValue + "m")
    ensures |s| == |c.ansiValue| + (if c.isAnsiColor then 4 else 6)
  {
    var s := if c.isAnsiColor then Esc + "[4" + c.ansiValue + "m" else Esc + "[48;" + c.ansiValue + "m";
    assert s[..3] == Esc + "[4";
    assert s[|s| - |c.ansiValue + "m"|..] == c.ansiValue + "m";
    s
  }

  /** A foreground escape never coincides with a background escape: they differ in the plane digit. */
  lemma FgBgDistinct(c: Color, d: Color)
    ensures AnsiFg(c) != AnsiBg(d)
  {
    assert AnsiFg(c)[2] == '3' && AnsiBg(d)[2] == '4';
  }

  /** The escapes a constructed colour produces, per constructor argument. */
  lemma ColorEscapes(arg: ColorArg)
    requires !arg.OtherArg?
    ensures arg.IntArg? ==>
      AnsiFg(MakeColor(arg).value) == Esc + "[3" + IntToString(arg.n) + "m" &&
      AnsiBg(MakeColor(arg).value) == Esc + "[4" + IntToString(arg.n) + "m"
    ensures arg.AnsiArg? ==>
      AnsiFg(MakeColor(arg).value) == Esc + "[3" + NatToString(AnsiValue(arg.color)) + "m" &&
      AnsiBg(MakeColor(arg).value) == Esc + "[4" + NatToString(AnsiValue(arg.color)) + "m"
    ensures arg.RgbArg? ==>
      AnsiFg(MakeColor(arg).value) == Esc + "[38;2;" + RgbFields(arg.red, arg.green, arg.blue) + "m" &&
      AnsiBg(MakeColor(arg).value) == Esc + "[48;2;" + RgbFields(arg.red, arg.green, arg.blue) + "m"
  {
    if arg.RgbArg? {
      RgbEscape(RgbFields(arg.red, arg.green, arg.blue));
    }
  }

  lemma RgbEscape(v: string)
    ensures AnsiFg(Color(false, "2;" + v)) == Esc + "[38;2;" + v + "m"
    ensures AnsiBg(Color(false, "2;" + v)) == Esc + "[48;2;" + v + "m"
  {
  }

  /** `CellProperties`: two colours and seven attribute flags. */
  datatype CellProperties = CellProperties(
    foregroundColor: Color,
    backgroundColor: Color,
    underlined: bool,
    bold: bool,
    italic: bool,
    strikethrough: bool,
    inverse: bool,
    invisible: bool,
    blink: bool)
  {
    /**
     * `copy(**kwargs)`: a named argument that is passed (`Some`) replaces that field, every
     * other field is copied.
     */
    function Copy(foregroundColor: Option<Color> := None, backgroundColor: Option<Color> := None,
                  underlined: Option<bool> := None, bold: Option<bool> := None,
                  italic: Option<bool> := None, strikethrough: Option<bool> := None,
                  inverse: Option<bool> := None, invisible: Option<bool> := None,
                  blink: Option<bool> := None): (r: CellProperties)
      // each field separately: the argument when passed, the original value otherwise
      ensures foregroundColor.Some? ==> r.foregroundColor == foregroundColor.value
      ensures foregroundColor.None? ==> r.foregroundColor == this.foregroundColor
      ensures backgroundColor.Some? ==> r.backgroundColor == backgroundColor.value
      ensures backgroundColor.None? ==> r.backgroundColor == this.backgroundColor
      ensures underlined.Some? ==> r.underlined == underlined.value
      ensures underlined.None? ==> r.underlined == this.underlined
      ensures bold.Some? ==> r.bold == bold.value
      ensures bold.None? ==> r.bold == this.bold
      ensures italic.Some? ==> r.italic == italic.value
      ensures italic.None? ==> r.italic == this.italic
      ensures strikethrough.Some? ==> r.strikethrough == strikethrough.value
      ensures strikethrough.None? ==> r.strikethrough == this.strikethrough
      ensures inverse.Some? ==> r.inverse == inverse.value
      ensures inverse.None? ==> r.inverse == this.inverse
      ensures invisible.Some? ==> r.invisible == invisible.value
      ensures invisible.None? ==> r.invisible == this.invisible
      ensures blink.Some? ==> r.blink == blink.value
      ensures blink.None? ==> r.blink == this.blink
    {
      CellProperties(
        foregroundColor.UnwrapOr(this.foregroundColor),
        backgroundColor.UnwrapOr(this.backgroundColor),
        underlined.UnwrapOr(this.underlined),
        bold.UnwrapOr(this.bold),
        italic.UnwrapOr(this.italic),
        strikethrough.UnwrapOr(this.strikethrough),
        inverse.UnwrapOr(this.inverse),
        invisible.UnwrapOr(this.invisible),
        blink.UnwrapOr(this.blink))
    }
  }

  /** `copy()` with no argument is the original; with every argument it is built from them alone. */
  lemma CopyExtremes(p: CellProperties, fg: Color, bg: Color, underlined: bool, bold: bool, italic: bool,
                     strikethrough: bool, inverse: bool, invisible: bool, blink: bool)
    ensures p.Copy() == p
    ensures p.Copy(Some(fg), Some(bg), Some(underlined), Some(bold), Some(italic), Some(strikethrough),
                   Some(inverse), Some(invisible), Some(blink))
         == CellProperties(fg, bg, underlined, bold, italic, strikethrough, inverse, invisible, blink)
  {
  }

  /** `CellProperties()`: default colours on both planes, no attributes. */
  const DefaultProperties: CellProperties :=
    CellProperties(Ansi(Default), Ansi(Default), false, false, false, false, false, false, false)

  /** The fixed emission order of the attribute codes: underline, bold, italic, strikethrough, inverse, invisible, blink. */
  const EffectOrder: seq<nat> := [4, 1, 3, 9, 7, 8, 5]

  /** Whether the attribute with code `code` is set in `p`. */
  predicate HasEffect(p: CellProperties, code: nat) {
    (code == 4 && p.underlined) || (code == 1 && p.bold) || (code == 3 && p.italic) ||
    (code == 9 && p.strikethrough) || (code == 7 && p.inverse) || (code == 8 && p.invisible) ||
    (code == 5 && p.blink)
  }

  /** The position of a code in `EffectOrder`. */
  function EffectRank(code: nat): nat {
    if code == 4 then 0 else if code == 1 then 1 else if code == 3 then 2 else if code == 9 then 3
    else if code == 7 then 4 else if code == 8 then 5 else 6
  }

  /**
   * The SGR attribute codes of `EffectOrder[k..]` whose flag is set in `p`, in that order.
   * `CellProperties.render` emits `EffectCodesFrom(p, 0)`.
   */
  function EffectCodesFrom(p: CellProperties, k: nat): (codes: seq<nat>)
    requires k <= |EffectOrder|
    ensures forall code :: code in codes <==> code in EffectOrder[k..] && HasEffect(p, code)
    ensures forall i :: 0 <= i < |codes| ==> k <= EffectRank(codes[i])
    ensures forall i, j :: 0 <= i < j < |codes| ==> EffectRank(codes[i]) < EffectRank(codes[j])
    decreases |EffectOrder| - k
  {
    if k == |EffectOrder| then []
    else
      var rest := EffectCodesFrom(p, k + 1);
      var c := EffectOrder[k];
      assert EffectOrder[k..] == [c] + EffectOrder[k + 1..];
      assert EffectRank(c) == k by { RankOfOrder(k); }
      if HasEffect(p, c) then [c] + rest else rest
  }

  lemma RankOfOrder(k: nat)
    requires k < |EffectOrder|
    ensures EffectRank(EffectOrder[k]) == k
  {
  }

  /**
   * The SGR attribute codes `CellProperties.render` emits: exactly the codes of the set flags,
   * each once, in `EffectOrder`.
   */
  function EffectCodes(p: CellProperties): (codes: seq<nat>)
    ensures forall code :: code in codes <==> code in EffectOrder && HasEffect(p, code)
    ensures forall i, j :: 0 <= i < j < |codes| ==> EffectRank(codes[i]) < EffectRank(codes[j])
  {
    assert EffectOrder[0..] == EffectOrder;
    EffectCodesFrom(p, 0)
  }

  /** One SGR escape, `"\033[{n}m"`. */
  function Sgr(n: nat): string {
    Esc + "[" + NatToString(n) + "m"
  }

  /** The attribute escapes, one `Sgr` per code, in the order given. */
  function SgrRun(codes: seq<nat>): string {
    Concat(seq(|codes|, i requires 0 <= i < |codes| => Sgr(codes[i])))
  }

  lemma SgrRunLineFree(codes: seq<nat>)
    ensures '\n' !in SgrRun(codes)
  {
    var sgrs := seq(|codes|, i requires 0 <= i < |codes| => Sgr(codes[i]));
    forall i | 0 <= i < |sgrs| ensures '\n' !in sgrs[i] {
      DigitsLineFree(NatToString(codes[i]));
    }
    ConcatLineFree(sgrs);
  }

  /** `CellProperties.render()`: the attribute escapes, then the foreground, then the background escape. */
  function RenderProperties(p: CellProperties): (s: string)
    ensures s == SgrRun(EffectCodes(p)) + AnsiFg(p.foregroundColor) + AnsiBg(p.backgroundColor)
    ensures EndsWith(s, AnsiFg(p.foregroundColor) + AnsiBg(p.backgroundColor))
  {
    var colors := AnsiFg(p.foregroundColor) + AnsiBg(p.backgroundColor);
    var s := SgrRun(EffectCodes(p)) + colors;
    assert s[|s| - |colors|..] == colors;
    s
  }

  /** A `Cell`: one display character and its properties. */
  datatype Cell = Cell(character: char, properties: CellProperties)

  /** `Cell(c)` with default properties. */
  function Plain(c: char): Cell {
    Cell(c, DefaultProperties)
  }

  /** The blank cell `Cell(" ")`. */
  const Space: Cell := Plain(' ')

  /** `Cell.render()`: the property escapes, the character, then the reset. */
  function RenderCell(c: Cell): (s: string)
    ensures StartsWith(s, RenderProperties(c.properties))
    ensures EndsWith(s, [c.character] + Reset)
    ensures |s| == |RenderProperties(c.properties)| + 1 + |Reset|
  {
    var props := RenderProperties(c.properties);
    var tail := [c.character] + Reset;
    var s := props + tail;
    assert s[..|props|] == props && s[|s| - |tail|..] == tail;
    assert props + [c.character] + Reset == s;
    s
  }

  /** A cell whose rendering cannot contain a line break: its character and both colour values are free of `'\n'`. */
  predicate LineFree(c: Cell) {
    c.character != '\n' && '\n' !in c.properties.foregroundColor.ansiValue && '\n' !in c.properties.backgroundColor.ansiValue
  }

  lemma {:induction false} ConcatLineFree(parts: seq<string>)
    requires forall i :: 0 <= i < |parts| ==> '\n' !in parts[i]
    ensures '\n' !in Concat(parts)
  {
    if parts != [] {
      ConcatLineFree(parts[1..]);
    }
  }

  lemma DigitsLineFree(s: string)
    requires AllDigits(s)
    ensures '\n' !in s
  {
  }

  /** Every colour `Color(...)` builds has a value without line breaks. */
  lemma MakeColorLineFree(arg: ColorArg)
    requires MakeColor(arg).Ok?
    ensures '\n' !in MakeColor(arg).value.ansiValue
  {
    match arg
    case IntArg(n) =>
      if n < 0 { DigitsLineFree(NatToString(-n)); } else { DigitsLineFree(NatToString(n)); }
    case AnsiArg(c) =>
      DigitsLineFree(NatToString(AnsiValue(c)));
    case RgbArg(red, green, blue) =>
      IntLineFree(red);
      IntLineFree(green);
      IntLineFree(blue);
  }

  lemma IntLineFree(n: int)
    ensures '\n' !in IntToString(n)
  {
    if n < 0 { DigitsLineFree(NatToString(-n)); } else { DigitsLineFree(NatToString(n)); }
  }

  /** A line-free cell renders to a string without line breaks, so it occupies one terminal line. */
  lemma ColorLineFree(c: Color)
    requires '\n' !in c.ansiValue
    ensures '\n' !in AnsiFg(c) && '\n' !in AnsiBg(c)
  {
  }

  lemma RenderCellLineFree(c: Cell)
    requires LineFree(c)
    ensures '\n' !in RenderCell(c)
  {
    var p := c.properties;
    var prefix := SgrRun(EffectCodes(p));
    SgrRunLineFree(EffectCodes(p));
    ColorLineFree(p.foregroundColor);
    ColorLineFree(p.backgroundColor);
    assert '\n' !in Reset;
    assert RenderCell(c) == prefix + (AnsiFg(p.foregroundColor) + AnsiBg(p.backgroundColor)) + [c.character] + Reset;
  }

  // The modifiers: each returns a new cell with the same character and exactly one property changed.

  function Bold(c: Cell): (r: Cell)
    ensures r.character == c.character && r.properties.bold
    ensures r.properties.(bold := c.properties.bold) == c.properties
  {
    Cell(c.character, c.properties.Copy(bold := Some(true)))
  }

  function Italic(c: Cell): (r: Cell)
    ensures r.character == c.character && r.properties.italic
    ensures r.properties.(italic := c.properties.italic) == c.properties
  {
    Cell(c.character, c.properties.Copy(italic := Some(true)))
  }

  function Underline(c: Cell): (r: Cell)
    ensures r.character == c.character && r.properties.underlined
    ensures r.properties.(underlined := c.properties.underlined) == c.properties
  {
    Cell(c.character, c.properties.Copy(underlined := Some(true)))
  }

  function Strikethrough(c: Cell): (r: Cell)
    ensures r.character == c.character && r.properties.strikethrough
    ensures r.properties.(strikethrough := c.properties.strikethrough) == c.properties
  {
    Cell(c.character, c.properties.Copy(strikethrough := Some(true)))
  }

  function Inverse(c: Cell): (r: Cell)
    ensures r.character == c.character && r.properties.inverse
    ensures r.properties.(inverse := c.properties.inverse) == c.properties
  {
    Cell(c.character, c.properties.Copy(inverse := Some(true)))
  }

  function Invisible(c: Cell): (r: Cell)
    ensures r.character == c.character && r.properties.invisible
    ensures r.properties.(invisible := c.properties.invisible) == c.properties
  {
    Cell(c.character, c.properties.Copy(invisible := Some(true)))
  }

  function Blink(c: Cell): (r: Cell)
    ensures r.character == c.character && r.properties.blink
    ensures r.properties.(blink := c.properties.blink) == c.properties
  {
    Cell(c.character, c.properties.Copy(blink := Some(true)))
  }

  function FgColor(c: Cell, color: Color): (r: Cell)
    ensures r.character == c.character && r.properties.foregroundColor == color
    ensures r.properties.(foregroundColor := c.properties.foregroundColor) == c.properties
  {
    Cell(c.character, c.properties.Copy(foregroundColor := Some(color)))
  }

  function BgColor(c: Cell, color: Color): (r: Cell)
    ensures r.character == c.character && r.properties.backgroundColor == color
    ensures r.properties.(backgroundColor := c.properties.backgroundColor) == c.properties
  {
    Cell(c.character, c.properties.Copy(backgroundColor := Some(color)))
  }
}

=== FILE: termlink.dfy ===
/**
 * The shell's line editor (Termlink.py): keys typed at the terminal are queued until they form a
 * complete key, then edit the input line (insert, backspace, delete, cursor moves), walk the
 * history, or submit the line as a command to the registry. What the handlers write to the
 * terminal, the bell included, is kept as a transcript.
 */
module Shell {
  import opened Wrappers
  import opened Strings
  import opened KeyEscape
  import opened Commands

  /** The terminal bell, written when a key cannot act. */
  const Bell := "\U{7}"

  /** The editor's fields, `RUNNING` (cleared by Ctrl+C) and the terminal transcript, as a value. */
  datatype Editor = Editor(
    buffer: string,
    queue: string,
    cursor: int,
    history: seq<string>,
    selected: int,
    running: bool,
    output: string)

  const InitialEditor := Editor("", "", 0, [], -1, true, "")

  predicate CursorInBounds(e: Editor) {
    0 <= e.cursor <= |e.buffer|
  }

  predicate SelectionInRange(e: Editor) {
    -1 <= e.selected < |e.history|
  }

  /** The invariant every handler keeps. */
  predicate Consistent(e: Editor) {
    CursorInBounds(e) && SelectionInRange(e)
  }

  function Ring(e: Editor): Editor {
    e.(output := e.output + Bell)
  }

  // ---------------------------------------------------------------------------------------------
  // One function per handler

  /** `handle_normal_key`: the key's text goes in at the cursor, and the cursor moves one on. */
  function NormalKey(e: Editor, c: string): (r: Editor)
    ensures CursorInBounds(e) ==> r.buffer == e.buffer[..e.cursor] + c + e.buffer[e.cursor..]
    ensures r.cursor == e.cursor + 1 && r.history == e.history && r.selected == e.selected
    ensures |c| == 1 && CursorInBounds(e) ==> CursorInBounds(r)
  {
    e.(buffer := PyPrefix(e.buffer, e.cursor) + c + PySuffix(e.buffer, e.cursor), cursor := e.cursor + 1)
  }

  /** `handle_backspace`: the character before the cursor goes, or the bell rings at the start. */
  function Backspace(e: Editor): (r: Editor)
    ensures CursorInBounds(e) && e.cursor > 0 ==>
      r.buffer == e.buffer[..e.cursor - 1] + e.buffer[e.cursor..] && r.cursor == e.cursor - 1 && r.output == e.output
    ensures e.cursor <= 0 ==> r == Ring(e)
    ensures CursorInBounds(e) ==> CursorInBounds(r)
  {
    if e.cursor > 0 then
      e.(buffer := PyPrefix(e.buffer, e.cursor - 1) + PySuffix(e.buffer, e.cursor), cursor := e.cursor - 1)
    else Ring(e)
  }

  /** `handle_delete_key`: the character under the cursor goes and the cursor stays, or the bell rings at the end. */
  function Delete(e: Editor): (r: Editor)
    ensures CursorInBounds(e) && e.cursor < |e.buffer| ==>
      r.buffer == e.buffer[..e.cursor] + e.buffer[e.cursor + 1..] && r.cursor == e.cursor && r.output == e.output
    ensures e.cursor >= |e.buffer| ==> r == Ring(e)
    ensures CursorInBounds(e) ==> CursorInBounds(r)
  {
    if e.cursor < |e.buffer| then
      e.(buffer := PyPrefix(e.buffer, e.cursor) + PySuffix(e.buffer, e.cursor + 1))
    else Ring(e)
  }

  function Left(e: Editor): (r: Editor)
    ensures r.buffer == e.buffer
    ensures e.cursor > 0 ==> r == e.(cursor := e.cursor - 1)
    ensures e.cursor <= 0 ==> r == Ring(e)
    ensures CursorInBounds(e) ==> CursorInBounds(r)
  {
    if e.cursor > 0 then e.(cursor := e.cursor - 1) else Ring(e)
  }

  function Right(e: Editor): (r: Editor)
    ensures r.buffer == e.buffer
    ensures e.cursor < |e.buffer| ==> r == e.(cursor := e.cursor + 1)
    ensures e.cursor >= |e.buffer| ==> r == Ring(e)
    ensures CursorInBounds(e) ==> CursorInBounds(r)
  {
    if e.cursor < |e.buffer| then e.(cursor := e.cursor + 1) else Ring(e)
  }

  function Home(e: Editor): (r: Editor)
    ensures CursorInBounds(r) && r.cursor == 0
  {
    e.(cursor := 0)
  }

  function End(e: Editor): (r: Editor)
    ensures CursorInBounds(r) && r.cursor == |r.buffer|
  {
    e.(cursor := |e.buffer|)
  }

  /** `handle_up_arrow`: the next entry of the history, starting from the oldest; the bell at the last one. */
  function Up(e: Editor): (r: Editor)
    requires SelectionInRange(e)
    ensures e.selected < |e.history| - 1 ==>
      r.selected == e.selected + 1 && 0 <= r.selected && r.buffer == e.history[r.selected] && r.cursor == |r.buffer|
    ensures e.selected >= |e.history| - 1 ==> r == Ring(e)
    ensures SelectionInRange(r) && (CursorInBounds(e) ==> CursorInBounds(r))
  {
    if e.selected < |e.history| - 1 then
      var i := e.selected + 1;
      e.(selected := i, buffer := e.history[i], cursor := |e.history[i]|)
    else Ring(e)
  }

  /** `handle_down_arrow`: the previous entry of the history; the bell at the first one. */
  function Down(e: Editor): (r: Editor)
    requires SelectionInRange(e)
    ensures 0 < e.selected ==>
      r.selected == e.selected - 1 && r.buffer == e.history[r.selected] && r.cursor == |r.buffer|
    ensures e.selected <= 0 ==> r == Ring(e)
    ensures SelectionInRange(r) && (CursorInBounds(e) ==> CursorInBounds(r))
  {
    if e.selected > 0 then
      var i := e.selected - 1;
      e.(selected := i, buffer := e.history[i], cursor := |e.history[i]|)
    else Ring(e)
  }

  /** What `command` writes between its two line breaks: the matched command's output, or the fallback's. */
  function CommandOutput(keys: seq<string>, commands: map<string, Command>, line: string): (out: string)
    requires WellKeyed(keys, commands)
    ensures (exists k :: k in commands && Matches(k, line, false)) ==>
      exists c :: c in commands.Values && Matches(c.commandName, line, false) && out == HandleOutput(c, keys, line)
    ensures ((forall k :: k in commands ==> !Matches(k, line, false)) &&
             (exists k :: k in commands && Matches(k, UnrecognizedCommandName, true))) ==>
      exists c :: c in commands.Values && Matches(c.commandName, UnrecognizedCommandName, true) && out == HandleOutput(c, keys, line)
    ensures (forall k :: k in commands ==> !Matches(k, line, false) && !Matches(k, UnrecognizedCommandName, true)) ==>
      out == "FATAL: expected builtin _unrecognized_command to be in registry"
  {
    var found := Resolve(keys, commands, line, false);
    if found.Some? then
      assert found.value in commands.Values && Matches(found.value.commandName, line, false);
      HandleOutput(found.value, keys, line)
    else
      var fallback := Resolve(keys, commands, UnrecognizedCommandName, true);
      if fallback.Some? then
        assert fallback.value in commands.Values && Matches(fallback.value.commandName, UnrecognizedCommandName, true);
        HandleOutput(fallback.value, keys, line)
      else "FATAL: expected builtin _unrecognized_command to be in registry"
  }

  /** `handle_enter_press`: the line is run as a command and kept in the history, then cleared. */
  function Enter(e: Editor, keys: seq<string>, commands: map<string, Command>): (r: Editor)
    requires WellKeyed(keys, commands)
    ensures r.history == e.history + [e.buffer] && r.buffer == "" && r.cursor == 0
    ensures r.selected == e.selected && r.queue == e.queue && r.running == e.running
    ensures StartsWith(r.output, e.output)
  {
    var out := e.output + "\r\n" + CommandOutput(keys, commands, e.buffer) + "\r\n";
    e.(history := e.history + [e.buffer], output := out, buffer := "", cursor := 0)
  }

  /** `handle_special_key`: dispatch on the key's name without modifiers; other names change nothing. */
  function SpecialKey(e: Editor, name: string): (r: Editor)
    requires SelectionInRange(e)
    ensures r.history == e.history && r.queue == e.queue && r.running == e.running
    ensures name !in {"Up", "Down", "Left", "Right", "Home", "End", "Delete"} ==> r == e
    ensures name in {"Left", "Right", "Home", "End"} ==> r.buffer == e.buffer && r.selected == e.selected
  {
    if name == "Up" then Up(e)
    else if name == "Down" then Down(e)
    else if name == "Left" then Left(e)
    else if name == "Right" then Right(e)
    else if name == "Home" then Home(e)
    else if name == "End" then End(e)
    else if name == "Delete" then Delete(e)
    else e
  }

  /** `handle_extra_key`: enter, tab (nothing), backspace and Ctrl+C (stops the shell); other keys change nothing. */
  function ExtraKey(e: Editor, extra: string, keys: seq<string>, commands: map<string, Command>): (r: Editor)
    requires WellKeyed(keys, commands)
    ensures r.queue == e.queue && r.selected == e.selected
    ensures r.running == (e.running && extra != "<ctrl+c>")
    ensures extra != "<enter>" ==> r.history == e.history
    ensures extra == "<enter>" ==> r.history == e.history + [e.buffer] && r.buffer == ""
    ensures extra !in {"<enter>", "<backspace>", "<ctrl+c>"} ==> r == e
  {
    if extra == "<enter>" then Enter(e, keys, commands)
    else if extra == "<tab>" then e
    else if extra == "<backspace>" then Backspace(e)
    else if extra == "<ctrl+c>" then e.(running := false)
    else e
  }

  /**
   * `handle_key_press` for an already escaped key: the key joins the queue; a special key that may
   * still grow waits there; otherwise it acts as a special key, an extra key (`parseExtra` of the
   * queue) or a normal key, and the queue is emptied.
   */
  function KeyPress(e: Editor, key: string, parseExtra: string -> string, keys: seq<string>, commands: map<string, Command>): (r: Editor)
    requires WellKeyed(keys, commands) && SelectionInRange(e)
    ensures r.queue == "" || r == e.(queue := e.queue + key)
    ensures var k := ParseKeycode(e.queue + key, DefaultEscapeSequence);
      k.IsSpecial() && k.IsPossiblyIncomplete() ==> r == e.(queue := e.queue + key)
    ensures var k := ParseKeycode(e.queue + key, DefaultEscapeSequence);
      !(k.IsSpecial() && k.IsPossiblyIncomplete()) ==> r.queue == ""
  {
    var queued := e.(queue := e.queue + key);
    var k := ParseKeycode(queued.queue, DefaultEscapeSequence);
    if k.IsSpecial() && k.IsPossiblyIncomplete() then queued
    else Dispatch(queued, k, parseExtra(queued.queue), keys, commands).(queue := "")
  }

  /** The branch of `handle_key_press` for a complete key: special key, extra key or ordinary text. */
  function Dispatch(e: Editor, k: Keycode, extra: string, keys: seq<string>, commands: map<string, Command>): Editor
    requires WellKeyed(keys, commands) && SelectionInRange(e)
  {
    if k.IsSpecial() then SpecialKey(e, k.ResolveFriendlyName(false))
    else if extra != "" then ExtraKey(e, extra, keys, commands)
    else NormalKey(e, k.keycodeChar)
  }

  // ---------------------------------------------------------------------------------------------
  // Properties

  /** Backspace undoes a typed character. */
  lemma BackspaceUndoesInsert(e: Editor, c: char)
    requires CursorInBounds(e)
    ensures Backspace(NormalKey(e, [c])) == e
  {
    var r := NormalKey(e, [c]);
    assert r.buffer[..r.cursor - 1] == e.buffer[..e.cursor];
    assert r.buffer[r.cursor..] == e.buffer[e.cursor..];
    assert r.buffer[..r.cursor - 1] + r.buffer[r.cursor..] == e.buffer;
  }

  /** Moving back over a typed character and deleting it also undoes it. */
  lemma DeleteUndoesInsert(e: Editor, c: char)
    requires CursorInBounds(e)
    ensures Delete(Left(NormalKey(e, [c]))) == e
  {
    var r := Left(NormalKey(e, [c]));
    assert r.cursor == e.cursor;
    assert r.buffer[..r.cursor] == e.buffer[..e.cursor];
    assert r.buffer[r.cursor + 1..] == e.buffer[e.cursor..];
    assert r.buffer[..r.cursor] + r.buffer[r.cursor + 1..] == e.buffer;
  }

  /** Left then Right returns to the same place when the cursor is not at the start. */
  lemma RightUndoesLeft(e: Editor)
    requires CursorInBounds(e) && e.cursor > 0
    ensures Right(Left(e)) == e
  {
  }

  /** The first Up loads the oldest entry; Down after Up comes back to the entry selected before. */
  lemma HistoryWalk(e: Editor)
    requires SelectionInRange(e)
    ensures e.selected == -1 && e.history != [] ==> Up(e).buffer == e.history[0]
    ensures 0 <= e.selected < |e.history| - 1 ==>
      Down(Up(e)).selected == e.selected && Down(Up(e)).buffer == e.history[e.selected]
    ensures 0 <= e.selected ==> 0 <= Down(e).selected && 0 <= Up(e).selected
  {
  }

  /** Enter never resets the selected history position, so the next Up moves on from it. */
  lemma EnterKeepsSelection(e: Editor, keys: seq<string>, commands: map<string, Command>)
    requires WellKeyed(keys, commands) && SelectionInRange(e)
    ensures var r := Enter(e, keys, commands);
      r.selected == e.selected && SelectionInRange(r) && r.history[|e.history|] == e.buffer
  {
  }

  /** Each special key keeps the cursor within the line and the selection within the history. */
  lemma SpecialKeyConsistent(e: Editor, name: string)
    requires Consistent(e)
    ensures Consistent(SpecialKey(e, name))
  {
  }

  lemma ExtraKeyConsistent(e: Editor, extra: string, keys: seq<string>, commands: map<string, Command>)
    requires WellKeyed(keys, commands) && Consistent(e)
    ensures Consistent(ExtraKey(e, extra, keys, commands))
  {
  }

  /**
   * The cursor stays within the line and the selection within the history under every key
   * press, given that a press delivers at least one character.
   */
  lemma KeyPressConsistent(e: Editor, key: string, parseExtra: string -> string, keys: seq<string>, commands: map<string, Command>)
    requires WellKeyed(keys, commands) && Consistent(e) && key != []
    ensures Consistent(KeyPress(e, key, parseExtra, keys, commands))
  {
    var queued := e.(queue := e.queue + key);
    var k := ParseKeycode(queued.queue, DefaultEscapeSequence);
    if !(k.IsSpecial() && k.IsPossiblyIncomplete()) {
      if !k.IsSpecial() {
        assert k.escapeType == Char && |k.keycodeChar| == 1;
      }
      DispatchConsistent(queued, k, parseExtra(queued.queue), keys, commands);
    }
  }

  /** A complete key keeps the invariant, given that an ordinary key is one character. */
  lemma DispatchConsistent(e: Editor, k: Keycode, extra: string, keys: seq<string>, commands: map<string, Command>)
    requires WellKeyed(keys, commands) && Consistent(e)
    requires k.IsSpecial() || extra != "" || |k.keycodeChar| == 1
    ensures Consistent(Dispatch(e, k, extra, keys, commands))
  {
    if k.IsSpecial() {
      SpecialKeyConsistent(e, k.ResolveFriendlyName(false));
    } else if extra != "" {
      ExtraKeyConsistent(e, extra, keys, commands);
    }
  }

  /** While the queue holds a proper prefix of a VT sequence, a key press only queues. */
  lemma KeyPressWaitsForVt(e: Editor, key: string, parseExtra: string -> string, keys: seq<string>, commands: map<string, Command>,
                           code: nat, param: Option<nat>, n: nat)
    requires WellKeyed(keys, commands) && SelectionInRange(e)
    requires |DefaultEscapeSequence| <= n < |VtSequence(DefaultEscapeSequence, code, param)|
    requires e.queue + key == VtSequence(DefaultEscapeSequence, code, param)[..n]
    ensures KeyPress(e, key, parseExtra, keys, commands) == e.(queue := e.queue + key)
  {
    VtPrefixWaits(DefaultEscapeSequence, code, param, n);
  }

  /**
   * Once the queue starts with the escape token twice, it parses as a lone escape that may still
   * grow, so every later key, Ctrl+C included, only joins the queue, and the queue never empties.
   */
  lemma KeyPressAfterDoubleEscape(e: Editor, key: string, parseExtra: string -> string, keys: seq<string>,
                                  commands: map<string, Command>)
    requires WellKeyed(keys, commands) && SelectionInRange(e)
    requires StartsWith(e.queue, DefaultEscapeSequence + DefaultEscapeSequence)
    ensures KeyPress(e, key, parseExtra, keys, commands) == e.(queue := e.queue + key)
  {
    var esc := DefaultEscapeSequence;
    var rest := e.queue[|esc + esc|..] + key;
    assert e.queue + key == esc + esc + rest;
    ParseEscape(esc, rest);
  }

  /** A whole xterm arrow sequence typed at once moves as its name says, whatever its modifiers. */
  lemma KeyPressXterm(e: Editor, parseExtra: string -> string, keys: seq<string>, commands: map<string, Command>,
                      param: Option<nat>, letter: char)
    requires WellKeyed(keys, commands) && SelectionInRange(e) && e.queue == "" && IsAsciiLetter(letter)
    ensures var s := XtermSequence(DefaultEscapeSequence, param, letter);
      var q := e.(queue := s);
      KeyPress(e, s, parseExtra, keys, commands) ==
        SpecialKey(q, if Lookup(XtermNames, [letter]) == "" then [letter] else XtermNames[[letter]]).(queue := "")
  {
    var s := XtermSequence(DefaultEscapeSequence, param, letter);
    ParseXtermSequence(DefaultEscapeSequence, param, letter, "");
    assert s + "" == s;
    assert e.queue + s == s;
    var k := ParseKeycode(s, DefaultEscapeSequence);
    assert k.terminal == Xterm && k.escapeType == KeycodeSequence && k.keycodeChar == [letter];
    assert k.IsSpecial() && !k.IsPossiblyIncomplete();
    assert k.ResolveFriendlyName(false) == if Lookup(XtermNames, [letter]) == "" then [letter] else XtermNames[[letter]];
  }

  /**
   * Queued text that does not start with the escape token, and that `parseExtra` does not name,
   * is typed as an ordinary key: its first character goes in at the cursor and the queue empties.
   */
  lemma KeyPressNormal(e: Editor, key: string, parseExtra: string -> string, keys: seq<string>, commands: map<string, Command>)
    requires WellKeyed(keys, commands) && SelectionInRange(e)
    requires e.queue + key != "" && !StartsWith(e.queue + key, DefaultEscapeSequence)
    requires parseExtra(e.queue + key) == ""
    ensures KeyPress(e, key, parseExtra, keys, commands) ==
      NormalKey(e.(queue := e.queue + key), (e.queue + key)[..1]).(queue := "")
  {
    var k := ParseKeycode(e.queue + key, DefaultEscapeSequence);
    assert k.escapeType == Char && !k.IsSpecial();
  }

  /** Queued text that does not start with the escape token and that `parseExtra` reads as enter runs the line. */
  lemma KeyPressEnter(e: Editor, key: string, parseExtra: string -> string, keys: seq<string>, commands: map<string, Command>)
    requires WellKeyed(keys, commands) && SelectionInRange(e)
    requires e.queue + key != "" && !StartsWith(e.queue + key, DefaultEscapeSequence)
    requires parseExtra(e.queue + key) == "<enter>"
    ensures KeyPress(e, key, parseExtra, keys, commands) ==
      Enter(e.(queue := e.queue + key), keys, commands).(queue := "")
  {
    var k := ParseKeycode(e.queue + key, DefaultEscapeSequence);
    assert k.escapeType == Char && !k.IsSpecial();
  }

  /** Enter runs the command the line resolves to and writes its output between two line breaks. */
  lemma EnterRunsCommand(e: Editor, keys: seq<string>, commands: map<string, Command>, c: Command)
    requires WellKeyed(keys, commands) && Resolve(keys, commands, e.buffer, false) == Some(c)
    ensures Enter(e, keys, commands).output == e.output + "\r\n" + HandleOutput(c, keys, e.buffer) + "\r\n"
  {
  }

  /** A line that no command matches runs the built-in unrecognized-command handler instead. */
  lemma EnterFallsBack(e: Editor, keys: seq<string>, commands: map<string, Command>)
    requires WellKeyed(keys, commands) && Resolve(keys, commands, e.buffer, false).None?
    requires Resolve(keys, commands, UnrecognizedCommandName, true) == Some(UnrecognizedHandler)
    ensures Enter(e, keys, commands).output == e.output + "\r\n" + ("Unrecognized command: " + e.buffer) + "\r\n"
  {
    assert CommandOutput(keys, commands, e.buffer) == HandleOutput(UnrecognizedHandler, keys, e.buffer);
  }

  /** Against the built-in index, a bare "help" runs the unrecognized-command handler. */
  lemma BareHelpUnrecognized()
    ensures var keys := ["help", UnrecognizedCommandName];
      var commands := map["help" := HelpCommand, UnrecognizedCommandName := UnrecognizedHandler];
      WellKeyed(keys, commands) && CommandOutput(keys, commands, "help") == "Unrecognized command: help"
  {
    var keys := ["help", UnrecognizedCommandName];
    var commands := map["help" := HelpCommand, UnrecognizedCommandName := UnrecognizedHandler];
    IndexLookups("");
    assert Resolve(keys, commands, "help", false).None?;
    assert Resolve(keys, commands, UnrecognizedCommandName, true) == Some(UnrecognizedHandler);
  }

  /** Against the built-in index, "help" followed by a space lists the one visible command. */
  lemma HelpListsIndex(rest: string)
    ensures var keys := ["help", UnrecognizedCommandName];
      var commands := map["help" := HelpCommand, UnrecognizedCommandName := UnrecognizedHandler];
      WellKeyed(keys, commands) && CommandOutput(keys, commands, "help " + rest) == "Available commands:\nhelp\n"
  {
    var keys := ["help", UnrecognizedCommandName];
    var commands := map["help" := HelpCommand, UnrecognizedCommandName := UnrecognizedHandler];
    IndexLookups(rest);
    IndexHelpText();
    assert Resolve(keys, commands, "help " + rest, false) == Some(HelpCommand);
  }

  /** The help text of the built-in index lists "help" alone. */
  lemma IndexHelpText()
    ensures HelpText(["help", UnrecognizedCommandName]) == "Available commands:\nhelp\n"
  {
    IndexLookups("");
    assert HelpLines(["help"]) == "help\n" by {
      HelpLinesAppend([], "help");
      assert [] + ["help"] == ["help"];
      assert HelpLines([]) == "";
    }
  }

  // ---------------------------------------------------------------------------------------------
  // The shell object

  /** `Termlink`: the editor's fields, updated in place by the handlers, and its command registry. */
  class Termlink {
    var inputBuffer: string
    var inputQueue: string
    var cursorPosition: int
    var history: seq<string>
    var currentSelectedHistory: int
    var running: bool
    var output: string
    const registry: CommandRegistry

    function State(): Editor
      reads this
    {
      Editor(inputBuffer, inputQueue, cursorPosition, history, currentSelectedHistory, running, output)
    }

    ghost predicate Valid()
      reads this, registry
    {
      registry.Valid() && SelectionInRange(State())
    }

    /** A shell with empty line, queue and history, and `COMMAND_INDEX` registered. */
    constructor()
      ensures Valid() && fresh(registry) && State() == InitialEditor
      ensures registry.keys == ["help", UnrecognizedCommandName]
      ensures registry.commands == map["help" := HelpCommand, UnrecognizedCommandName := UnrecognizedHandler]
    {
      var index := IndexRegistry();
      inputBuffer := "";
      inputQueue := "";
      cursorPosition := 0;
      history := [];
      currentSelectedHistory := -1;
      running := true;
      output := "";
      registry := index;
    }

    method BellRing()
      requires Valid()
      modifies this
      ensures Valid()
      ensures State() == Ring(old(State()))
    {
      output := output + Bell;
    }

    method HandleNormalKey(key: Keycode)
      requires Valid()
      modifies this
      ensures Valid()
      ensures State() == NormalKey(old(State()), key.keycodeChar)
    {
      var pos := cursorPosition;
      inputBuffer := PyPrefix(inputBuffer, pos) + key.keycodeChar + PySuffix(inputBuffer, pos);
      cursorPosition := cursorPosition + 1;
    }

    method HandleBackspace()
      requires Valid()
      modifies this
      ensures Valid()
      ensures State() == Backspace(old(State()))
    {
      if cursorPosition > 0 {
        var pos := cursorPosition;
        inputBuffer := PyPrefix(inputBuffer, pos - 1) + PySuffix(inputBuffer, pos);
        cursorPosition := cursorPosition - 1;
      } else {
        BellRing();
      }
    }

    method HandleLeftArrow()
      requires Valid()
      modifies this
      ensures Valid()
      ensures State() == Left(old(State()))
    {
      if cursorPosition > 0 {
        cursorPosition := cursorPosition - 1;
      } else {
        BellRing();
      }
    }

    method HandleRightArrow()
      requires Valid()
      modifies this
      ensures Valid()
      ensures State() == Right(old(State()))
    {
      if cursorPosition < |inputBuffer| {
        cursorPosition := cursorPosition + 1;
      } else {
        BellRing();
      }
    }

    method HandleUpArrow()
      requires Valid()
      modifies this
      ensures Valid()
      ensures State() == Up(old(State()))
    {
      if currentSelectedHistory < |history| - 1 {
        currentSelectedHistory := currentSelectedHistory + 1;
        inputBuffer := history[currentSelectedHistory];
        cursorPosition := |inputBuffer|;
      } else {
        BellRing();
      }
    }

    method HandleDownArrow()
      requires Valid()
      modifies this
      ensures Valid()
      ensures State() == Down(old(State()))
    {
      if currentSelectedHistory > 0 {
        currentSelectedHistory := currentSelectedHistory - 1;
        inputBuffer := history[currentSelectedHistory];
        cursorPosition := |inputBuffer|;
      } else {
        BellRing();
      }
    }

    method HandleHomeKey()
      requires Valid()
      modifies this
      ensures Valid()
      ensures State() == Home(old(State()))
    {
      cursorPosition := 0;
    }

    method HandleEndKey()
      requires Valid()
      modifies this
      ensures Valid()
      ensures State() == End(old(State()))
    {
      cursorPosition := |inputBuffer|;
    }

    method HandleDeleteKey()
      requires Valid()
      modifies this
      ensures Valid()
      ensures State() == Delete(old(State()))
    {
      var pos := cursorPosition;
      if pos < |inputBuffer| {
        inputBuffer := PyPrefix(inputBuffer, pos) + PySuffix(inputBuffer, pos + 1);
      } else {
        BellRing();
      }
    }

    /** `TermlinkCommandHelp.handle`: a heading, then each registered name not starting with "_". */
    method HandleHelp()
      requires Valid()
      modifies this
      ensures Valid()
      ensures State() == old(State()).(output := old(output) + HelpText(registry.keys))
    {
      var lines := HelpListing(registry.keys);
      output := output + "Available commands:\n" + lines;
    }

    /** `command`: records the line, runs the first matching command or the fallback, between line breaks. */
    method Command(line: string)
      requires Valid()
      modifies this
      ensures Valid()
      ensures State() == old(State()).(history := old(history) + [line],
        output := old(output) + "\r\n" + CommandOutput(registry.keys, registry.commands, line) + "\r\n")
    {
      history := history + [line];
      output := output + "\r\n";
      var found := registry.GetCommandForShellInput(line, false);
      if found.None? {
        found := registry.GetCommandForShellInput(UnrecognizedCommandName, true);
      }
      if found.Some? {
        RunCommand(found.value, line);
      } else {
        output := output + "FATAL: expected builtin _unrecognized_command to be in registry";
      }
      output := output + "\r\n";
    }

    /** A command's `handle`, given the text typed. */
    method RunCommand(c: Commands.Command, passedText: string)
      requires Valid()
      modifies this
      ensures Valid()
      ensures State() == old(State()).(output := old(output) + HandleOutput(c, registry.keys, passedText))
    {
      match c.behaviour
      case NoOp =>
      case Help => HandleHelp();
      case UnrecognizedCommand => output := output + ("Unrecognized command: " + passedText);
    }

    method HandleEnterPress()
      requires Valid()
      modifies this
      ensures Valid()
      ensures State() == Enter(old(State()), registry.keys, registry.commands)
    {
      ghost var e := State();
      Command(inputBuffer);
      ghost var out := e.output + "\r\n" + CommandOutput(registry.keys, registry.commands, e.buffer) + "\r\n";
      assert output == out && history == e.history + [e.buffer];
      inputBuffer := "";
      cursorPosition := 0;
      assert State() == e.(history := e.history + [e.buffer], output := out, buffer := "", cursor := 0);
    }

    method HandleSpecialKey(key: Keycode)
      requires Valid()
      modifies this
      ensures Valid()
      ensures State() == SpecialKey(old(State()), key.ResolveFriendlyName(false))
    {
      var name := key.ResolveFriendlyName(false);
      if name == "Up" {
        HandleUpArrow();
      } else if name == "Down" {
        HandleDownArrow();
      } else if name == "Left" {
        HandleLeftArrow();
      } else if name == "Right" {
        HandleRightArrow();
      } else if name == "Home" {
        HandleHomeKey();
      } else if name == "End" {
        HandleEndKey();
      } else if name == "Delete" {
        HandleDeleteKey();
      }
    }

    method HandleExtraKey(extra: string)
      requires Valid()
      modifies this
      ensures Valid()
      ensures State() == ExtraKey(old(State()), extra, registry.keys, registry.commands)
    {
      if extra == "<enter>" {
        HandleEnterPress();
      } else if extra == "<backspace>" {
        HandleBackspace();
      } else if extra == "<ctrl+c>" {
        running := false;
      }
    }

    /** `handle_key_press`, for a key already passed through `escape_escape`. */
    method HandleKeyPress(key: string, parseExtra: string -> string)
      requires Valid()
      modifies this
      ensures Valid()
      ensures State() == KeyPress(old(State()), key, parseExtra, registry.keys, registry.commands)
      ensures Consistent(old(State())) && key != [] ==> Consistent(State())
    {
      ghost var e := State();
      inputQueue := inputQueue + key;
      var k := ParseKeycode(inputQueue, DefaultEscapeSequence);
      var extra := parseExtra(inputQueue);
      if k.IsSpecial() && k.IsPossiblyIncomplete() {
        return;
      }
      DispatchKey(k, extra);
      inputQueue := "";
      if Consistent(e) && key != [] {
        KeyPressConsistent(e, key, parseExtra, registry.keys, registry.commands);
      }
    }

    /** The branch of `handle_key_press` for a complete key: special key, extra key or ordinary text. */
    method DispatchKey(k: Keycode, extra: string)
      requires Valid()
      modifies this
      ensures Valid()
      ensures State() == Dispatch(old(State()), k, extra, registry.keys, registry.commands)
    {
      if k.IsSpecial() {
        HandleSpecialKey(k);
      } else if extra != "" {
        HandleExtraKey(extra);
      } else {
        HandleNormalKey(k);
      }
    }
  }

  /** The loop of `TermlinkCommandHelp.handle`: one line per name not starting with "_", in order. */
  method HelpListing(keys: seq<string>) returns (text: string)
    ensures text == HelpLines(HelpNames(keys))
  {
    text := "";
    var i := 0;
    while i < |keys|
      invariant 0 <= i <= |keys|
      invariant text == HelpLines(HelpNames(keys[..i]))
    {
      var name := keys[i];
      assert keys[..i + 1] == keys[..i] + [name];
      HelpLinesStep(keys[..i], name);
      if !StartsWith(name, "_") {
        text := text + (name + "\n");
      } else {
        assert text + "" == text;
      }
      i := i + 1;
    }
    assert keys[..i] == keys;
  }
}

=== FILE: textwrapping.dfy ===
/**
 * The line-splitting policies of TextWrapping.py. Each policy is a pure function over the words,
 * characters or lines of the text, and a method with the source's accumulator loop proved equal
 * to it. The width is a Python `int`, so it may be zero or negative.
 */
module TextWrapping {
  import opened Strings

  /** `WrappingBehaviour`. */
  datatype WrappingBehaviour = Word | Hard | Hyphenate | Truncate | TruncateWithEllipsis

  predicate AllWords(ws: seq<string>) {
    forall i :: 0 <= i < |ws| ==> IsWord(ws[i])
  }

  /** The words of every line, in order. */
  function FlatWords(lines: seq<string>): seq<string> {
    if lines == [] then [] else Words(lines[0]) + FlatWords(lines[1..])
  }

  /** A line is short (at most `width + 1` characters) or holds no space. */
  predicate ShortOrUnbroken(line: string, width: int) {
    |line| <= width + 1 || ' ' !in line
  }

  lemma WordHasNoSpace(w: string)
    requires IsWord(w)
    ensures ' ' !in w
  {
  }

  // ---------------------------------------------------------------------------------------------
  // word_wrap

  /**
   * The rest of `word_wrap`'s loop: `line` is the current line, `words` the words still to place.
   * A word starts a new line when `len(line) + len(word) > width`; the joining space is not counted.
   */
  function WordWrapFrom(words: seq<string>, line: string, width: int): (lines: seq<string>)
    ensures |lines| >= 1
    decreases |words|
  {
    if words == [] then [line]
    else
      var w := words[0];
      if |line| + |w| > width then [line] + WordWrapFrom(words[1..], w, width)
      else WordWrapFrom(words[1..], if line != "" then line + " " + w else w, width)
  }

  /** `word_wrap(text)`. */
  function WordWrapSpec(text: string, width: int): (lines: seq<string>)
    ensures |lines| >= 1
    ensures Words(text) == [] ==> lines == [""]
    ensures Words(text) != [] && |Words(text)[0]| > width ==> lines[0] == ""
  {
    WordWrapFrom(Words(text), "", width)
  }

  lemma JoinWordsNonEmpty(g: seq<string>)
    requires AllWords(g) && g != []
    ensures JoinWith(g, " ") != ""
  {
    if |g| > 1 {
      assert JoinWith(g, " ") == g[0] + " " + JoinWith(g[1..], " ");
    }
  }

  /**
   * Starting from a line holding the words `g`, every produced line is its own words joined by
   * single spaces, and the words of all lines are `g` followed by the remaining words.
   */
  lemma {:induction false} WordWrapFromWords(words: seq<string>, g: seq<string>, width: int)
    requires AllWords(words) && AllWords(g)
    ensures var lines := WordWrapFrom(words, JoinWith(g, " "), width);
      FlatWords(lines) == g + words &&
      forall i :: 0 <= i < |lines| ==> lines[i] == JoinWith(Words(lines[i]), " ")
    decreases |words|
  {
    var line := JoinWith(g, " ");
    WordsOfJoinSpace(g);
    if words == [] {
      assert FlatWords([line]) == Words(line) + FlatWords([]);
    } else {
      var w := words[0];
      assert JoinWith([w], " ") == w;
      if |line| + |w| > width {
        WordWrapFromWords(words[1..], [w], width);
        var rest := WordWrapFrom(words[1..], w, width);
        assert ([line] + rest)[1..] == rest;
        assert words == [w] + words[1..];
      } else {
        if line != "" {
          JoinWithSnoc(g, w, " ");
        } else if g != [] {
          JoinWordsNonEmpty(g);
        }
        assert line == "" ==> g + [w] == [w];
        WordWrapFromWords(words[1..], g + [w], width);
        assert g + [w] + words[1..] == g + words;
      }
    }
  }

  /**
   * `word_wrap` keeps the words: the words of the output lines are exactly `text.split()`, in
   * order, and each line is its words joined by single spaces.
   */
  lemma WordWrapKeepsWords(text: string, width: int)
    ensures FlatWords(WordWrapSpec(text, width)) == Words(text)
    ensures forall i :: 0 <= i < |WordWrapSpec(text, width)| ==>
      WordWrapSpec(text, width)[i] == JoinWith(Words(WordWrapSpec(text, width)[i]), " ")
  {
    WordWrapFromWords(Words(text), [], width);
  }

  lemma {:induction false} WordWrapFromBound(words: seq<string>, line: string, width: int)
    requires AllWords(words) && ShortOrUnbroken(line, width)
    ensures forall i :: 0 <= i < |WordWrapFrom(words, line, width)| ==> ShortOrUnbroken(WordWrapFrom(words, line, width)[i], width)
    decreases |words|
  {
    if words != [] {
      var w := words[0];
      WordHasNoSpace(w);
      if |line| + |w| > width {
        WordWrapFromBound(words[1..], w, width);
      } else {
        WordWrapFromBound(words[1..], if line != "" then line + " " + w else w, width);
      }
    }
  }

  /**
   * Because the fit test leaves out the joining space, `word_wrap` bounds a line by `width + 1`,
   * not `width`; a longer line is a single word.
   */
  lemma WordWrapBound(text: string, width: int)
    ensures forall i :: 0 <= i < |WordWrapSpec(text, width)| ==> ShortOrUnbroken(WordWrapSpec(text, width)[i], width)
  {
    WordWrapFromBound(Words(text), "", width);
  }

  /** "abc de" at width 5 comes out as one line of 6 characters. */
  lemma WordWrapOverflows()
    ensures WordWrapSpec("abc de", 5) == ["abc de"]
  {
    assert JoinWith(["abc", "de"], " ") == "abc de";
    assert IsWord("abc") && IsWord("de");
    WordsOfJoinSpace(["abc", "de"]);
  }

  /** `TextWrapping.word_wrap`. */
  method WordWrap(text: string, width: int) returns (lines: seq<string>)
    ensures lines == WordWrapSpec(text, width)
  {
    var words := Words(text);
    lines := [];
    var current := "";
    var i := 0;
    while i < |words|
      invariant i <= |words|
      invariant lines + WordWrapFrom(words[i..], current, width) == WordWrapSpec(text, width)
    {
      var word := words[i];
      assert words[i..][1..] == words[i + 1..];
      if |current| + |word| > width {
        assert WordWrapFrom(words[i..], current, width) == [current] + WordWrapFrom(words[i + 1..], word, width);
        lines := lines + [current];
        current := word;
      } else {
        ghost var next := if current != "" then current + " " + word else word;
        assert WordWrapFrom(words[i..], current, width) == WordWrapFrom(words[i + 1..], next, width);
        if current != "" {
          current := current + " ";
        }
        current := current + word;
        assert current == next;
      }
      i := i + 1;
    }
    lines := lines + [current];
  }

  // ---------------------------------------------------------------------------------------------
  // hard_wrap

  /** The rest of `hard_wrap`'s loop: a new line starts when the current one would pass `width`. */
  function HardWrapFrom(text: string, line: string, width: int): (lines: seq<string>)
    ensures |lines| >= 1
    decreases |text|
  {
    if text == [] then [line]
    else if |line| + 1 > width then [line] + HardWrapFrom(text[1..], [text[0]], width)
    else HardWrapFrom(text[1..], line + [text[0]], width)
  }

  /** `hard_wrap(text)`. */
  function HardWrapSpec(text: string, width: int): (lines: seq<string>)
    ensures |lines| >= 1
  {
    HardWrapFrom(text, "", width)
  }

  lemma {:induction false} HardWrapFromConcat(text: string, line: string, width: int)
    ensures Concat(HardWrapFrom(text, line, width)) == line + text
    decreases |text|
  {
    if text != [] {
      if |line| + 1 > width {
        var rest := HardWrapFrom(text[1..], [text[0]], width);
        HardWrapFromConcat(text[1..], [text[0]], width);
        assert ([line] + rest)[1..] == rest;
        assert [text[0]] + text[1..] == text;
      } else {
        HardWrapFromConcat(text[1..], line + [text[0]], width);
        assert line + [text[0]] + text[1..] == line + text;
      }
    }
  }

  /** `"".join(hard_wrap(text)) == text`: line breaks in the text are ordinary characters. */
  lemma HardWrapConcat(text: string, width: int)
    ensures Concat(HardWrapSpec(text, width)) == text
  {
    HardWrapFromConcat(text, "", width);
  }

  lemma {:induction false} HardWrapFromLengths(text: string, line: string, width: int)
    requires width >= 1 && |line| <= width
    ensures var lines := HardWrapFrom(text, line, width);
      (forall i :: 0 <= i < |lines| - 1 ==> |lines[i]| == width) &&
      |lines[|lines| - 1]| <= width &&
      (line != "" || text != "" ==> lines[|lines| - 1] != "")
    decreases |text|
  {
    if text != [] {
      if |line| + 1 > width {
        HardWrapFromLengths(text[1..], [text[0]], width);
      } else {
        HardWrapFromLengths(text[1..], line + [text[0]], width);
      }
    }
  }

  /**
   * For a positive width, `hard_wrap` cuts non-empty text into lines of exactly `width`
   * characters followed by one last line of 1 to `width` characters; empty text gives `[""]`.
   */
  lemma HardWrapLengths(text: string, width: int)
    requires width >= 1
    ensures var lines := HardWrapSpec(text, width);
      (forall i :: 0 <= i < |lines| - 1 ==> |lines[i]| == width) &&
      (text == "" ==> lines == [""]) &&
      (text != "" ==> 1 <= |lines[|lines| - 1]| <= width)
  {
    HardWrapFromLengths(text, "", width);
  }

  /** `TextWrapping.hard_wrap`. */
  method HardWrap(text: string, width: int) returns (lines: seq<string>)
    ensures lines == HardWrapSpec(text, width)
  {
    lines := [];
    var current := "";
    var i := 0;
    while i < |text|
      invariant i <= |text|
      invariant lines + HardWrapFrom(text[i..], current, width) == HardWrapSpec(text, width)
    {
      var ch := text[i];
      assert text[i..][1..] == text[i + 1..];
      if |current| + 1 > width {
        lines := lines + [current];
        current := [ch];
      } else {
        current := current + [ch];
      }
      i := i + 1;
    }
    lines := lines + [current];
  }

  // ---------------------------------------------------------------------------------------------
  // hyphenate_wrap

  /**
   * The rest of `hyphenate_wrap`'s loop: a word starts a new line when
   * `len(line) + len(word) + 1 > width`, and the line it leaves gets a trailing `"-"`.
   */
  function HyphenateFrom(words: seq<string>, line: string, width: int): (lines: seq<string>)
    ensures |lines| >= 1
    decreases |words|
  {
    if words == [] then [line]
    else
      var w := words[0];
      if |line| + |w| + 1 > width then [line + "-"] + HyphenateFrom(words[1..], w, width)
      else HyphenateFrom(words[1..], if line != "" then line + " " + w else w, width)
  }

  /** `hyphenate_wrap(text)`. */
  function HyphenateSpec(text: string, width: int): (lines: seq<string>)
    ensures |lines| >= 1
    ensures Words(text) == [] ==> lines == [""]
    ensures Words(text) != [] && |Words(text)[0]| + 1 > width ==> lines[0] == "-"
  {
    HyphenateFrom(Words(text), "", width)
  }

  /** A line without its last character (the hyphen of a broken line). */
  function DropLast(s: string): string {
    if s == [] then [] else s[..|s| - 1]
  }

  /** The words of hyphenated lines: every line but the last loses its trailing hyphen first. */
  function FlatWordsHyphenated(lines: seq<string>): seq<string> {
    if lines == [] then []
    else if |lines| == 1 then Words(lines[0])
    else Words(DropLast(lines[0])) + FlatWordsHyphenated(lines[1..])
  }

  lemma {:induction false} HyphenateFromWords(words: seq<string>, g: seq<string>, width: int)
    requires AllWords(words) && AllWords(g)
    ensures FlatWordsHyphenated(HyphenateFrom(words, JoinWith(g, " "), width)) == g + words
    decreases |words|
  {
    var line := JoinWith(g, " ");
    WordsOfJoinSpace(g);
    if words != [] {
      var w := words[0];
      assert JoinWith([w], " ") == w;
      if |line| + |w| + 1 > width {
        HyphenateFromWords(words[1..], [w], width);
        var rest := HyphenateFrom(words[1..], w, width);
        assert HyphenateFrom(words, line, width) == [line + "-"] + rest;
        assert ([line + "-"] + rest)[1..] == rest;
        assert DropLast(line + "-") == line;
        assert words == [w] + words[1..];
      } else {
        if line != "" {
          JoinWithSnoc(g, w, " ");
        } else if g != [] {
          JoinWordsNonEmpty(g);
        }
        assert line == "" ==> g + [w] == [w];
        HyphenateFromWords(words[1..], g + [w], width);
        assert g + [w] + words[1..] == g + words;
      }
    }
  }

  /** Every line but the last ends with a hyphen. */
  predicate BrokenWithHyphens(lines: seq<string>) {
    forall i :: 0 <= i < |lines| - 1 ==> |lines[i]| >= 1 && lines[i][|lines[i]| - 1] == '-'
  }

  lemma {:induction false} HyphenateFromHyphens(words: seq<string>, line: string, width: int)
    ensures BrokenWithHyphens(HyphenateFrom(words, line, width))
    decreases |words|
  {
    if words != [] {
      var w := words[0];
      if |line| + |w| + 1 > width {
        HyphenateFromHyphens(words[1..], w, width);
        var rest := HyphenateFrom(words[1..], w, width);
        var lines := [line + "-"] + rest;
        forall i | 0 <= i < |lines| - 1 ensures |lines[i]| >= 1 && lines[i][|lines[i]| - 1] == '-' {
          if i > 0 {
            assert lines[i] == rest[i - 1];
          }
        }
      } else {
        HyphenateFromHyphens(words[1..], if line != "" then line + " " + w else w, width);
      }
    }
  }

  /**
   * `hyphenate_wrap` keeps the words in order once the trailing hyphens are removed, and every
   * line but the last ends with `"-"`.
   */
  lemma HyphenateShape(text: string, width: int)
    ensures FlatWordsHyphenated(HyphenateSpec(text, width)) == Words(text)
    ensures BrokenWithHyphens(HyphenateSpec(text, width))
  {
    HyphenateFromWords(Words(text), [], width);
    HyphenateFromHyphens(Words(text), "", width);
  }

  lemma {:induction false} HyphenateFromLast(words: seq<string>, line: string, width: int)
    requires forall i :: 0 <= i < |words| ==> '-' !in words[i]
    requires '-' !in line
    ensures var lines := HyphenateFrom(words, line, width); '-' !in lines[|lines| - 1]
    decreases |words|
  {
    if words != [] {
      var w := words[0];
      if |line| + |w| + 1 > width {
        HyphenateFromLast(words[1..], w, width);
      } else {
        HyphenateFromLast(words[1..], if line != "" then line + " " + w else w, width);
      }
    }
  }

  /** When no word contains a hyphen, the last line of `hyphenate_wrap` has none. */
  lemma HyphenateLastLine(text: string, width: int)
    requires forall i :: 0 <= i < |Words(text)| ==> '-' !in Words(text)[i]
    ensures '-' !in HyphenateSpec(text, width)[|HyphenateSpec(text, width)| - 1]
  {
    HyphenateFromLast(Words(text), "", width);
  }

  /** `TextWrapping.hyphenate_wrap`. */
  method HyphenateWrap(text: string, width: int) returns (lines: seq<string>)
    ensures lines == HyphenateSpec(text, width)
  {
    var words := Words(text);
    lines := [];
    var current := "";
    var i := 0;
    while i < |words|
      invariant i <= |words|
      invariant lines + HyphenateFrom(words[i..], current, width) == HyphenateSpec(text, width)
    {
      var word := words[i];
      assert words[i..][1..] == words[i + 1..];
      if |current| + |word| + 1 > width {
        assert HyphenateFrom(words[i..], current, width) == [current + "-"] + HyphenateFrom(words[i + 1..], word, width);
        current := current + "-";
        lines := lines + [current];
        current := word;
      } else {
        ghost var next := if current != "" then current + " " + word else word;
        assert HyphenateFrom(words[i..], current, width) == HyphenateFrom(words[i + 1..], next, width);
        if current != "" {
          current := current + " ";
        }
        current := current + word;
        assert current == next;
      }
      i := i + 1;
    }
    lines := lines + [current];
  }

  // ---------------------------------------------------------------------------------------------
  // truncate_wrap and truncate_with_ellipsis_wrap

  /** One line of `truncate_wrap`: an over-long line is cut to `line[:width]`. */
  function TruncateLine(line: string, width: int): (r: string)
    ensures StartsWith(line, r)
    ensures |line| <= width ==> r == line
    ensures width >= 0 ==> |r| == if |line| <= width then |line| else width
  {
    if |line| > width then PyPrefix(line, width) else line
  }

  /** `truncate_wrap(text)`: one line per `"\n"`-separated piece of the text. */
  function TruncateSpec(text: string, width: int): (lines: seq<string>)
    ensures |lines| == |SplitOn(text, '\n')| >= 1
    ensures forall i :: 0 <= i < |lines| ==> lines[i] == TruncateLine(SplitOn(text, '\n')[i], width)
  {
    var pieces := SplitOn(text, '\n');
    seq(|pieces|, i requires 0 <= i < |pieces| => TruncateLine(pieces[i], width))
  }

  /** When every line fits, `"\n".join(truncate_wrap(text)) == text`. */
  lemma TruncateKeepsFittingText(text: string, width: int)
    requires forall i :: 0 <= i < |SplitOn(text, '\n')| ==> |SplitOn(text, '\n')[i]| <= width
    ensures JoinWith(TruncateSpec(text, width), "\n") == text
  {
    assert TruncateSpec(text, width) == SplitOn(text, '\n');
    JoinSplitOn(text, '\n');
  }

  /** `TextWrapping.truncate_wrap`. */
  method TruncateWrap(text: string, width: int) returns (lines: seq<string>)
    ensures lines == TruncateSpec(text, width)
  {
    var pieces := SplitOn(text, '\n');
    lines := [];
    var i := 0;
    while i < |pieces|
      invariant i <= |pieces|
      invariant lines == TruncateSpec(text, width)[..i]
    {
      var line := pieces[i];
      if |line| > width {
        line := PyPrefix(line, width);
      }
      lines := lines + [line];
      i := i + 1;
    }
  }

  /** One line of `truncate_with_ellipsis_wrap`: an over-long line becomes `line[:width - 3] + "..."`. */
  function EllipsisLine(line: string, width: int): (r: string)
    ensures |line| <= width ==> r == line
    ensures width >= 3 && |line| > width ==> |r| == width && r == line[..width - 3] + "..."
  {
    if |line| > width then PyPrefix(line, width - 3) + "..." else line
  }

  /** `truncate_with_ellipsis_wrap(text)`. */
  function EllipsisSpec(text: string, width: int): (lines: seq<string>)
    ensures |lines| == |SplitOn(text, '\n')| >= 1
    ensures forall i :: 0 <= i < |lines| ==> lines[i] == EllipsisLine(SplitOn(text, '\n')[i], width)
  {
    var pieces := SplitOn(text, '\n');
    seq(|pieces|, i requires 0 <= i < |pieces| => EllipsisLine(pieces[i], width))
  }

  /** For a width of at least 3, no line of `truncate_with_ellipsis_wrap` is longer than `width`. */
  lemma EllipsisBound(text: string, width: int)
    requires width >= 3
    ensures forall i :: 0 <= i < |EllipsisSpec(text, width)| ==> |EllipsisSpec(text, width)[i]| <= width
  {
  }

  /** Below width 3 the negative slice keeps characters: "abcd" at width 2 becomes "abc...". */
  lemma EllipsisOverflows()
    ensures EllipsisLine("abcd", 2) == "abc..."
  {
    assert PyPrefix("abcd", -1) == "abc";
  }

  /** `TextWrapping.truncate_with_ellipsis_wrap`. */
  method TruncateWithEllipsisWrap(text: string, width: int) returns (lines: seq<string>)
    ensures lines == EllipsisSpec(text, width)
  {
    var pieces := SplitOn(text, '\n');
    lines := [];
    var i := 0;
    while i < |pieces|
      invariant i <= |pieces|
      invariant lines == EllipsisSpec(text, width)[..i]
    {
      var line := pieces[i];
      if |line| > width {
        line := PyPrefix(line, width - 3) + "...";
      }
      lines := lines + [line];
      i := i + 1;
    }
  }

  // ---------------------------------------------------------------------------------------------
  // wrap

  /** `TextWrapping(method, width).wrap(text)`. */
  function WrapSpec(behaviour: WrappingBehaviour, width: int, text: string): (lines: seq<string>)
    ensures |lines| >= 1
  {
    match behaviour
    case Word => WordWrapSpec(text, width)
    case Hard => HardWrapSpec(text, width)
    case Hyphenate => HyphenateSpec(text, width)
    case Truncate => TruncateSpec(text, width)
    case TruncateWithEllipsis => EllipsisSpec(text, width)
  }

  /** `TextWrapping.wrap`: dispatches on the policy; every policy returns at least one line. */
  method Wrap(behaviour: WrappingBehaviour, width: int, text: string) returns (lines: seq<string>)
    ensures lines == WrapSpec(behaviour, width, text)
    ensures |lines| >= 1
  {
    match behaviour
    case Word => lines := WordWrap(text, width);
    case Hard => lines := HardWrap(text, width);
    case Hyphenate => lines := HyphenateWrap(text, width);
    case Truncate => lines := TruncateWrap(text, width);
    case TruncateWithEllipsis => lines := TruncateWithEllipsisWrap(text, width);
  }
}

=== FILE: views.dfy ===
/**
 * The view tree of View2D.py. A view renders to a fresh `CellField`; `RenderSpec` says what
 * picture (or which exception) each kind of view produces, and `Render` builds the field the way
 * the source does and is proved to match it.
 *
 * A `parent_callback` is only ever one of the local `pcallback` closures, which return a
 * dictionary; reading `.width` or `.height` of it raises. So the model passes only whether a
 * callback was given.
 */
module Views {
  import opened Wrappers
  import opened Strings
  import opened Style
  import opened Grid
  import opened CellFields
  import opened TextWrapping

  datatype Sizing = Fixed | Fill | Auto

  /** `View2DSize`: a sizing rule and a value, which `fill()` and `auto()` set to 0. */
  datatype View2DSize = View2DSize(sizing: Sizing, value: nat)

  function FixedSize(value: nat): View2DSize {
    View2DSize(Fixed, value)
  }

  function FillSize(): View2DSize {
    View2DSize(Fill, 0)
  }

  function AutoSize(): View2DSize {
    View2DSize(Auto, 0)
  }

  datatype FlowDirection = Rows | Columns
  datatype Alignment = AlignLeft | AlignCenter | AlignRight
  datatype Justification = JustifyStart | JustifyCenter | JustifyEnd

  /** `children`: `None`, or a list whose entries may be `None`. */
  datatype Children = NoChildren | ChildList(items: seq<Option<View2D>>)

  /** The view classes; the fields a subclass adds live in its kind. */
  datatype ViewKind =
    | Container
    | Padded(padding: nat)
    | PrimitiveText(text: string)
    | TextView(text: string, wrap: WrappingBehaviour)
    | Bordered(padding: nat, borderColor: Color, content: Option<View2D>)
    | Spacer

  /** A `View2D` (or subclass) with the base-class fields. */
  datatype View2D = View2D(
    kind: ViewKind,
    children: Children,
    direction: FlowDirection,
    alignment: Alignment,
    justification: Justification,
    spacing: nat,
    width: View2DSize,
    height: View2DSize,
    debugBg: bool)

  /** The exceptions a render raises. */
  datatype ViewError =
    | MaxOfEmpty            // `max()` over an empty sequence (ValueError)
    | WrongChildCount       // a padded view without exactly one child (ValueError)
    | FillWithoutCallback   // Fill sizing and no parent callback
    | CallbackWithoutWidth  // Fill sizing: the callback's dictionary has no `.width` (AttributeError)

  /** `PrimitiveTextView2D(text=line)` with every base field at its default. */
  function PrimitiveTextView(line: string): View2D {
    View2D(PrimitiveText(line), NoChildren, Rows, AlignLeft, JustifyStart, 0, AutoSize(), AutoSize(), false)
  }

  // ---------------------------------------------------------------------------------------------
  // Layout arithmetic of the container

  function Sum(xs: seq<nat>): nat {
    if xs == [] then 0 else xs[0] + Sum(xs[1..])
  }

  /** Python's `max()` over a sequence: `None` where it raises on an empty one. */
  function MaxOf(xs: seq<nat>): (m: Option<nat>)
    ensures m.None? <==> xs == []
    ensures m.Some? ==> m.value in xs && forall i :: 0 <= i < |xs| ==> xs[i] <= m.value
  {
    if xs == [] then None
    else if |xs| == 1 then Some(xs[0])
    else
      var rest := MaxOf(xs[1..]).value;
      Some(if xs[0] >= rest then xs[0] else rest)
  }

  function Widths(cs: seq<Canvas>): (ws: seq<nat>)
    ensures |ws| == |cs| && forall i :: 0 <= i < |cs| ==> ws[i] == cs[i].width
  {
    seq(|cs|, i requires 0 <= i < |cs| => cs[i].width)
  }

  function Heights(cs: seq<Canvas>): (hs: seq<nat>)
    ensures |hs| == |cs| && forall i :: 0 <= i < |cs| ==> hs[i] == cs[i].height
  {
    seq(|cs|, i requires 0 <= i < |cs| => cs[i].height)
  }

  /** The natural sizes of a container: summed widths and heights with spacing between, and the maxima. */
  datatype NaturalSize = NaturalSize(sumWidth: int, maxHeight: nat, sumHeight: int, maxWidth: nat)

  /**
   * The natural-size step of `View2D.render`: the sums succeed on any list, the maxima raise on
   * an empty one.
   */
  function NaturalSizes(rendered: seq<Canvas>, spacing: nat): (r: Result<NaturalSize, ViewError>)
    ensures r.Err? <==> rendered == []
    ensures r.Err? ==> r.error == MaxOfEmpty
    ensures r.Ok? ==> r.value.sumWidth == Sum(Widths(rendered)) + spacing * (|rendered| - 1)
    ensures r.Ok? ==> r.value.sumHeight == Sum(Heights(rendered)) + spacing * (|rendered| - 1)
    ensures r.Ok? ==> forall i :: 0 <= i < |rendered| ==> rendered[i].height <= r.value.maxHeight && rendered[i].width <= r.value.maxWidth
    ensures r.Ok? ==> exists i :: 0 <= i < |rendered| && rendered[i].height == r.value.maxHeight
    ensures r.Ok? ==> exists i :: 0 <= i < |rendered| && rendered[i].width == r.value.maxWidth
  {
    var sumWidth := Sum(Widths(rendered)) + spacing * (|rendered| - 1);
    var sumHeight := Sum(Heights(rendered)) + spacing * (|rendered| - 1);
    match MaxOf(Heights(rendered))
    case None => Err(MaxOfEmpty)
    case Some(maxHeight) => Ok(NaturalSize(sumWidth, maxHeight, sumHeight, MaxOf(Widths(rendered)).value))
  }

  /**
   * The first child's main-axis offset for a justification (unreachable behind the `max()`
   * failure): `floor((s - s) / 2)`, `s - s` and `0` are all zero.
   */
  function JustifyOffset(j: Justification, size: int): (offset: int)
    ensures offset == 0
  {
    match j
    case JustifyCenter => (size - size) / 2
    case JustifyEnd => size - size
    case JustifyStart => 0
  }

  /**
   * A child's cross-axis offset for an alignment (unreachable behind the `max()` failure):
   * 0, `floor((outer - inner) / 2)` or `outer - inner`. Dafny's `/` by 2 is floor division.
   */
  function AlignOffset(a: Alignment, outer: int, inner: int): (offset: int)
    ensures a == AlignLeft ==> offset == 0
    ensures a == AlignRight ==> offset + inner == outer
    ensures a == AlignCenter ==> 0 <= (outer - inner - offset) - offset <= 1
  {
    match a
    case AlignLeft => 0
    case AlignCenter => (outer - inner) / 2
    case AlignRight => outer - inner
  }

  /** Where the next child starts along the main axis (unreachable behind the `max()` failure). */
  function Advance(position: int, childSize: nat, spacing: nat): (next: int)
    ensures next >= position + childSize
    ensures next - (position + childSize) == spacing
  {
    position + childSize + spacing
  }

  /** The start positions of children of the given sizes, placed one after another from `start`. */
  function Positions(sizes: seq<nat>, start: int, spacing: nat): (ps: seq<int>)
    ensures |ps| == |sizes|
    decreases |sizes|
  {
    if sizes == [] then [] else [start] + Positions(sizes[1..], Advance(start, sizes[0], spacing), spacing)
  }

  /** Children placed by `Advance` never overlap: each starts at or after the end of the one before. */
  lemma {:induction false} PositionsDisjoint(sizes: seq<nat>, start: int, spacing: nat)
    ensures forall i :: 0 <= i < |sizes| - 1 ==>
      Positions(sizes, start, spacing)[i + 1] == Positions(sizes, start, spacing)[i] + sizes[i] + spacing
    decreases |sizes|
  {
    if |sizes| > 1 {
      var ps := Positions(sizes, start, spacing);
      var rest := Positions(sizes[1..], Advance(start, sizes[0], spacing), spacing);
      PositionsDisjoint(sizes[1..], Advance(start, sizes[0], spacing), spacing);
      assert ps == [start] + rest;
      forall i | 0 <= i < |sizes| - 1 ensures ps[i + 1] == ps[i] + sizes[i] + spacing {
        if i > 0 {
          assert ps[i] == rest[i - 1] && ps[i + 1] == rest[i] && sizes[i] == sizes[1..][i - 1];
        }
      }
    }
  }

  // ---------------------------------------------------------------------------------------------
  // Pictures

  /** `View2D.debug`'s effect: with `debug_bg` every cell gets a red background. */
  function Debug(v: View2D, c: Canvas): (r: Canvas)
    requires WellFormed(c)
    ensures WellFormed(r) && r.width == c.width && r.height == c.height
    ensures forall y, x :: 0 <= y < c.height && 0 <= x < c.width ==>
      r.cells[y][x].character == c.cells[y][x].character &&
      r.cells[y][x].properties == (if v.debugBg then c.cells[y][x].properties.(backgroundColor := Ansi(Red)) else c.cells[y][x].properties)
  {
    if v.debugBg then
      var a := c.cells;
      Canvas(c.width, c.height,
        seq(c.height, y requires 0 <= y < c.height => seq(c.width, x requires 0 <= x < c.width => BgColor(a[y][x], Ansi(Red)))))
    else c
  }

  /** The box-drawing character of `BorderedView2D`'s border function, by if-chain precedence. */
  function BoxGlyph(width: nat, height: nat, x: nat, y: nat): (g: Option<char>)
    ensures g.None? <==> !OnRing(width, height, x, y)
    ensures g.Some? ==> g.value in {'┌', '└', '┐', '┘', '│', '─'}
  {
    if x == 0 && y == 0 then Some('┌')
    else if x == 0 && y == height - 1 then Some('└')
    else if x == width - 1 && y == 0 then Some('┐')
    else if x == width - 1 && y == height - 1 then Some('┘')
    else if x == 0 || x == width - 1 then Some('│')
    else if y == 0 || y == height - 1 then Some('─')
    else None
  }

  /** The border function: the glyph in the border colour, or `Cell(" ")`. */
  function BorderCell(color: Color, width: nat, height: nat, x: nat, y: nat): (cell: Cell)
    ensures !OnRing(width, height, x, y) ==> cell == Space
    ensures OnRing(width, height, x, y) ==>
      cell.character == BoxGlyph(width, height, x, y).value &&
      cell.properties == DefaultProperties.(foregroundColor := color)
  {
    match BoxGlyph(width, height, x, y)
    case Some(g) => FgColor(Plain(g), color)
    case None => Space
  }

  /** The border function `BorderedView2D.render` hands to `apply_border`. */
  function BorderFunction(color: Color): (f: (nat, nat, nat, nat) -> Cell)
    ensures forall w: nat, h: nat, x: nat, y: nat :: f.requires(w, h, x, y) && f(w, h, x, y) == BorderCell(color, w, h, x, y)
  {
    (w: nat, h: nat, x: nat, y: nat) => BorderCell(color, w, h, x, y)
  }

  /**
   * On a field at least 2 by 2 the border draws the four corners, `│` down the sides and `─`
   * along the top and bottom, and nothing inside.
   */
  lemma BoxGlyphRing(width: nat, height: nat, x: nat, y: nat)
    requires width >= 2 && height >= 2 && x < width && y < height
    ensures (x == 0 || x == width - 1) && (y == 0 || y == height - 1) ==>
      BoxGlyph(width, height, x, y) == Some(if x == 0 then (if y == 0 then '┌' else '└') else (if y == 0 then '┐' else '┘'))
    ensures (x == 0 || x == width - 1) && 0 < y < height - 1 ==> BoxGlyph(width, height, x, y) == Some('│')
    ensures 0 < x < width - 1 && (y == 0 || y == height - 1) ==> BoxGlyph(width, height, x, y) == Some('─')
    ensures BoxGlyph(width, height, x, y).None? <==> !OnRing(width, height, x, y)
  {
  }

  /** The picture of `PrimitiveTextView2D(text)`: one row holding the characters with default properties. */
  function TextRow(text: string): (c: Canvas)
    ensures WellFormed(c) && c.width == |text| && c.height == 1
    ensures forall i :: 0 <= i < |text| ==> c.cells[0][i] == Plain(text[i])
  {
    Canvas(|text|, 1, [seq(|text|, i requires 0 <= i < |text| => Plain(text[i]))])
  }

  /** The base `View2D.render` for a child list: no list gives 0 by 0, any list fails at `max()`. */
  function ContainerRender(children: Children, spacing: nat): (r: Result<Canvas, ViewError>)
    ensures children.NoChildren? ==> r == Ok(Blank(0, 0))
    ensures children.ChildList? ==> r == Err(MaxOfEmpty)
  {
    if children.NoChildren? then Ok(Blank(0, 0))
    else
      // The natural sizes are taken over the children rendered so far, and none has been yet.
      // NaturalSizes of an empty list is always its `max()` error.
      var sizes := NaturalSizes([], spacing);
      Err(sizes.error)
  }

  /** The longest line of a text, split on `"\n"`. */
  function LongestLine(lines: seq<string>): (n: nat)
    ensures forall i :: 0 <= i < |lines| ==> |lines[i]| <= n
  {
    if lines == [] then 0
    else
      var rest := LongestLine(lines[1..]);
      if |lines[0]| >= rest then |lines[0]| else rest
  }

  /** The border field's size for a content field and a padding. */
  function PaddedBlank(content: Canvas, padding: nat): (c: Canvas)
    ensures WellFormed(c) && c.width == content.width + 2 * padding && c.height == content.height + 2 * padding
  {
    Blank(content.width + padding * 2, content.height + padding * 2)
  }

  /** A bordered view's picture around its rendered content: border ring, debug colouring, then the content. */
  function Framed(v: View2D, inner: Canvas): (c: Canvas)
    requires v.kind.Bordered? && WellFormed(inner)
    ensures WellFormed(c)
    ensures c.width == inner.width + 2 * v.kind.padding && c.height == inner.height + 2 * v.kind.padding
  {
    var p := v.kind.padding;
    var ring := Debug(v, WithBorder(PaddedBlank(inner, p), BorderFunction(v.kind.borderColor)));
    Overlay(ring, inner, p, p)
  }

  /** The content sits whole `padding` cells in from the frame's top-left corner. */
  lemma FramedPlacesContent(v: View2D, inner: Canvas)
    requires v.kind.Bordered? && WellFormed(inner)
    ensures forall i, j :: 0 <= i < inner.width && 0 <= j < inner.height ==>
      CellAt(Framed(v, inner), i + v.kind.padding, j + v.kind.padding) == CellAt(inner, i, j)
  {
    var p := v.kind.padding;
    var ring := Debug(v, WithBorder(PaddedBlank(inner, p), BorderFunction(v.kind.borderColor)));
    OverlayPlaced(ring, inner, p);
  }

  /** What rendering `v` gives, given whether a parent callback is passed. */
  function RenderSpec(v: View2D, hasCallback: bool): (r: Result<Canvas, ViewError>)
    ensures r.Ok? ==> WellFormed(r.value)
    decreases v, 1
  {
    match v.kind
    case Container => ContainerRender(v.children, v.spacing)
    case TextView(_, _) => TextViewSpec(v, hasCallback)
    case Padded(_) => PaddedSpec(v)
    case PrimitiveText(text) => Ok(TextRow(text))
    case Bordered(_, _, _) => BorderedSpec(v)
    case Spacer => Ok(Debug(v, Blank(v.width.value, v.height.value)))
  }

  /**
   * `TextView2D.render`: Fill sizing fails on the callback; otherwise the text is wrapped to the
   * fixed width or to its longest line, and a stack of one primitive view per line is rendered.
   */
  function TextViewSpec(v: View2D, hasCallback: bool): (r: Result<Canvas, ViewError>)
    requires v.kind.TextView?
    ensures r.Err?
    ensures v.width.sizing == Fill ==> r.error == (if hasCallback then CallbackWithoutWidth else FillWithoutCallback)
    ensures v.width.sizing != Fill ==> r.error == MaxOfEmpty
  {
    if v.width.sizing == Fill then Err(if hasCallback then CallbackWithoutWidth else FillWithoutCallback)
    else
      var width := if v.width.sizing == Auto then LongestLine(SplitOn(v.kind.text, '\n')) else v.width.value;
      var lines := WrapSpec(v.kind.wrap, width, v.kind.text);
      ContainerRender(ChildList(seq(|lines|, i requires 0 <= i < |lines| => Some(PrimitiveTextView(lines[i])))), 0)
  }

  /**
   * `PaddedView2D.render`: no child list or a `None` child gives 0 by 0, a list of another length
   * than 1 raises, and otherwise the child, rendered with a callback, is placed `padding` in.
   */
  function PaddedSpec(v: View2D): (r: Result<Canvas, ViewError>)
    requires v.kind.Padded?
    ensures r.Ok? ==> WellFormed(r.value)
    decreases v, 0
  {
    if v.children.NoChildren? then Ok(Blank(0, 0))
    else if |v.children.items| != 1 then Err(WrongChildCount)
    else if v.children.items[0].None? then Ok(Blank(0, 0))
    else
      assert v.children.items[0] in v.children.items;
      match RenderSpec(v.children.items[0].value, true)
      case Err(e) => Err(e)
      case Ok(child) => Ok(Overlay(PaddedBlank(child, v.kind.padding), child, v.kind.padding, v.kind.padding))
  }

  /** `BorderedView2D.render`: no content gives 0 by 0; otherwise the content, rendered without a callback, is framed. */
  function BorderedSpec(v: View2D): (r: Result<Canvas, ViewError>)
    requires v.kind.Bordered?
    ensures r.Ok? ==> WellFormed(r.value)
    decreases v, 0
  {
    if v.kind.content.None? then Ok(Blank(0, 0))
    else
      match RenderSpec(v.kind.content.value, false)
      case Err(e) => Err(e)
      case Ok(inner) => Ok(Framed(v, inner))
  }

  // ---------------------------------------------------------------------------------------------
  // Properties of the pictures

  /**
   * A base container renders only when it has no child list; with any list, even an empty one,
   * `max()` over the not yet rendered children raises.
   */
  lemma ContainerFails(v: View2D, hasCallback: bool)
    requires v.kind.Container?
    ensures v.children.NoChildren? ==> RenderSpec(v, hasCallback) == Ok(Blank(0, 0))
    ensures v.children.ChildList? ==> RenderSpec(v, hasCallback) == Err(MaxOfEmpty)
  {
  }

  /** A `TextView2D` never renders: Fill sizing fails on the callback, anything else in the stack. */
  lemma TextViewFails(v: View2D, hasCallback: bool)
    requires v.kind.TextView?
    ensures RenderSpec(v, hasCallback).Err?
    ensures v.width.sizing != Fill ==> RenderSpec(v, hasCallback).error == MaxOfEmpty
  {
  }

  /** A `PrimitiveTextView2D` is one row of its characters in default style. */
  lemma PrimitiveTextShape(v: View2D, hasCallback: bool)
    requires v.kind.PrimitiveText?
    ensures RenderSpec(v, hasCallback).Ok?
    ensures var c := RenderSpec(v, hasCallback).value;
      c.width == |v.kind.text| && c.height == 1 &&
      forall i :: 0 <= i < |v.kind.text| ==> CellAt(c, i, 0) == Plain(v.kind.text[i])
  {
  }

  /**
   * A padded view with one rendered child is the child, moved by `padding` in both directions,
   * in a frame of blank cells `padding` wide.
   */
  lemma PaddedShape(v: View2D)
    requires v.kind.Padded? && v.children.ChildList? && |v.children.items| == 1 && v.children.items[0].Some?
    requires RenderSpec(v.children.items[0].value, true).Ok?
    ensures PaddedSpec(v).Ok?
    ensures var child := RenderSpec(v.children.items[0].value, true).value;
      var p := v.kind.padding;
      var c := PaddedSpec(v).value;
      c.width == child.width + 2 * p && c.height == child.height + 2 * p &&
      (forall x, y :: CellAt(c, x + p, y + p) == CellAt(child, x, y)) &&
      (forall x, y :: InBounds(c, x, y) && !(p <= x < p + child.width && p <= y < p + child.height) ==> CellAt(c, x, y) == Space)
  {
    var child := RenderSpec(v.children.items[0].value, true).value;
    var p := v.kind.padding;
    assert PaddedSpec(v) == Ok(Overlay(PaddedBlank(child, p), child, p, p));
    OverlayOnBlank(child, p);
  }

  /** A padded view with a child list of another length raises. */
  lemma PaddedChildCount(v: View2D)
    requires v.kind.Padded? && v.children.ChildList? && |v.children.items| != 1
    ensures PaddedSpec(v) == Err(WrongChildCount)
  {
  }

  /**
   * A bordered view without debug colouring and with padding at least 1: the ring of the field is
   * the border function's cells, and the content sits `padding` in from the edges.
   */
  lemma BorderedShape(v: View2D)
    requires v.kind.Bordered? && v.kind.content.Some? && v.kind.padding >= 1 && !v.debugBg
    requires RenderSpec(v.kind.content.value, false).Ok?
    ensures BorderedSpec(v).Ok?
    ensures var inner := RenderSpec(v.kind.content.value, false).value;
      var p := v.kind.padding;
      var c := BorderedSpec(v).value;
      c.width == inner.width + 2 * p && c.height == inner.height + 2 * p &&
      (forall x: nat, y: nat :: InBounds(c, x, y) && OnRing(c.width, c.height, x, y) ==>
        CellAt(c, x, y) == BorderCell(v.kind.borderColor, c.width, c.height, x, y)) &&
      (forall x, y :: 0 <= x < inner.width && 0 <= y < inner.height ==> CellAt(c, x + p, y + p) == CellAt(inner, x, y))
  {
    var inner := RenderSpec(v.kind.content.value, false).value;
    var p := v.kind.padding;
    var c := Framed(v, inner);
    var ring := WithBorder(PaddedBlank(inner, p), BorderFunction(v.kind.borderColor));
    assert BorderedSpec(v) == Ok(c);
    forall x: nat, y: nat | InBounds(c, x, y) && OnRing(c.width, c.height, x, y)
      ensures CellAt(c, x, y) == BorderCell(v.kind.borderColor, c.width, c.height, x, y)
    {
      assert CellAt(c, x, y) == CellAt(ring, x, y);
    }
  }

  /** With no padding the content covers the whole field, border included. */
  lemma BorderedUnpadded(v: View2D)
    requires v.kind.Bordered? && v.kind.content.Some? && v.kind.padding == 0
    requires RenderSpec(v.kind.content.value, false).Ok?
    ensures BorderedSpec(v) == RenderSpec(v.kind.content.value, false)
  {
    var inner := RenderSpec(v.kind.content.value, false).value;
    var ring := WithBorder(PaddedBlank(inner, 0), BorderFunction(v.kind.borderColor));
    assert BorderedSpec(v) == Ok(Framed(v, inner));
    OverlayWhole(Debug(v, ring), inner);
  }

  /** A spacer is `width.value` by `height.value` blank cells; Auto and Fill sizes are 0. */
  lemma SpacerShape(v: View2D, hasCallback: bool)
    requires v.kind.Spacer?
    ensures var c := RenderSpec(v, hasCallback).value;
      RenderSpec(v, hasCallback).Ok? && c.width == v.width.value && c.height == v.height.value &&
      forall x, y :: InBounds(c, x, y) ==> CellAt(c, x, y).character == ' '
    ensures v.width == AutoSize() || v.width == FillSize() ==> RenderSpec(v, hasCallback).value.width == 0
  {
  }

  // ---------------------------------------------------------------------------------------------
  // Rendering into fields

  /** `View2D.debug(f)`: with `debug_bg` set, gives every cell of `f` a red background. */
  method DebugField(v: View2D, f: CellField)
    requires f.Valid()
    modifies f.field
    ensures f.Valid() && f.Model() == Debug(v, old(f.Model()))
  {
    ghost var c0 := f.Model();
    ghost var goal := Debug(v, c0);
    if v.debugBg {
      var y := 0;
      while y < f.height
        invariant y <= f.height && f.Valid()
        invariant forall j, i :: 0 <= j < f.height && 0 <= i < f.width ==>
          f.Model().cells[j][i] == (if j < y then goal.cells[j][i] else c0.cells[j][i])
      {
        var x := 0;
        while x < f.width
          invariant x <= f.width && f.Valid()
          invariant forall j, i :: 0 <= j < f.height && 0 <= i < f.width ==>
            f.Model().cells[j][i] == (if j < y || (j == y && i < x) then goal.cells[j][i] else c0.cells[j][i])
        {
          f.Set(x, y, BgColor(f.Get(x, y), Ansi(Red)));
          x := x + 1;
        }
        y := y + 1;
      }
    }
    var m := f.Model();
    forall j | 0 <= j < f.height ensures m.cells[j] == goal.cells[j] {
      assert |m.cells[j]| == |goal.cells[j]|;
    }
  }

  /** `field.field.composite(top.field, x, y)` on two valid fields. */
  method CompositeField(f: CellField, top: CellField, x: nat, y: nat)
    requires f.Valid() && top.Valid() && f.field != top.field
    modifies f.field
    ensures f.Valid() && f.Model() == Overlay(old(f.Model()), top.Model(), x, y)
  {
    UnwrappedComposited(f.field.cells, f.height, f.width, top.field.cells, top.height, top.width, x, y);
    f.field.Composite(top.field, x, y);
  }

  /** `PrimitiveTextView2D.render`: one `set` per character of the text. */
  method RenderPrimitiveText(text: string) returns (f: CellField)
    ensures fresh(f) && fresh(f.field) && f.Valid() && f.Model() == TextRow(text)
  {
    f := new CellField(|text|, 1);
    var i := 0;
    while i < |text|
      invariant i <= |text| && f.Valid() && fresh(f.field)
      invariant forall j :: 0 <= j < |text| ==> f.Model().cells[0][j] == (if j < i then Plain(text[j]) else Space)
    {
      f.Set(i, 0, Plain(text[i]));
      i := i + 1;
    }
    var m := f.Model();
    var goal := TextRow(text);
    assert m.cells[0] == goal.cells[0];
  }

  /** The base `View2D.render`. */
  method RenderContainer(children: Children, spacing: nat) returns (res: Result<CellField, ViewError>)
    ensures res.Err? <==> ContainerRender(children, spacing).Err?
    ensures res.Err? ==> res.error == ContainerRender(children, spacing).error
    ensures res.Ok? ==>
      fresh(res.value) && fresh(res.value.field) && res.value.Valid() && res.value.Model() == ContainerRender(children, spacing).value
  {
    if children.NoChildren? {
      var f := new CellField(0, 0);
      return Ok(f);
    }
    var rendered: seq<Canvas> := [];
    var sizes := NaturalSizes(rendered, spacing);
    return Err(sizes.error);
  }

  /** `View2D.render` and its overrides, dispatched on the kind of view. */
  method Render(v: View2D, hasCallback: bool) returns (res: Result<CellField, ViewError>)
    ensures res.Err? <==> RenderSpec(v, hasCallback).Err?
    ensures res.Err? ==> res.error == RenderSpec(v, hasCallback).error
    ensures res.Ok? ==>
      fresh(res.value) && fresh(res.value.field) && res.value.Valid() && res.value.Model() == RenderSpec(v, hasCallback).value
    decreases v, 1
  {
    match v.kind
    case Container =>
      res := RenderContainer(v.children, v.spacing);
    case TextView(_, _) =>
      res := RenderTextView(v, hasCallback);
    case Padded(_) =>
      res := RenderPadded(v);
    case PrimitiveText(text) =>
      var f := RenderPrimitiveText(text);
      return Ok(f);
    case Bordered(_, _, _) =>
      res := RenderBordered(v);
    case Spacer =>
      var f := new CellField(v.width.value, v.height.value);
      DebugField(v, f);
      return Ok(f);
  }

  /** `TextView2D.render`: wraps the text, then renders a stack of one primitive view per line. */
  method RenderTextView(v: View2D, hasCallback: bool) returns (res: Result<CellField, ViewError>)
    requires v.kind.TextView?
    ensures res.Err? <==> TextViewSpec(v, hasCallback).Err?
    ensures res.Err? ==> res.error == TextViewSpec(v, hasCallback).error
    ensures res.Ok? ==>
      fresh(res.value) && fresh(res.value.field) && res.value.Valid() && res.value.Model() == TextViewSpec(v, hasCallback).value
  {
    var text := v.kind.text;
    if v.width.sizing == Fill {
      return Err(if hasCallback then CallbackWithoutWidth else FillWithoutCallback);
    }
    var width := if v.width.sizing == Auto then LongestLine(SplitOn(text, '\n')) else v.width.value;
    var lines := Wrap(v.kind.wrap, width, text);
    var children := seq(|lines|, i requires 0 <= i < |lines| => Some(PrimitiveTextView(lines[i])));
    res := RenderContainer(ChildList(children), 0);
  }

  /** `PaddedView2D.render`: the single child, rendered with a callback, composited `padding` in. */
  method RenderPadded(v: View2D) returns (res: Result<CellField, ViewError>)
    requires v.kind.Padded?
    ensures res.Err? <==> PaddedSpec(v).Err?
    ensures res.Err? ==> res.error == PaddedSpec(v).error
    ensures res.Ok? ==>
      fresh(res.value) && fresh(res.value.field) && res.value.Valid() && res.value.Model() == PaddedSpec(v).value
    decreases v, 0
  {
    var padding := v.kind.padding;
    if v.children.NoChildren? {
      var f := new CellField(0, 0);
      return Ok(f);
    }
    if |v.children.items| != 1 {
      return Err(WrongChildCount);
    }
    if v.children.items[0].None? {
      var f := new CellField(0, 0);
      return Ok(f);
    }
    assert v.children.items[0] in v.children.items;
    var child := Render(v.children.items[0].value, true);
    if child.Err? {
      return Err(child.error);
    }
    var f := PadField(child.value, padding);
    return Ok(f);
  }

  /** A fresh field `padding` larger than `cf` on every side, holding `cf` composited `padding` in. */
  method PadField(cf: CellField, padding: nat) returns (f: CellField)
    requires cf.Valid()
    ensures fresh(f) && fresh(f.field) && f.Valid()
    ensures f.Model() == Overlay(PaddedBlank(cf.Model(), padding), cf.Model(), padding, padding)
  {
    f := new CellField(cf.width + padding * 2, cf.height + padding * 2);
    CompositeField(f, cf, padding, padding);
  }

  /** The body of `BorderedView2D.render` once the content is rendered: a fresh field of the padded size framing `cf`. */
  method FrameField(v: View2D, cf: CellField) returns (f: CellField)
    requires v.kind.Bordered? && cf.Valid()
    ensures fresh(f) && fresh(f.field) && f.Valid() && f.Model() == Framed(v, cf.Model())
  {
    f := RingField(v, cf);
    CompositeField(f, cf, v.kind.padding, v.kind.padding);
  }

  /** A fresh field `padding` larger than `cf` on every side, with the border ring painted, then debug colouring. */
  method RingField(v: View2D, cf: CellField) returns (f: CellField)
    requires v.kind.Bordered? && cf.Valid()
    ensures fresh(f) && fresh(f.field) && f.Valid()
    ensures f.Model() == Debug(v, WithBorder(PaddedBlank(cf.Model(), v.kind.padding), BorderFunction(v.kind.borderColor)))
  {
    ghost var content := cf.Model();
    var padding := v.kind.padding;
    f := new CellField(cf.width + padding * 2, cf.height + padding * 2);
    assert f.Model() == PaddedBlank(content, padding);
    f.ApplyBorder(BorderFunction(v.kind.borderColor));
    ghost var ring := WithBorder(PaddedBlank(content, padding), BorderFunction(v.kind.borderColor));
    assert f.Model() == ring;
    DebugField(v, f);
    assert cf.Model() == content;
  }

  /** `BorderedView2D.render`: border ring, debug colouring, then the content composited `padding` in. */
  method RenderBordered(v: View2D) returns (res: Result<CellField, ViewError>)
    requires v.kind.Bordered?
    ensures res.Err? <==> BorderedSpec(v).Err?
    ensures res.Err? ==> res.error == BorderedSpec(v).error
    ensures res.Ok? ==>
      fresh(res.value) && fresh(res.value.field) && res.value.Valid() && res.value.Model() == BorderedSpec(v).value
    decreases v, 0
  {
    if v.kind.content.None? {
      var f := new CellField(0, 0);
      return Ok(f);
    }
    var inner := Render(v.kind.content.value, false);
    if inner.Err? {
      return Err(inner.error);
    }
    var f := FrameField(v, inner.value);
    return Ok(f);
  }
}

=== FILE: wrappers.dfy ===
/** Failure-compatible result types shared by every module of the model. */
module Wrappers {

  /** An optional value; `None` also stands for Python's `None`. */
  datatype Option<+T> = None | Some(value: T) {
    /** The value when there is one, `default` otherwise, like `dict.get(key, default)`. */
    function UnwrapOr(default: T): (v: T)
      ensures Some? ==> v == value
      ensures None? ==> v == default
    {
      match this
      case Some(x) => x
      case None => default
    }
  }

  /** The outcome of an operation that can raise: `Err` carries the kind of exception. */
  datatype Result<+T, +E> = Ok(value: T) | Err(error: E)
}
